=== FILE: README.md ===
# Chamfer distance transform and GPU cascade loading, modelled in Dafny

This project models two parts of OpenCV.

- **`cvDistTransform`** (`opencv/src/cv/cvdistransform.cpp`) is the two-pass chamfer distance transform:
  - the table of preset metric weights;
  - the argument checks and the mask-size rewrite;
  - the 3x3 and 5x5 kernels on a padded fixed-point `int` buffer;
  - the label-propagating 5x5 kernel.

  The buffer is a `seq<seq<int>>` of rows: image pixel `(i, j)` is cell `(i + b, j + b)`, where `b` is the border.

  A kernel reads a list of taps. Each tap is a neighbour offset and the weight added to that neighbour's distance, kept in the order the C code tries them. The backward pass reads the point-mirrored taps in the same order.

  Each pass is a method whose loop invariants give this result: every image cell satisfies that pass's equation on the final buffer. The equations have a unique solution, so the distance map does not depend on what the work buffer held before the call.

- **The cascade loaders of the GPU object detector** (`opencv/modules/gpu/src/cascadeclassifier.cpp`):
  - `CascadeClassifier_GPU_LBP::read` flattens a boosted LBP cascade into a stage array and the tree, node, leaf, subset and feature arrays.
  - The scale-pyramid scheduler of the LBP `detectMultiScale` covers the `cv::Size` operators, `PyrLavel`, and the loop that packs the integral images of consecutive levels into one buffer. The loop is modelled with `isFeasible` both as written and corrected (see Findings).
  - The minimum-search-size rule of the Haar `detectMultiScale` (module `HaarMinSize`).
  - `loadFromXML` converts a legacy Haar cascade into the stage, node and feature arrays of the NCV detector.

Integers are unbounded. The C integer semantics that matter are written out: the `unsigned` cast (`HaarMinSize.U32`), truncating division (`LbpCascade.TruncDiv`) and `saturate_cast<uchar>` (`LbpCascade.SaturateByte`). The chamfer kernels require 32-bit headroom, so their `int` arithmetic cannot overflow. The counters and offsets of the pyramid and of the two loaders are unbounded integers; see Left out.

Three points where the code's behaviour is easy to misread:

- **Scan step.** The step is `1 + (scale <= 2)` (`cascadeclassifier.cpp:395`): 2 pixels up to scale 2, and 1 pixel above. `Pyramid.Step` states this.
- **Work area.** `workArea` is `sFrame - window + 1` with no clamp (line 342). Only `isFeasible` tests its sign. `Pyramid.WorkArea` follows the code.
- **LBP node records.** The model of `read` steps through `internalNodes` one whole record of `nodeStep` values at a time. For a categorical cascade (`maxCatCount > 0`) made of whole records, this is exactly what the code reads (`LbpCascade.NodesAsWrittenCategorical`). For the other case, see Findings.

## Model

| member | source | states |
|---|---|---|
| ChamferBuffer.Relax | opencv/src/cv/cvdistransform.cpp:97-104 | The chain of `t = ...; if (t0 > t) t0 = t;` steps yields the minimum of `t0` and the candidates it tries: no larger than any of them, and equal to `t0` or to one of them. |
| ChamferBuffer.RelaxUnchanged | opencv/src/cv/cvdistransform.cpp:97-104 | Overwriting a buffer cell that no tap reads does not change the relaxed value. |
| ChamferBuffer.RelaxAgree | opencv/src/cv/cvdistransform.cpp:97-104 | Two buffers that agree on every cell the taps read relax to the same value. |
| ChamferBuffer.InitTopBottom | opencv/src/cv/cvdistransform.cpp:46-63 | The top `border` rows and the bottom `border` rows hold `ICV_INIT_DIST0` in every column, including padding. Every image row keeps its old contents. |
| ChamferForward.ForwardCellIsMin | opencv/src/cv/cvdistransform.cpp:91-105 | A non-zero pixel's forward value is the smallest candidate of its causal neighbours. The labelled kernel, which starts from `ICV_INIT_DIST0`, caps the value at that sentinel and otherwise takes a candidate. |
| ChamferForward.ForwardCellBound | opencv/src/cv/cvdistransform.cpp:98 | A forward value is at most the value above it plus `HV_DIST`. It is never negative when its neighbours are not. |
| ChamferForward.SetRowPadding | opencv/src/cv/cvdistransform.cpp:88-89 | The `border` cells left and right of one row become `ICV_INIT_DIST0`. Every other cell is kept. |
| ChamferForward.ForwardRow | opencv/src/cv/cvdistransform.cpp:91-106 | After one row, every image cell of it holds its forward value. The rows above are unchanged and finished. |
| ChamferForward.ForwardPass | opencv/src/cv/cvdistransform.cpp:82-107 | After the forward raster pass, all padding holds the sentinel. Every image cell holds its forward value computed from the final buffer: 0 for a zero pixel, otherwise the minimum over the causal taps. Every value lies in `[0, ICV_INIT_DIST0 + h * HV_DIST]`. |
| ChamferBackward.BackwardCellRange | opencv/src/cv/cvdistransform.cpp:117-129 | The backward value never exceeds the forward one. An entry of at most `HV_DIST` is kept (`if (t0 > HV_DIST)`). A larger one is no larger than any anti-causal candidate. |
| ChamferBackward.BackwardRow | opencv/src/cv/cvdistransform.cpp:115-131 | One row, scanned right to left: each image cell gets its backward value. The rows below are unchanged and finished. |
| ChamferBackward.BackwardPass | opencv/src/cv/cvdistransform.cpp:109-132 | The backward raster pass keeps the padding of the forward buffer. Every value lies between 0 and the forward value. Cells at most `HV_DIST` are untouched. Every image cell satisfies the backward equation on the final buffer. |
| ChamferKernels.MirrorIsBackward | opencv/src/cv/cvdistransform.cpp:120-127 | The point mirror of a causal forward mask, taken in the same order, reads only cells the backward scan has already finished. |
| ChamferKernels.ForwardCellEq | opencv/src/cv/cvdistransform.cpp:82-107 | Two buffers with sentinel padding that both satisfy the forward equations agree at every image cell. The proof is by induction in raster order. |
| ChamferKernels.ForwardUnique | opencv/src/cv/cvdistransform.cpp:82-107 | The forward equations with sentinel padding have exactly one solution. |
| ChamferKernels.BackwardCellEq | opencv/src/cv/cvdistransform.cpp:109-132 | Two buffers that satisfy the backward equations over the same forward buffer, and keep its padding, agree at every image cell. The proof is by induction in reverse raster order. |
| ChamferKernels.BackwardUnique | opencv/src/cv/cvdistransform.cpp:109-132 | The backward equations over a forward buffer have exactly one solution that keeps its padding. |
| ChamferKernels.DistanceMapUnique | opencv/src/cv/cvdistransform.cpp:538-548 | The distance map of an image is unique. Whatever `cvCreateMat` left in the work buffer, the distances come out the same. |
| ChamferKernels.ForwardCellPositive | opencv/src/cv/cvdistransform.cpp:96-104 | With positive weights and non-negative neighbours, a non-zero pixel gets a positive forward value. |
| ChamferKernels.BackwardCellPositive | opencv/src/cv/cvdistransform.cpp:117-128 | With positive weights and non-negative neighbours, a positive entry stays positive through the backward relaxation. |
| ChamferKernels.ForwardFixpointPositive | opencv/src/cv/cvdistransform.cpp:82-107 | With positive weights, any buffer satisfying the forward equations gives every non-zero pixel a positive value. |
| ChamferKernels.BackwardFixpointPositive | opencv/src/cv/cvdistransform.cpp:109-132 | With positive weights, the backward equations keep a positive forward value positive. |
| ChamferKernels.FixpointZero | opencv/src/cv/cvdistransform.cpp:93-94 | A zero pixel is 0 after the forward pass. Since `HV_DIST` is not negative, the backward guard keeps it at 0. |
| ChamferKernels.MirrorPositive | opencv/src/cv/cvdistransform.cpp:120-127 | Mirroring keeps every weight, so positive weights stay positive. |
| ChamferKernels.DistanceMapZero | opencv/src/cv/cvdistransform.cpp:93-94 | A zero pixel has distance 0. |
| ChamferKernels.DistanceMapPositive | opencv/src/cv/cvdistransform.cpp:96-128 | With positive weights, only a zero pixel has distance 0. |
| ChamferKernels.DistanceTransform | opencv/src/cv/cvdistransform.cpp:80-132 | For any initial work buffer, the output is the unique distance map of the image for the given causal mask. Every value lies in `[0, ICV_INIT_DIST0 + h * HV_DIST]`. |
| ChamferKernels.DistanceTransform3x3 | opencv/src/cv/cvdistransform.cpp:66-135 | `icvDistanceTransform_3x3_C1R` produces the distance map for the up-left, up, up-right and left taps with weights DIAG, HV, DIAG and HV, on a border of 1. |
| ChamferKernels.DistanceTransform5x5 | opencv/src/cv/cvdistransform.cpp:138-224 | `icvDistanceTransform_5x5_C1R` produces the distance map for the eight causal taps of the 5x5 mask (LONG, DIAG and HV weights), on a border of 2. |
| ChamferLabels.RelaxLabel | opencv/src/cv/cvdistransform.cpp:269-316 | In the labelled fold, the distance never rises above `t0`, and the label stays `l0` unless the distance strictly improved. |
| ChamferLabels.RelaxLabelDist | opencv/src/cv/cvdistransform.cpp:269-316 | The labelled fold computes the same distance as the unlabelled chain of comparisons. |
| ChamferLabels.RelaxLabelWinner | opencv/src/cv/cvdistransform.cpp:269-316 | When the fold improves on `t0`, the result is the candidate and label of the first tap reaching the minimum: every earlier tap is strictly worse, no tap is better, and the winner reads an image pixel. |
| ChamferLabels.RelaxLabelKeeps | opencv/src/cv/cvdistransform.cpp:266-267 | When no candidate is strictly below `t0`, the fold keeps `(t0, l0)`. So a non-zero pixel with no neighbour below the sentinel gets `ICV_INIT_DIST0` and label 0. |
| ChamferLabels.RelaxLabelAgree | opencv/src/cv/cvdistransform.cpp:269-316 | The labelled fold depends only on the cells and labels its taps read. |
| ChamferLabels.CausalAvoids | opencv/src/cv/cvdistransform.cpp:269-316 | A causal tap never reads the cell being written, nor any cell written after an earlier cell. |
| ChamferLabels.ForwardPaddingTaps | opencv/src/cv/cvdistransform.cpp:254-255 | During the forward scan, every tap that lands on padding reads the sentinel. Such a tap cannot beat `ICV_INIT_DIST0`, so no label is read outside the label image. |
| ChamferLabels.ForwardStepEx | opencv/src/cv/cvdistransform.cpp:259-318 | The labelled forward step never goes above `ICV_INIT_DIST0`. A non-zero pixel that no candidate improves keeps label 0. Its distance is stated by `ChamferLabels.ForwardStepExDist`. |
| ChamferLabels.ForwardStepExDist | opencv/src/cv/cvdistransform.cpp:259-318 | The distance the labelled step writes is the labelled kernel's forward value. |
| ChamferLabels.ForwardVisitEx | opencv/src/cv/cvdistransform.cpp:257-320 | One labelled forward step keeps both the distance half and the label half of the scan state. |
| ChamferLabels.ForwardRowEx | opencv/src/cv/cvdistransform.cpp:248-321 | After one row of the labelled forward scan, the row's distances and labels are finished. |
| ChamferLabels.ForwardPassEx | opencv/src/cv/cvdistransform.cpp:247-322 | After the labelled forward pass, the distance half is the forward pass started from the sentinel. Every zero pixel keeps its seed, and every other pixel holds the label of its first strictly nearest causal neighbour, or 0. |
| ChamferLabelBackward.AntiCausalAvoids | opencv/src/cv/cvdistransform.cpp:335-386 | A backward tap never reads the cell being written, nor any cell the backward scan reaches after an earlier one. |
| ChamferLabelBackward.BackPaddingTaps | opencv/src/cv/cvdistransform.cpp:335-386 | During the backward scan, a tap on padding reads the sentinel. It never beats a labelled forward distance, which is at most the sentinel. |
| ChamferLabelBackward.BackwardStepEx | opencv/src/cv/cvdistransform.cpp:333-387 | The labelled backward step never increases the distance. It keeps the label unless the distance strictly drops. Its distance is stated by `ChamferLabelBackward.BackwardStepExDist`. |
| ChamferLabelBackward.BackwardStepExDist | opencv/src/cv/cvdistransform.cpp:333-387 | The distance the labelled backward step writes is the unlabelled backward value. |
| ChamferLabelBackward.BackwardVisitEx | opencv/src/cv/cvdistransform.cpp:331-389 | One labelled backward step keeps both halves of the backward scan state. |
| ChamferLabelBackward.BackwardRowEx | opencv/src/cv/cvdistransform.cpp:331-389 | After one row of the labelled backward scan, the row's distances and labels are finished. |
| ChamferLabelBackward.BackwardPassEx | opencv/src/cv/cvdistransform.cpp:324-390 | The distance half of the labelled backward pass is the ordinary backward pass. Every pixel ends with its backward label: the forward label when `t0 <= HV_DIST`, otherwise the label of the first strictly nearer backward neighbour. |
| ChamferLabelKernel.ExCapped | opencv/src/cv/cvdistransform.cpp:266-318 | The labelled forward pass starts every non-zero pixel at the sentinel and only lowers it, so no forward value exceeds `ICV_INIT_DIST0`. |
| ChamferLabelKernel.DistanceTransformEx | opencv/src/cv/cvdistransform.cpp:245-390 | The labelled kernel over any causal mask, for any initial work buffer, produces the labelled distance map. Every distance lies in `[0, ICV_INIT_DIST0]`. |
| ChamferLabelKernel.DistanceTransformEx5x5 | opencv/src/cv/cvdistransform.cpp:227-393 | `icvDistanceTransformEx_5x5_C1R` produces the labelled distance map for the 5x5 mask on a border of 2. |
| ChamferLabelKernel.ForwardLabelSeeded | opencv/src/cv/cvdistransform.cpp:259-319 | Every forward label is 0 or the seed of some zero pixel. The proof is by induction in raster order. |
| ChamferLabelKernel.BackwardLabelSeeded | opencv/src/cv/cvdistransform.cpp:333-386 | Every final label is 0 or the seed of some zero pixel. The proof is by induction in backward raster order. |
| ChamferLabelKernel.LabelsSeeded | opencv/src/cv/cvdistransform.cpp:227-393 | Every label the kernel outputs is 0 or the seed label of a zero pixel. |
| ChamferLabelKernel.NoZeroPixelNoLabel | opencv/src/cv/cvdistransform.cpp:227-393 | An image without zero pixels gets label 0 everywhere. |
| ChamferLabelKernel.ZeroCellKeepsSeed | opencv/src/cv/cvdistransform.cpp:259-263 | At the fixpoints, a zero pixel has forward and backward distance 0 and keeps its seed through both passes. |
| ChamferLabelKernel.ZeroPixelKeepsSeed | opencv/src/cv/cvdistransform.cpp:259-263 | In the output, a zero pixel has distance 0 and its own seed label. |
| ChamferLabelKernel.BackwardLabelFollows | opencv/src/cv/cvdistransform.cpp:335-386 | When the backward pass changes a label, the distance strictly dropped. The new distance and label both come from the first backward neighbour reaching the minimum, which is an image pixel. |
| ChamferLabelKernel.ForwardLabelFollows | opencv/src/cv/cvdistransform.cpp:266-319 | A non-zero pixel with a non-zero forward label took its distance and label from the first causal neighbour reaching the minimum, an image pixel strictly nearer than the sentinel. |
| ChamferLabelKernel.ForwardUnreached | opencv/src/cv/cvdistransform.cpp:266-267 | A non-zero pixel that no forward candidate brings below the sentinel ends the forward pass with the sentinel and label 0. |
| ChamferConfig.GetDistanceTransformMask | opencv/src/cv/cvdistransform.cpp:396-441 | A null output array gives `CV_NULLPTR_ERR`. An unknown code gives `CV_BADRANGE_ERR`. A known code is `10 * maskSize + metric` with mask size 3 or 5, and gets `maskSize / 2 + 1` positive, non-decreasing weights. |
| ChamferConfig.MaskTableCodes | opencv/src/cv/cvdistransform.cpp:402-438 | The table holds exactly the codes a preset metric (C, L1, L2) and a mask size of 3 or 5 produce. |
| ChamferConfig.PresetFound | opencv/src/cv/cvdistransform.cpp:513-517 | A preset metric with a valid mask size always finds `maskSize / 2 + 1` weights, so the status the call ignores is always `CV_OK`. |
| ChamferConfig.EffectiveMaskSize | opencv/src/cv/cvdistransform.cpp:494-497 | The rewritten mask size is 3, 5 or the caller's. A preset metric with labels always gets 5. Any other metric keeps the caller's size. |
| ChamferConfig.CheckArrays | opencv/src/cv/cvdistransform.cpp:485-510 | The array checks pass exactly when the source is an 8-bit mask array and the destination is 32fC1 of its size, the mask size is 3 or 5, and any labels are 32sC1 of the destination's size with a rewritten mask other than 3x3. `CV_StsNotImplemented` means labels with a rewritten 3x3 mask. |
| ChamferConfig.MetricWeights | opencv/src/cv/cvdistransform.cpp:513-524 | A preset metric with a 3x3 or 5x5 mask and a user metric both get `maskSize / 2 + 1` weights. Only these metrics get weights at all. |
| ChamferConfig.DistTransformPlan | opencv/src/cv/cvdistransform.cpp:485-539 | A successful plan runs with the rewritten mask size (C and L1 use 3x3 without labels and 5x5 with them; L2 with labels uses 5x5), and is labelled exactly when labels were passed. |
| ChamferConfig.PlanSucceedsIff | opencv/src/cv/cvdistransform.cpp:485-524 | The call gets past validation exactly on valid arguments: formats and sizes agree, the mask size is 3 or 5, labels are 32sC1 of the destination's size and end with a 5x5 mask, and a user metric brings its array. A plan runs on a border of `maskSize / 2`, and only the 5x5 mask is labelled. |
| ChamferConfig.NotImplementedOnlyForUser | opencv/src/cv/cvdistransform.cpp:494-511 | `CV_StsNotImplemented` (labels with a 3x3 mask) happens only for a non-preset metric: the rewrite sends every preset metric with labels to 5x5. |
| ChamferConfig.PlanWeights | opencv/src/cv/cvdistransform.cpp:513-524 | A preset metric's plan carries the table's weights for the rewritten code. A user metric's plan carries its first `maskSize / 2 + 1` weights. |
| ChamferConfig.PresetIgnoresMask | opencv/src/cv/cvdistransform.cpp:513-517 | For a preset metric, the plan does not depend on the user array, whether it is null, short or long. |
| ChamferConfig.UnknownMetricUninitialised | opencv/src/cv/cvdistransform.cpp:513-524 | Metric code 4 passes every check and reaches the 3x3 kernel with `_mask` unwritten. |
| ChamferConfig.DistTransformPlanChecked | opencv/src/cv/cvdistransform.cpp:485-524 | With the metric code checked: for C, L1, L2 and USER the plan is the one the code computes. Any other code is refused. |
| ChamferConfig.CheckedPlanHasWeights | opencv/src/cv/cvdistransform.cpp:513-524 | With the metric code checked, every plan carries `maskSize / 2 + 1` weights. |
| ChamferConfig.RunPlan | opencv/src/cv/cvdistransform.cpp:538-569 | The dispatch runs a 3x3 plan on the 3x3 kernel with border 1, a 5x5 plan on the 5x5 kernel with border 2, and a labelled plan on the labelled 5x5 kernel. Labels are returned exactly for a labelled plan, and the output is that kernel's distance map. |
| LbpCascade.TruncDiv | opencv/modules/gpu/src/cascadeclassifier.cpp:208 | C `int` division truncates toward zero: the quotient bounds the dividend from below for non-negative values and from above for negative ones. |
| LbpCascade.SubsetSize | opencv/modules/gpu/src/cascadeclassifier.cpp:164 | `(ncategories + 31) / 32` is positive exactly for a positive category count. It is then the number of 32-bit words a bitset of that many categories needs. |
| LbpCascade.KeptSubset | opencv/modules/gpu/src/cascadeclassifier.cpp:214-228 | A node record carries bitset words into `subsets` exactly when the cascade is categorical. |
| LbpCascade.NodeStep | opencv/modules/gpu/src/cascadeclassifier.cpp:165 | A record is three ints plus the bitset words, or plus one threshold slot for a non-categorical cascade, so it is at least 4 long. |
| LbpCascade.SaturateByte | opencv/modules/gpu/src/cascadeclassifier.cpp:248-251 | `saturate_cast<uchar>` keeps 0..255 and clamps below to 0 and above to 255. |
| LbpCascade.NodeCountIsQuotient | opencv/modules/gpu/src/cascadeclassifier.cpp:208 | The number of whole records is `internalNodes.size() / nodeStep` in C division. |
| LbpCascade.NodeRecords | opencv/modules/gpu/src/cascadeclassifier.cpp:218-229 | The aligned node loop emits three ints per counted record. |
| LbpCascade.NodeRecordsSubsetLength | opencv/modules/gpu/src/cascadeclassifier.cpp:226-228 | The aligned node loop emits `keep` subset words per counted record. |
| LbpCascade.RecordInside | opencv/modules/gpu/src/cascadeclassifier.cpp:208 | Every counted record lies inside the node list. |
| LbpCascade.NodeRecordsNodeAt | opencv/modules/gpu/src/cascadeclassifier.cpp:222-224 | Record `n` gives its first three ints to the node part, at `3n`. |
| LbpCascade.NodeRecordsSubsetAt | opencv/modules/gpu/src/cascadeclassifier.cpp:226-228 | Record `n` gives the words after its three ints to the subset part, at `keep * n`. |
| LbpCascade.NodesAsWritten | opencv/modules/gpu/src/cascadeclassifier.cpp:218-229 | The node loop as written emits a multiple of three node ints, or reads past the end of the list. |
| LbpCascade.NodesAsWrittenCategorical | opencv/modules/gpu/src/cascadeclassifier.cpp:218-229 | For a categorical cascade whose node list is whole records, the loop as written reads exactly the aligned records. |
| LbpCascade.NonCategoricalMisaligned | opencv/modules/gpu/src/cascadeclassifier.cpp:218-229 | With `maxCatCount` 0, twelve ints, which `nodeCount` counts as three records, are read as four nodes. The second node starts at the first record's threshold slot. |
| LbpCascade.PartialRecordOverreads | opencv/modules/gpu/src/cascadeclassifier.cpp:208-229 | With one category, five ints make the code's loop read past the end of the list for a second node. The aligned reading keeps the one whole record, as `nodeCount` does. |
| LbpCascade.NonCategoricalAligned | opencv/modules/gpu/src/cascadeclassifier.cpp:165 | The same twelve ints read record by record give three nodes, each the first three ints of its record. |
| LbpCascade.FlattenTrees | opencv/modules/gpu/src/cascadeclassifier.cpp:199-235 | The weak-tree loop fails with `return false` exactly when some tree lacks its node or leaf list. Otherwise it fills the arrays of all its trees. |
| LbpCascade.ArraysShape | opencv/modules/gpu/src/cascadeclassifier.cpp:199-235 | The loop pushes one node count per tree (its whole records), three node ints per counted node, and every leaf of every tree. |
| LbpCascade.ArraysSubsets | opencv/modules/gpu/src/cascadeclassifier.cpp:214-228 | One bitset of `keep` words is pushed per counted node. |
| LbpCascade.ArraysAppend | opencv/modules/gpu/src/cascadeclassifier.cpp:199-235 | Filling the arrays distributes over concatenation of tree lists, because the loop only appends. |
| LbpCascade.NodesBeforeSum | opencv/modules/gpu/src/cascadeclassifier.cpp:208-209 | The nodes before tree `t` are the sum of the node counts stored for the trees before it. |
| LbpCascade.ArraysNodesAt | opencv/modules/gpu/src/cascadeclassifier.cpp:222-224 | The node ints of tree `t` follow those of the earlier trees. |
| LbpCascade.SubsetsBeforeNodes | opencv/modules/gpu/src/cascadeclassifier.cpp:226-228 | The trees before `t` hold `keep` words per counted node. |
| LbpCascade.ArraysSubsetsAt | opencv/modules/gpu/src/cascadeclassifier.cpp:226-228 | The subset words of tree `t` follow those of the earlier trees. |
| LbpCascade.ArraysLeavesAt | opencv/modules/gpu/src/cascadeclassifier.cpp:232-234 | Leaf `i` of tree `t` follows the leaves of the earlier trees. |
| LbpCascade.ArraysNodeAt | opencv/modules/gpu/src/cascadeclassifier.cpp:218-224 | Node `n` of tree `t` has its three ints at node index `Sum(trees[..t]) + n`, copied from its record. |
| LbpCascade.ArraysSubsetAt | opencv/modules/gpu/src/cascadeclassifier.cpp:226-228 | Word `k` of node `n` of tree `t` is at `keep * (Sum(trees[..t]) + n) + k`, copied from after the node's three ints. |
| LbpCascade.FlattenStages | opencv/modules/gpu/src/cascadeclassifier.cpp:179-236 | The stage loop fails only with `return false` for a missing section, and otherwise yields one stage record per stage. |
| LbpCascade.FlattenStagesTrees | opencv/modules/gpu/src/cascadeclassifier.cpp:179-236 | The stage loop succeeds exactly when every stage has its weak classifiers and every tree its nodes and leaves. Its tree arrays are those of all trees in stage order. |
| LbpCascade.StageFirst | opencv/modules/gpu/src/cascadeclassifier.cpp:183-193 | Stage `i` records `first` as the trees of the earlier stages, `ntrees` as its tree count, and its threshold less `GPU_THRESHOLD_EPS`. |
| LbpCascade.StagesPartitionTrees | opencv/modules/gpu/src/cascadeclassifier.cpp:190-191 | The stages partition the tree list in order. The first starts at 0, each starts where the previous ends, and the last ends at the number of trees. |
| LbpCascade.FeatureBytes | opencv/modules/gpu/src/cascadeclassifier.cpp:238-252 | The feature loop emits four bytes per rectangle, each in 0..255. |
| LbpCascade.FeatureBytesAt | opencv/modules/gpu/src/cascadeclassifier.cpp:246-251 | Rectangle `i` is bytes `4i .. 4i+3`: x, y, width and height, each saturated. |
| LbpCascade.Read | opencv/modules/gpu/src/cascadeclassifier.cpp:124-263 | A loaded cascade has a positive window size and four feature bytes per rectangle of the file. |
| LbpCascade.ReadSucceedsIff | opencv/modules/gpu/src/cascadeclassifier.cpp:145-240 | `read` succeeds exactly when the asserted header fields hold and no section it visits is missing. A bad header is reported as the first failing `CV_Assert` in source order, never as a missing section. |
| LbpCascade.ReadParts | opencv/modules/gpu/src/cascadeclassifier.cpp:158-252 | A loaded cascade consists of the category layout from `maxCatCount`, the stage loop's stages, the tree arrays of all trees in stage order, and the feature bytes. |
| LbpCascade.ReadTrees | opencv/modules/gpu/src/cascadeclassifier.cpp:199-235 | The tree arrays of a loaded cascade are those of all trees of the file in stage order. The kept bitset length is `subsetSize` for a categorical cascade. |
| LbpCascade.ReadTreeCounts | opencv/modules/gpu/src/cascadeclassifier.cpp:208-228 | There is one node count per tree, equal to `internalNodes.size() / nodeStep` in C division. There are three node ints and one bitset per counted node. |
| LbpCascade.ReadStages | opencv/modules/gpu/src/cascadeclassifier.cpp:179-193 | There is one stage per stage of the file, with its tree count and its threshold less the epsilon. The stages partition the tree list in order. |
| LbpCascade.ReadNodeAt | opencv/modules/gpu/src/cascadeclassifier.cpp:218-224 | In a loaded cascade, node `n` of tree `t` holds the first three ints of that tree's `n`-th record, at node index `Sum(trees[..t]) + n`. |
| LbpCascade.ReadSubsetAt | opencv/modules/gpu/src/cascadeclassifier.cpp:226-228 | In a loaded cascade, the bitset of node `n` of tree `t` follows the node's three ints in its record and is stored at word `subsetSize * (Sum(trees[..t]) + n)`. |
| LbpCascade.ReadLeafAt | opencv/modules/gpu/src/cascadeclassifier.cpp:232-234 | In a loaded cascade, leaf `i` of tree `t` is stored after the leaves of all earlier trees. |
| LbpCascade.ReadFeatureAt | opencv/modules/gpu/src/cascadeclassifier.cpp:246-251 | In a loaded cascade, feature `i` of the file is bytes `4i .. 4i+3`, saturated, in field order. |
| Pyramid.Sub | opencv/modules/gpu/src/cascadeclassifier.cpp:311-314 | `operator -` is componentwise: adding `b` back to `a - b` gives `a`. |
| Pyramid.AddScalar | opencv/modules/gpu/src/cascadeclassifier.cpp:316-319 | `operator -` with `(i, i)` undoes `size + i`. |
| Pyramid.Le | opencv/modules/gpu/src/cascadeclassifier.cpp:331-334 | The intended `<=`: `a` fits inside `b`. Its properties are stated by `Pyramid.LeIsPartialOrder`. |
| Pyramid.LeAsWritten | opencv/modules/gpu/src/cascadeclassifier.cpp:331-334 | `<=` as the code has it, comparing `a.height` with `b.width`. Its behaviour is stated by `Pyramid.LeAsWrittenCounterexample` and `Pyramid.LeAgreesOnSquareBound`. |
| Pyramid.LeIsPartialOrder | opencv/modules/gpu/src/cascadeclassifier.cpp:331-334 | The intended `<=` is reflexive, antisymmetric and transitive, and says `b - a` has no negative component. |
| Pyramid.LeAsWrittenCounterexample | opencv/modules/gpu/src/cascadeclassifier.cpp:331-334 | `<=` as written is not reflexive, and it lets a 30-pixel-tall size pass a 20-pixel-tall bound. |
| Pyramid.LeAgreesOnSquareBound | opencv/modules/gpu/src/cascadeclassifier.cpp:331-334 | `<=` as written agrees with the intended one whenever the bound is square. |
| Pyramid.WorkArea | opencv/modules/gpu/src/cascadeclassifier.cpp:342 | `workArea = sFrame - window + 1`, unclamped. What it counts is stated by `Pyramid.WorkAreaCountsOrigins`. |
| Pyramid.WorkAreaCountsOrigins | opencv/modules/gpu/src/cascadeclassifier.cpp:342 | `sFrame - window + 1` counts the window origins per axis at which the window fits in the scaled frame. |
| Pyramid.Feasible | opencv/modules/gpu/src/cascadeclassifier.cpp:346-349 | `isFeasible` with the intended `<=`. It is characterised by `Pyramid.FeasibleIff`. |
| Pyramid.FeasibleAsWritten | opencv/modules/gpu/src/cascadeclassifier.cpp:346-349 | `isFeasible` as written. `Pyramid.FeasibleAsWrittenScansTallWindow` shows where it differs. |
| Pyramid.FeasibleIff | opencv/modules/gpu/src/cascadeclassifier.cpp:346-349 | A level is feasible exactly when the window fits in the scaled frame and the scaled window fits in the largest object size. |
| Pyramid.FeasibleAsWrittenScansTallWindow | opencv/modules/gpu/src/cascadeclassifier.cpp:346-349 | As written, a level whose scaled window is taller than the largest object size is still scanned. |
| Pyramid.IsFeasible | opencv/modules/gpu/src/cascadeclassifier.cpp:346-349 | The test the detector's loops apply: as written or corrected, chosen by `asWritten`. |
| Pyramid.IsFeasibleWorkArea | opencv/modules/gpu/src/cascadeclassifier.cpp:346-349 | Either version of `isFeasible` needs a non-empty work area. The two agree whenever the largest object size is square. |
| Pyramid.DefaultMaxObject | opencv/modules/gpu/src/cascadeclassifier.cpp:379-380 | An empty `maxObjectSize` stands for the image size. Any other value is kept. |
| Pyramid.Step | opencv/modules/gpu/src/cascadeclassifier.cpp:395 | The scan step is 1 or 2, and it is 2 exactly when the level's scale is at most 2. |
| Pyramid.CeilDiv | opencv/modules/gpu/src/cascadeclassifier.cpp:410 | `cvCeil(a / step)` is the least `r` with `step * r >= a`. |
| Pyramid.Windows | opencv/modules/gpu/src/cascadeclassifier.cpp:410 | A level with a non-empty work area scans at least one window. |
| Pyramid.SumWindowsAtLeast | opencv/modules/gpu/src/cascadeclassifier.cpp:397-410 | The `total` of a run of feasible levels is at least one window per level, with `isFeasible` as written or corrected. |
| Pyramid.SliceSnoc | opencv/modules/gpu/src/cascadeclassifier.cpp:403 | Placing the next level's integral at `prev` keeps the slices side by side from column 0 and inside the buffer. |
| Pyramid.PackPass | opencv/modules/gpu/src/cascadeclassifier.cpp:392-420 | One pass takes a non-empty run of consecutive feasible levels from `start`, laid side by side in `sFrame.width + 1` columns each, all inside the buffer, and sums their windows into `total`. It stops at the first level that is infeasible or would not fit. Feasibility is `isFeasible` as written when `asWritten` (line 399), corrected otherwise. |
| Pyramid.PassOk | opencv/modules/gpu/src/cascadeclassifier.cpp:397-420 | The facts the inner loop keeps make a well-formed pass. |
| Pyramid.MaximalSnoc | opencv/modules/gpu/src/cascadeclassifier.cpp:390-399 | A new pass starts only at a level that did not fit after the previous one, so every closed pass is maximal. |
| Pyramid.PackLevels | opencv/modules/gpu/src/cascadeclassifier.cpp:388-424 | The passes cover the feasible prefix of the levels, each level exactly once and in order. Every pass is well formed and at least one window per level. Every pass but the last was closed because the next level did not fit in `integralFactor * (cols + 1)` columns. Both loops test `isFeasible` as written when `asWritten` (lines 388 and 399). |
| Pyramid.PlanDetection | opencv/modules/gpu/src/cascadeclassifier.cpp:363-424 | The call fails its `CV_Assert` exactly when the cascade is empty, `scaleFactor <= 1` or the image is not 8-bit. Otherwise the levels are packed as above, against the defaulted maximum object size, with `isFeasible` as written or corrected. |
| Pyramid.FirstLevelFeasible | opencv/modules/gpu/src/cascadeclassifier.cpp:379-390 | With the default maximum object size, the first level is feasible exactly when the window fits in the image. As written, the window must also be no taller than the image is wide. |
| Pyramid.PortraitLevelDiverges | opencv/modules/gpu/src/cascadeclassifier.cpp:331-349 | For a 100x300 image and a 20x60 window, the scale-2 level (frame 50x150, scaled window 40x120) fails `isFeasible` as written and passes the corrected test. |
| Pyramid.PortraitPackingDiverges | opencv/modules/gpu/src/cascadeclassifier.cpp:388-424 | On that image the packing as written scans the first level only and stops. The corrected packing goes past the scale-2 level. |
| HaarMinSize.U32 | opencv/modules/gpu/src/cascadeclassifier.cpp:657 | The conversion to `unsigned` keeps values in range and adds 2^32 to a negative `int`. |
| HaarMinSize.MinSearchSize | opencv/modules/gpu/src/cascadeclassifier.cpp:655-661 | The minimum search size is the classifier window unless the caller's size, compared as `unsigned`, is larger in both dimensions, and then it is exactly the caller's size converted to `unsigned`. It never shrinks the window. |
| HaarMinSize.MinSearchSizeNonNegative | opencv/modules/gpu/src/cascadeclassifier.cpp:657-661 | For non-negative sizes, the result is the caller's size when it exceeds the window in both dimensions, and the window otherwise. Applying the rule twice changes nothing. |
| HaarMinSize.MinSearchSizeNegativeWraps | opencv/modules/gpu/src/cascadeclassifier.cpp:657 | A negative width wraps to a huge unsigned one: `minSize = (-1, 50)` asks for windows 4294967295 wide. |
| HaarMinSize.MultiScaleMinSize | opencv/modules/gpu/src/cascadeclassifier.cpp:644-667 | The Haar detector fails its asserts exactly when `scaleFactor <= 1`, the image is not 8-bit or nothing is loaded. Otherwise it hands on `MinSearchSize` unchanged. |
| HaarCascade.WeightedPrefix | opencv/modules/gpu/src/cascadeclassifier.cpp:799-818 | The rectangles a node uses are the longest prefix without a zero weight, stopping at the first zero weight. |
| HaarCascade.Convert | opencv/modules/gpu/src/cascadeclassifier.cpp:801-815 | Each used rectangle becomes one `HaarFeature64`, in order. |
| HaarCascade.ChildDesc | opencv/modules/gpu/src/cascadeclassifier.cpp:763-776 | A child reference of at most 0 becomes a leaf value. A positive one becomes a link. |
| HaarCascade.AddNode | opencv/modules/gpu/src/cascadeclassifier.cpp:753-839 | One node appends its converted rectangles to the feature array and adds one node to the root list or the temporary list, keeping what was there. |
| HaarCascade.CountsAddUp | opencv/modules/gpu/src/cascadeclassifier.cpp:826-839 | Every node is either a root or goes to the temporary list. |
| HaarCascade.AddNodesShape | opencv/modules/gpu/src/cascadeclassifier.cpp:753-840 | The node loop of one tree appends one root (if the tree is not empty) and its other nodes to the temporary list. |
| HaarCascade.LastStored | opencv/modules/gpu/src/cascadeclassifier.cpp:820-839 | Node `m` is stored as the last entry of its list, converted against its child base, with its rectangles after those of the earlier nodes. |
| HaarCascade.AddNodesAt | opencv/modules/gpu/src/cascadeclassifier.cpp:753-840 | After the node loop, node `m` is stored converted against its child base, with its rectangles after those of the nodes before it. |
| HaarCascade.AddNodesGrow | opencv/modules/gpu/src/cascadeclassifier.cpp:753-840 | The root list, the temporary list and the feature array only grow along the node loop. |
| HaarCascade.AddNodesFeaturesAt | opencv/modules/gpu/src/cascadeclassifier.cpp:798-824 | The descriptor of node `m` names the range `[size - featureId, size)` that holds its converted rectangles. |
| HaarCascade.AddTreesShape | opencv/modules/gpu/src/cascadeclassifier.cpp:747-841 | The tree loop appends one root per non-empty tree and the other nodes to the temporary list. |
| HaarCascade.AddTreesGrow | opencv/modules/gpu/src/cascadeclassifier.cpp:747-841 | The state after the first `k` trees is a prefix of the final one. |
| HaarCascade.TreeStep | opencv/modules/gpu/src/cascadeclassifier.cpp:747-841 | Tree `t` is processed on the state left by the trees before it. |
| HaarCascade.TreesAt | opencv/modules/gpu/src/cascadeclassifier.cpp:747-841 | Node `m` of tree `t` ends up in the final state where the node loop of that tree put it. |
| HaarCascade.AddTreesAppend | opencv/modules/gpu/src/cascadeclassifier.cpp:739-845 | Running the tree loop over `x + y` is running it over `x`, then over `y`. |
| HaarCascade.AddStagesFlat | opencv/modules/gpu/src/cascadeclassifier.cpp:739-845 | The stage loop is the tree loop over all trees of all stages, and it pushes one stage record per stage. |
| HaarCascade.AddStagesGrow | opencv/modules/gpu/src/cascadeclassifier.cpp:739-845 | The stage list only grows along the stage loop. |
| HaarCascade.StageLast | opencv/modules/gpu/src/cascadeclassifier.cpp:741-844 | The last stage record starts at the roots of all earlier trees, keeps its threshold, and has one root per tree. |
| HaarCascade.AddStagesRecords | opencv/modules/gpu/src/cascadeclassifier.cpp:741-844 | Stage `s` starts at the roots of the trees of the earlier stages, keeps its threshold, and has one root per tree. |
| HaarCascade.Merge | opencv/modules/gpu/src/cascadeclassifier.cpp:853-897 | The node array has one entry per root and one per temporary node; `MergeStored` says which entry holds which node. |
| HaarCascade.ShiftedNode | opencv/modules/gpu/src/cascadeclassifier.cpp:857-873 | The merge moves a node's link base by the number of roots. Leaf values are kept. |
| HaarCascade.MergeStored | opencv/modules/gpu/src/cascadeclassifier.cpp:853-897 | A node the loop stored is found after the merge at its merged index, shifted by the number of roots. |
| HaarCascade.MergeConverted | opencv/modules/gpu/src/cascadeclassifier.cpp:853-897 | A node stored converted against `base` is, after the merge, converted against `base` plus the number of roots. |
| HaarCascade.MergedAt | opencv/modules/gpu/src/cascadeclassifier.cpp:753-897 | The slot of node `m` of tree `t` in the merged array holds that node, with link base `RootCount + TmpCount(ts[..t])`. As written, the link is moved by `m - 1` for `m >= 2`. |
| HaarCascade.LoadSlot | opencv/modules/gpu/src/cascadeclassifier.cpp:704-900 | A loaded cascade stores node `m` of tree `t` at `Slot(t, m)`, with its threshold, leaf values and feature flags. A link to node `k` reads `Slot(t, k)` when corrected and `Slot(t, k) + m - 1` as written. |
| HaarCascade.LoadLinks | opencv/modules/gpu/src/cascadeclassifier.cpp:771-777 | The corrected loader links every non-leaf left child to the slot that holds that child. |
| HaarCascade.LoadLinksRight | opencv/modules/gpu/src/cascadeclassifier.cpp:787-793 | The corrected loader links every non-leaf right child to the slot that holds that child. |
| HaarCascade.AddNodesRects | opencv/modules/gpu/src/cascadeclassifier.cpp:798-818 | The node loop pushes exactly the used rectangles of its nodes. |
| HaarCascade.AddTreesRects | opencv/modules/gpu/src/cascadeclassifier.cpp:798-818 | The tree loop pushes exactly the used rectangles of all its nodes. |
| HaarCascade.LoadWith | opencv/modules/gpu/src/cascadeclassifier.cpp:704-900 | Only a missing cascade fails. The descriptor carries the classifier window, and its stage, node and feature counts are the lengths of the arrays it comes with. |
| HaarCascade.LoadAsWritten | opencv/modules/gpu/src/cascadeclassifier.cpp:704-900 | As written: one stage per stage of the file, one root per non-empty tree, one node per tree node and one feature per used rectangle. Stumps only when every tree is one node. The tilted flag is the last node's. |
| HaarCascade.Load | opencv/modules/gpu/src/cascadeclassifier.cpp:704-900 | Corrected: the same counts and stumps flag, and the tilted flag set exactly when some node is tilted. |
| HaarCascade.LoadStats | opencv/modules/gpu/src/cascadeclassifier.cpp:729-851 | A missing cascade is `NCV_HAAR_XML_LOADING_EXCEPTION`, and loading fails in no other way. Otherwise the descriptor counts the stages, the roots (one per non-empty tree), all nodes and all rectangles, each equal to the length of its array, and carries the window size. |
| HaarCascade.LoadStage | opencv/modules/gpu/src/cascadeclassifier.cpp:741-844 | Stage `s` of the loaded cascade starts at the roots of the trees of the earlier stages, keeps its threshold, and has one root per tree. |
| HaarCascade.TreesFeaturesAt | opencv/modules/gpu/src/cascadeclassifier.cpp:798-824 | At the end of the tree loop, the rectangles of node `m` of tree `t` are in the feature array at the range its descriptor names. |
| HaarCascade.LoadFeatures | opencv/modules/gpu/src/cascadeclassifier.cpp:798-824 | The descriptor of the node at `Slot(t, m)` names the range of the feature array that holds that node's weighted rectangles. |
| HaarCascade.AddNodesStumps | opencv/modules/gpu/src/cascadeclassifier.cpp:764-792 | The node loop clears the stumps flag exactly when some node has a non-leaf child. |
| HaarCascade.AddNodesTilted | opencv/modules/gpu/src/cascadeclassifier.cpp:795-796 | Corrected, the node loop sets the tilted flag exactly when some node is tilted. |
| HaarCascade.AddTreesStumps | opencv/modules/gpu/src/cascadeclassifier.cpp:747-841 | The tree loop keeps the stumps flag exactly when every node is a stump. |
| HaarCascade.AddTreesTilted | opencv/modules/gpu/src/cascadeclassifier.cpp:795-796 | Corrected, the tree loop sets the tilted flag exactly when some node is tilted. |
| HaarCascade.AddTreesLastTilted | opencv/modules/gpu/src/cascadeclassifier.cpp:795-796 | As written, the tilted flag is the last node's flag. |
| HaarCascade.LoadFlags | opencv/modules/gpu/src/cascadeclassifier.cpp:718-796 | `bHasStumpsOnly` holds exactly when no node has a non-leaf child. Corrected, `bNeedsTiltedII` holds exactly when some node is tilted. As written, it holds just when the last node loaded is tilted. |
| HaarCascade.LoadAsWrittenOverruns | opencv/modules/gpu/src/cascadeclassifier.cpp:773-774 | As written, in a four-node tree whose node 2 has node 3 as left child, that link is index 4 of a four-node array. |
| HaarCascade.LoadLinksDeepTree | opencv/modules/gpu/src/cascadeclassifier.cpp:773-774 | Corrected, the same link is index 3, which holds node 3. |
| HaarCascade.TiltedFlagLost | opencv/modules/gpu/src/cascadeclassifier.cpp:795-796 | As written, the tilted integral image is not requested when only the first of two stumps is tilted. Corrected, it is. |

## Left out

- **Float output.** The float conversion `d[j] = t0 * scale` and `CV_FLT_TO_FIX` are not modelled: kernels take their weights already in fixed point and output the fixed-point distances. Floating-point rounding is outside the model.
- **IPP path.** The IPP entry points (`icvDistanceTransform_*_8u32f_C1R_p`) are not modelled. They are external function pointers whose code is not part of this model.
- **Label seeding.** The seed labelling before the labelled kernel is not modelled: `cvCmpS`, `cvFindContours`, `cvDrawContours` and the `cvRectangle` border. The labelled kernel takes the prepared image and the seed labels as parameters.
- **Array plumbing.** `cvGetMat`, row steps, and matrix allocation and release are not modelled. A buffer is a sequence of rows, and the uninitialised work buffer is an arbitrary parameter.
- ChamferKernels.DistanceTransform: requires 32-bit headroom (`ICV_INIT_DIST0 + h * HV_DIST` plus one weight within `INT_MAX`) instead of modelling `int` overflow for images too tall for it.
- ChamferLabelKernel.DistanceTransformEx: requires the same 32-bit headroom.
- **GPU device code.** The device code is not modelled: LBP classification, integral images, resizing, candidate grouping, `NCVHaarObjectDetection` processing and uploads to the GPU. It runs on the device and is called through declarations only.
- **File parsing.** `FileStorage`, `cvLoad` and XML parsing are not modelled. The model takes the parsed node tree or legacy cascade as input, with a missing section as `None`.
- LbpCascade.Read: node, subset and leaf offsets and counts are unbounded integers. `int` overflow and the `size_t` of the vectors are not modelled.
- LbpCascade.Read: a missing `maxCatCount` inside `featureParams` reads as 0, which the caller represents as `Some(0)`. Thresholds and leaves are exact reals, without the `float` casts.
- LbpCascade.Read: uses aligned record stepping. It agrees with the code for categorical cascades whose node lists are whole records (`NodesAsWrittenCategorical`). A categorical list with a partial trailing record makes the code read past the end of the list, while `Read` drops the partial record, as `nodeCount` does (`LbpCascade.PartialRecordOverreads`). See Findings for the non-categorical case.
- Pyramid.PlanDetection: the level sequence is a parameter. The model does not compute `scale = pow(factor, order)`, `frame / scale` or `window * scale` with `cvRound`. It requires that the sequence ends with an infeasible level, which in the code follows from the scales growing.
- Pyramid.PackLevels: `integralFactor` is a parameter of at least 1, because its value comes from a header that is not part of this model. The model also requires every scaled frame to be no wider than the image.
- Pyramid.PackLevels: `acc`, `total` and `integralFactor * (image.cols + 1)` are unbounded integers, and so are they in `Pyramid.PackPass` and `Pyramid.PlanDetection`. `int` overflow of these counters is not modelled.
- **Haar range checks.** The range checks inside `HaarFeature64::setRect`, `HaarClassifierNodeDescriptor32::create` and `HaarFeatureDescriptor32::create` are in `NCVHaarObjectDetection.hpp`, which is not part of this model. The loader treats them as always succeeding, so `HaarCascade.LoadStats` has the loading exception as its only failure.
- HaarCascade.LoadSlot: rectangle coordinates, offsets and counts are unbounded integers. The model does not reproduce the `Ncv32u` wrap-around of the casts.
- **Haar leftovers.** `curMaxTreeDepth` is not modelled: it is computed but never used. The write-back of the temporary list into `haarClassifierNodes` is modelled as one merged array.

## Findings

| source | as written | input that shows it | evidently intended | confidence | as-written member | corrected member |
|---|---|---|---|---|---|---|
| opencv/src/cv/cvdistransform.cpp:513-524 | a `distType` other than C, L1, L2 and USER takes neither branch, so `_mask` is never written and the kernel reads it | `distType = 4`, 3x3 mask, no labels | refuse an unknown metric code | medium, not executed | ChamferConfig.DistTransformPlan, ChamferConfig.UnknownMetricUninitialised | ChamferConfig.DistTransformPlanChecked, ChamferConfig.CheckedPlanHasWeights |
| opencv/modules/gpu/src/cascadeclassifier.cpp:331-334 | `a.height <= b.width` | `a = (10, 30)`, `b = (40, 20)` passes although 30 > 20; `a = (10, 30)` is not `<=` itself; with the default `maxObjectSize`, a 100x300 image and a 20x60 window, the packing stops at the scale-2 level | `a.height <= b.height` | high, not executed | Pyramid.LeAsWritten, Pyramid.LeAsWrittenCounterexample, Pyramid.FeasibleAsWrittenScansTallWindow, Pyramid.PortraitPackingDiverges | Pyramid.Le, Pyramid.LeIsPartialOrder, Pyramid.FeasibleIff, Pyramid.PlanDetection |
| opencv/modules/gpu/src/cascadeclassifier.cpp:218-229 | the node loop reads 3 ints per node when `subsetSize` is 0, while `nodeStep` (line 165) counts 4 | `maxCatCount = 0`, `internalNodes = 1..12` read as four nodes, the second starting at the threshold slot | step by `nodeStep` per record | medium, not executed | LbpCascade.NodesAsWritten, LbpCascade.NonCategoricalMisaligned | LbpCascade.NodeRecords, LbpCascade.NonCategoricalAligned |
| opencv/modules/gpu/src/cascadeclassifier.cpp:773-774 | a child link is `tmp.size() + offset - 1` with the temporary list's size at the current node, `m - 1` past the child for node `m >= 2` (also lines 789-790) | a four-node tree whose node 2 has left child 3: link 4 in a four-node array | the temporary list's size at the start of the tree | medium, not executed | HaarCascade.LoadSlot, HaarCascade.LoadAsWrittenOverruns | HaarCascade.LoadLinks, HaarCascade.LoadLinksDeepTree |
| opencv/modules/gpu/src/cascadeclassifier.cpp:795-796 | `bNeedsTiltedII = (tiltedVal != 0)` is overwritten by every node | two stumps, the first tilted: the flag ends false | set the flag when any node is tilted | high, not executed | HaarCascade.TiltedFlagLost, HaarCascade.AddTreesLastTilted | HaarCascade.LoadFlags, HaarCascade.AddTreesTilted |

=== FILE: chamfer_backward.dfy ===
/** The backward raster pass of the unlabelled chamfer distance transform:
    bottom to top, right to left, each image cell whose forward distance
    exceeds HV_DIST is relaxed by the mirrored taps. The padding is not
    rewritten; it still holds what the forward pass left there. */
module ChamferBackward {
  import opened ChamferBuffer

  /** What the backward pass leaves in a cell whose value on entry is t0:
      `if (t0 > HV_DIST)` the cell is relaxed by every backward tap in order,
      otherwise it is kept. */
  function BackwardCell(t0: int, buf: Grid, r: int, c: int, taps: seq<Tap>, hv: int): int
    requires Readable(buf, r, c, taps)
  {
    if t0 > hv then Relax(t0, buf, r, c, taps, 0, |taps|) else t0
  }

  /** A backward value never exceeds the value on entry, is never negative
      when the entry and the neighbours it reads are not, and a cell whose
      entry is at most HV_DIST keeps it. */
  lemma BackwardCellRange(t0: int, buf: Grid, r: int, c: int, taps: seq<Tap>, hv: int)
    requires Readable(buf, r, c, taps) && t0 >= 0
    requires forall k :: 0 <= k < |taps| ==> taps[k].weight >= 0 && buf[r + taps[k].dr][c + taps[k].dc] >= 0
    ensures 0 <= BackwardCell(t0, buf, r, c, taps, hv) <= t0
    ensures t0 <= hv ==> BackwardCell(t0, buf, r, c, taps, hv) == t0
    ensures t0 > hv ==> forall k :: 0 <= k < |taps| ==> BackwardCell(t0, buf, r, c, taps, hv) <= Cand(buf, r, c, taps[k])
  {
    var v := BackwardCell(t0, buf, r, c, taps, hv);
    if v != t0 {
      var k :| 0 <= k < |taps| && v == Cand(buf, r, c, taps[k]);
    }
  }

  lemma BackwardCellUnchanged(t0: int, buf: Grid, r: int, c: int, taps: seq<Tap>, hv: int, x: nat, y: nat, v: int)
    requires Readable(buf, r, c, taps)
    requires x < |buf| && y < |buf[x]| && TapAvoids(r, c, taps, x, y)
    ensures Readable(Write(buf, x, y, v), r, c, taps)
    ensures BackwardCell(t0, Write(buf, x, y, v), r, c, taps, hv) == BackwardCell(t0, buf, r, c, taps, hv)
  {
    RelaxUnchanged(t0, buf, r, c, taps, 0, |taps|, x, y, v);
  }

  lemma BackwardCellAgree(t0: int, buf1: Grid, buf2: Grid, r: int, c: int, taps: seq<Tap>, hv: int)
    requires Readable(buf1, r, c, taps)
    requires AgreeOnTaps(buf1, buf2, r, c, taps)
    ensures Readable(buf2, r, c, taps)
    ensures BackwardCell(t0, buf1, r, c, taps, hv) == BackwardCell(t0, buf2, r, c, taps, hv)
  {
    RelaxAgree(t0, buf1, buf2, r, c, taps, 0, |taps|);
  }

  /** `buf` holds the same padding as `fwd`. */
  predicate KeepsPadding(fwd: Grid, buf: Grid, h: nat, w: nat, b: nat)
    requires IsGrid(fwd, h + 2 * b, w + 2 * b) && IsGrid(buf, h + 2 * b, w + 2 * b)
  {
    forall r, c :: 0 <= r < h + 2 * b && 0 <= c < w + 2 * b && !Interior(r, c, h, w, b) ==> buf[r][c] == fwd[r][c]
  }

  /** Every image cell holds the backward value of its forward distance,
      computed from the final buffer. */
  ghost predicate BackwardFixpoint(fwd: Grid, buf: Grid, h: nat, w: nat, b: nat, taps: seq<Tap>, hv: int)
    requires IsGrid(fwd, h + 2 * b, w + 2 * b) && IsGrid(buf, h + 2 * b, w + 2 * b)
  {
    forall r, c {:trigger Readable(buf, r, c, taps)} :: Interior(r, c, h, w, b) ==>
      Readable(buf, r, c, taps) && buf[r][c] == BackwardCell(fwd[r][c], buf, r, c, taps, hv)
  }

  /** The 32-bit headroom of the backward pass: adding any weight to a value
      of the forward buffer stays in range. */
  predicate BackHeadroom(cap: int, taps: seq<Tap>) {
    forall k :: 0 <= k < |taps| ==> cap + taps[k].weight <= IntMax
  }

  /** A cell the backward scan has finished: an image cell holds its backward
      value, between 0 and its forward value; padding is untouched. */
  predicate BackDone(fwd: Grid, buf: Grid, h: nat, w: nat, b: nat, taps: seq<Tap>, hv: int, r: int, c: int)
    requires IsGrid(fwd, h + 2 * b, w + 2 * b) && IsGrid(buf, h + 2 * b, w + 2 * b)
    requires 0 <= r < h + 2 * b && 0 <= c < w + 2 * b
  {
    if Interior(r, c, h, w, b) then
      && Readable(buf, r, c, taps)
      && buf[r][c] == BackwardCell(fwd[r][c], buf, r, c, taps, hv)
      && 0 <= buf[r][c] <= fwd[r][c]
    else
      buf[r][c] == fwd[r][c]
  }

  /** Every cell of buffer rows R .. h+2b-1 is finished. */
  ghost predicate BackRowsDone(fwd: Grid, buf: Grid, h: nat, w: nat, b: nat, taps: seq<Tap>, hv: int, R: int)
    requires IsGrid(fwd, h + 2 * b, w + 2 * b) && IsGrid(buf, h + 2 * b, w + 2 * b)
  {
    forall r, c :: 0 <= r < h + 2 * b && R <= r && 0 <= c < w + 2 * b ==> BackDone(fwd, buf, h, w, b, taps, hv, r, c)
  }

  /** Finished rows only read rows below them, so changing earlier rows keeps
      them finished. */
  lemma BackRowsFrame(fwd: Grid, buf1: Grid, buf2: Grid, h: nat, w: nat, b: nat, taps: seq<Tap>, hv: int, R: int)
    requires IsGrid(fwd, h + 2 * b, w + 2 * b) && IsGrid(buf1, h + 2 * b, w + 2 * b) && IsGrid(buf2, h + 2 * b, w + 2 * b)
    requires BackwardMask(taps, b)
    requires forall r :: 0 <= r < h + 2 * b && R <= r ==> buf1[r] == buf2[r]
    requires BackRowsDone(fwd, buf1, h, w, b, taps, hv, R)
    ensures BackRowsDone(fwd, buf2, h, w, b, taps, hv, R)
  {
    forall r, c | 0 <= r < h + 2 * b && R <= r && 0 <= c < w + 2 * b
      ensures BackDone(fwd, buf2, h, w, b, taps, hv, r, c)
    {
      assert BackDone(fwd, buf1, h, w, b, taps, hv, r, c);
      if Interior(r, c, h, w, b) {
        assert forall k :: 0 <= k < |taps| ==> AntiCausal(taps[k], b);
        BackwardCellAgree(fwd[r][c], buf1, buf2, r, c, taps, hv);
      }
    }
  }

  /** The state of the backward scan just before it visits cell (row, col):
      rows below are finished in the snapshot `prev` taken at the start of
      the row and unchanged since, the cells of the row right of col are
      finished, and the cells from col leftwards still hold their forward
      value. */
  ghost predicate BackScanState(fwd: Grid, prev: Grid, buf: Grid, h: nat, w: nat, b: nat, taps: seq<Tap>, hv: int, row: int, col: int)
    requires IsGrid(fwd, h + 2 * b, w + 2 * b) && IsGrid(prev, h + 2 * b, w + 2 * b) && IsGrid(buf, h + 2 * b, w + 2 * b)
  {
    && b <= row < h + b
    && (forall r :: 0 <= r < h + 2 * b && r != row ==> buf[r] == prev[r])
    && BackRowsDone(fwd, prev, h, w, b, taps, hv, row + 1)
    && (forall c :: 0 <= c < w + 2 * b && col < c ==> BackDone(fwd, buf, h, w, b, taps, hv, row, c))
    && forall c :: 0 <= c < w + 2 * b && c <= col ==> buf[row][c] == fwd[row][c]
  }

  /** At a visit every tap reads a finished cell, so the taps are readable
      and the new value lies between 0 and the forward value. */
  lemma BackwardVisit(fwd: Grid, prev: Grid, buf: Grid, h: nat, w: nat, b: nat, taps: seq<Tap>, hv: int, cap: int, row: int, col: int)
    requires IsGrid(fwd, h + 2 * b, w + 2 * b) && IsGrid(prev, h + 2 * b, w + 2 * b) && IsGrid(buf, h + 2 * b, w + 2 * b)
    requires BackwardMask(taps, b) && Bounded(fwd, 0, cap) && BackHeadroom(cap, taps)
    requires b <= col < w + b
    requires BackScanState(fwd, prev, buf, h, w, b, taps, hv, row, col)
    ensures Readable(buf, row, col, taps)
    ensures 0 <= BackwardCell(fwd[row][col], buf, row, col, taps, hv) <= fwd[row][col]
  {
    forall k | 0 <= k < |taps|
      ensures 0 <= row + taps[k].dr < |buf| && 0 <= col + taps[k].dc < |buf[row + taps[k].dr]|
      ensures 0 <= buf[row + taps[k].dr][col + taps[k].dc] <= cap
      ensures InInt32(buf[row + taps[k].dr][col + taps[k].dc] + taps[k].weight)
    {
      assert AntiCausal(taps[k], b);
      var x, y := row + taps[k].dr, col + taps[k].dc;
      if x > row {
        assert BackDone(fwd, prev, h, w, b, taps, hv, x, y);
      } else {
        assert BackDone(fwd, buf, h, w, b, taps, hv, x, y);
      }
    }
    BackwardCellRange(fwd[row][col], buf, row, col, taps, hv);
  }

  /** Writing the visited cell keeps the scan state one column further left. */
  lemma BackwardAfterWrite(fwd: Grid, prev: Grid, buf: Grid, h: nat, w: nat, b: nat, taps: seq<Tap>, hv: int, cap: int, row: int, col: int)
    requires IsGrid(fwd, h + 2 * b, w + 2 * b) && IsGrid(prev, h + 2 * b, w + 2 * b) && IsGrid(buf, h + 2 * b, w + 2 * b)
    requires BackwardMask(taps, b) && Bounded(fwd, 0, cap) && BackHeadroom(cap, taps)
    requires b <= col < w + b
    requires BackScanState(fwd, prev, buf, h, w, b, taps, hv, row, col)
    ensures Readable(buf, row, col, taps)
    ensures BackScanState(fwd, prev, Write(buf, row, col, BackwardCell(buf[row][col], buf, row, col, taps, hv)), h, w, b, taps, hv, row, col - 1)
  {
    BackwardVisit(fwd, prev, buf, h, w, b, taps, hv, cap, row, col);
    var v := BackwardCell(buf[row][col], buf, row, col, taps, hv);
    var buf' := Write(buf, row, col, v);
    forall c | 0 <= c < w + 2 * b && col - 1 < c
      ensures BackDone(fwd, buf', h, w, b, taps, hv, row, c)
    {
      if Interior(row, c, h, w, b) {
        assert forall k :: 0 <= k < |taps| ==> AntiCausal(taps[k], b);
        if c != col {
          assert BackDone(fwd, buf, h, w, b, taps, hv, row, c);
        }
        BackwardCellUnchanged(fwd[row][c], buf, row, c, taps, hv, row, col, v);
      } else {
        assert BackDone(fwd, buf, h, w, b, taps, hv, row, c);
      }
    }
  }

  /** One row of the backward scan: each image cell, right to left. */
  method BackwardRow(fwd: Grid, h: nat, w: nat, b: nat, taps: seq<Tap>, hv: int, ghost cap: int, buf: Grid, row: nat, ghost prev: Grid) returns (out: Grid)
    requires IsGrid(fwd, h + 2 * b, w + 2 * b) && IsGrid(prev, h + 2 * b, w + 2 * b) && IsGrid(buf, h + 2 * b, w + 2 * b)
    requires BackwardMask(taps, b) && Bounded(fwd, 0, cap) && BackHeadroom(cap, taps)
    requires BackScanState(fwd, prev, buf, h, w, b, taps, hv, row, w + b - 1)
    ensures IsGrid(out, h + 2 * b, w + 2 * b)
    ensures BackScanState(fwd, prev, out, h, w, b, taps, hv, row, b - 1)
  {
    out := buf;
    var j := w;
    while j > 0
      invariant 0 <= j <= w
      invariant IsGrid(out, h + 2 * b, w + 2 * b)
      invariant BackScanState(fwd, prev, out, h, w, b, taps, hv, row, j + b - 1)
    {
      BackwardAfterWrite(fwd, prev, out, h, w, b, taps, hv, cap, row, j + b - 1);
      var t0 := BackwardCell(out[row][j + b - 1], out, row, j + b - 1, taps, hv);
      out := Write(out, row, j + b - 1, t0);
      j := j - 1;
    }
  }

  /** A row about to be scanned: rows below finished, the row itself still
      holds its forward values. */
  lemma BackRowStart(fwd: Grid, buf: Grid, h: nat, w: nat, b: nat, taps: seq<Tap>, hv: int, row: int)
    requires IsGrid(fwd, h + 2 * b, w + 2 * b) && IsGrid(buf, h + 2 * b, w + 2 * b)
    requires b <= row < h + b
    requires BackRowsDone(fwd, buf, h, w, b, taps, hv, row + 1)
    requires buf[row] == fwd[row]
    ensures BackScanState(fwd, buf, buf, h, w, b, taps, hv, row, w + b - 1)
  {
    forall c | 0 <= c < w + 2 * b && w + b - 1 < c
      ensures BackDone(fwd, buf, h, w, b, taps, hv, row, c)
    {
    }
  }

  /** A scanned row joins the finished rows. */
  lemma BackRowEnd(fwd: Grid, prev: Grid, buf: Grid, h: nat, w: nat, b: nat, taps: seq<Tap>, hv: int, row: int)
    requires IsGrid(fwd, h + 2 * b, w + 2 * b) && IsGrid(prev, h + 2 * b, w + 2 * b) && IsGrid(buf, h + 2 * b, w + 2 * b)
    requires BackwardMask(taps, b)
    requires BackScanState(fwd, prev, buf, h, w, b, taps, hv, row, b - 1)
    ensures BackRowsDone(fwd, buf, h, w, b, taps, hv, row)
  {
    BackRowsFrame(fwd, prev, buf, h, w, b, taps, hv, row + 1);
    forall r, c | 0 <= r < h + 2 * b && row <= r && 0 <= c < w + 2 * b
      ensures BackDone(fwd, buf, h, w, b, taps, hv, r, c)
    {
      if r > row {
        assert BackDone(fwd, buf, h, w, b, taps, hv, r, c);
      }
    }
  }

  /** Once every row is finished, the buffer meets the pass's contract. */
  lemma BackwardFinished(fwd: Grid, buf: Grid, h: nat, w: nat, b: nat, taps: seq<Tap>, hv: int, cap: int)
    requires IsGrid(fwd, h + 2 * b, w + 2 * b) && IsGrid(buf, h + 2 * b, w + 2 * b) && Bounded(fwd, 0, cap)
    requires BackRowsDone(fwd, buf, h, w, b, taps, hv, b)
    requires forall r :: 0 <= r < b ==> buf[r] == fwd[r]
    ensures KeepsPadding(fwd, buf, h, w, b)
    ensures forall r, c :: 0 <= r < h + 2 * b && 0 <= c < w + 2 * b ==> 0 <= buf[r][c] <= fwd[r][c]
    ensures BackwardFixpoint(fwd, buf, h, w, b, taps, hv)
    ensures forall r, c :: Interior(r, c, h, w, b) && fwd[r][c] <= hv ==> buf[r][c] == fwd[r][c]
  {
    forall r, c | 0 <= r < h + 2 * b && 0 <= c < w + 2 * b
      ensures !Interior(r, c, h, w, b) ==> buf[r][c] == fwd[r][c]
      ensures 0 <= buf[r][c] <= fwd[r][c]
      ensures Interior(r, c, h, w, b) ==> Readable(buf, r, c, taps) && buf[r][c] == BackwardCell(fwd[r][c], buf, r, c, taps, hv)
      ensures Interior(r, c, h, w, b) && fwd[r][c] <= hv ==> buf[r][c] == fwd[r][c]
    {
      if b <= r {
        assert BackDone(fwd, buf, h, w, b, taps, hv, r, c);
      }
    }
  }

  /** The backward raster pass (lines 110-131 and 191-220 of the C file). */
  method BackwardPass(fwd: Grid, h: nat, w: nat, b: nat, taps: seq<Tap>, hv: int, ghost cap: int) returns (buf: Grid)
    requires IsGrid(fwd, h + 2 * b, w + 2 * b)
    requires BackwardMask(taps, b) && Bounded(fwd, 0, cap) && BackHeadroom(cap, taps)
    ensures IsGrid(buf, h + 2 * b, w + 2 * b)
    ensures KeepsPadding(fwd, buf, h, w, b)
    ensures forall r, c :: 0 <= r < h + 2 * b && 0 <= c < w + 2 * b ==> 0 <= buf[r][c] <= fwd[r][c]
    ensures forall r, c :: Interior(r, c, h, w, b) && fwd[r][c] <= hv ==> buf[r][c] == fwd[r][c]
    ensures BackwardFixpoint(fwd, buf, h, w, b, taps, hv)
  {
    buf := fwd;
    var i := h;
    while i > 0
      invariant 0 <= i <= h
      invariant IsGrid(buf, h + 2 * b, w + 2 * b)
      invariant forall r :: 0 <= r < i + b ==> buf[r] == fwd[r]
      invariant BackRowsDone(fwd, buf, h, w, b, taps, hv, i + b)
    {
      var row := i + b - 1;
      BackRowStart(fwd, buf, h, w, b, taps, hv, row);
      ghost var prev := buf;
      buf := BackwardRow(fwd, h, w, b, taps, hv, cap, buf, row, prev);
      BackRowEnd(fwd, prev, buf, h, w, b, taps, hv, row);
      i := i - 1;
    }
    BackwardFinished(fwd, buf, h, w, b, taps, hv, cap);
  }
}

=== FILE: chamfer_buffer.dfy ===
/** The padded integer work buffer shared by the three chamfer distance
    transform kernels, the neighbour taps they read, and the
    "take the neighbour if it is strictly better" folds they run at each cell.

    The C code keeps one `int` buffer of (h + 2b) rows by (w + 2b) columns
    (b = 1 for the 3x3 mask, 2 for the 5x5 masks) and addresses it through a
    row step; here the buffer is a sequence of rows, and a cell is addressed
    by its (row, column) in padded coordinates, so image pixel (i, j) lives
    at buffer cell (i + b, j + b). */
module ChamferBuffer {

  /** INT_MAX and INT_MIN of the 32-bit `int` the kernels compute in. */
  const IntMax: int := 0x7fff_ffff
  const IntMin: int := -0x8000_0000

  /** ICV_INIT_DIST0 = INT_MAX >> 2, the "infinitely far" sentinel that fills
      the padding. For a non-negative value, `>> 2` is division by 4. */
  const InitDist0: int := IntMax / 4

  predicate InInt32(x: int) {
    IntMin <= x <= IntMax
  }

  type Grid = seq<seq<int>>

  /** `g` has exactly `rows` rows of `cols` cells each. */
  predicate IsGrid(g: Grid, rows: nat, cols: nat) {
    |g| == rows && forall r :: 0 <= r < rows ==> |g[r]| == cols
  }

  /** The buffer with cell (r, c) replaced by v. */
  function Write(g: Grid, r: nat, c: nat, v: int): (g': Grid)
    requires r < |g| && c < |g[r]|
    ensures |g'| == |g|
    ensures forall x :: 0 <= x < |g| ==> |g'[x]| == |g[x]|
    ensures g'[r][c] == v
    ensures forall x, y :: 0 <= x < |g| && 0 <= y < |g[x]| && (x != r || y != c) ==> g'[x][y] == g[x][y]
  {
    g[r := g[r][c := v]]
  }

  /** Cell (r, c) of the padded buffer is an image pixel, not padding. */
  predicate Interior(r: int, c: int, h: nat, w: nat, b: nat) {
    b <= r < h + b && b <= c < w + b
  }

  /** The top `b` and bottom `b` rows hold the sentinel everywhere. */
  predicate TopBottomSentinel(buf: Grid, h: nat, w: nat, b: nat)
    requires IsGrid(buf, h + 2 * b, w + 2 * b)
  {
    forall r, c :: 0 <= r < h + 2 * b && 0 <= c < w + 2 * b && (r < b || h + b <= r) ==> buf[r][c] == InitDist0
  }

  /** Every padding cell (top and bottom rows, left and right columns) holds
      the sentinel. */
  predicate PaddingSentinel(buf: Grid, h: nat, w: nat, b: nat)
    requires IsGrid(buf, h + 2 * b, w + 2 * b)
  {
    forall r, c :: 0 <= r < h + 2 * b && 0 <= c < w + 2 * b && !Interior(r, c, h, w, b) ==> buf[r][c] == InitDist0
  }

  /** Every cell of the buffer lies in [lo, hi]. */
  predicate Bounded(buf: Grid, lo: int, hi: int) {
    forall r, c :: 0 <= r < |buf| && 0 <= c < |buf[r]| ==> lo <= buf[r][c] <= hi
  }

  /** One neighbour the kernel reads: the offset (dr, dc) from the current
      cell and the fixed-point weight added to that neighbour's distance. */
  datatype Tap = Tap(dr: int, dc: int, weight: int)

  /** Forward taps of the 3x3 kernel in the order the C code tries them:
      up-left, up, up-right, left. */
  function Mask3x3(hv: int, diag: int): seq<Tap> {
    [Tap(-1, -1, diag), Tap(-1, 0, hv), Tap(-1, 1, diag), Tap(0, -1, hv)]
  }

  /** Forward taps of the 5x5 kernels in the order the C code tries them: the
      two knight moves two rows up, the knight move up-left, then up-left, up,
      up-right, the knight move up-right, and left. */
  function Mask5x5(hv: int, diag: int, long: int): seq<Tap> {
    [Tap(-2, -1, long), Tap(-2, 1, long), Tap(-1, -2, long), Tap(-1, -1, diag),
     Tap(-1, 0, hv), Tap(-1, 1, diag), Tap(-1, 2, long), Tap(0, -1, hv)]
  }

  /** The backward pass reads the point-mirrored neighbours in the same order. */
  function Mirror(taps: seq<Tap>): (m: seq<Tap>)
    ensures |m| == |taps|
    ensures forall k :: 0 <= k < |taps| ==> m[k] == Tap(-taps[k].dr, -taps[k].dc, taps[k].weight)
  {
    seq(|taps|, k requires 0 <= k < |taps| => Tap(-taps[k].dr, -taps[k].dc, taps[k].weight))
  }

  /** A tap of radius at most b that points to a cell the forward raster scan
      has already visited (an earlier row, or the same row further left). */
  predicate Causal(t: Tap, b: nat) {
    -(b as int) <= t.dr <= 0 && -(b as int) <= t.dc <= b && (t.dr < 0 || t.dc < 0)
  }

  /** A tap of radius at most b that points to a cell the backward scan has
      already visited (a later row, or the same row further right). */
  predicate AntiCausal(t: Tap, b: nat) {
    0 <= t.dr <= b && -(b as int) <= t.dc <= b && (t.dr > 0 || t.dc > 0)
  }

  /** The shape every forward mask has: non-empty, causal, non-negative
      weights, and it contains the "up" tap with the horizontal/vertical
      weight hv (the tap that bounds the growth of a distance per row). */
  predicate ForwardMask(taps: seq<Tap>, b: nat, hv: int) {
    && b >= 1
    && |taps| > 0
    && (forall k :: 0 <= k < |taps| ==> Causal(taps[k], b) && taps[k].weight >= 0)
    && Tap(-1, 0, hv) in taps
  }

  /** The "up" tap of a forward mask carries HV_DIST, so HV_DIST is not negative. */
  lemma ForwardMaskHv(taps: seq<Tap>, b: nat, hv: int)
    requires ForwardMask(taps, b, hv)
    ensures hv >= 0
  {
    var up :| 0 <= up < |taps| && taps[up] == Tap(-1, 0, hv);
  }

  /** Every weight is strictly positive. */
  predicate PositiveWeights(taps: seq<Tap>) {
    forall k :: 0 <= k < |taps| ==> taps[k].weight > 0
  }

  /** The shape every backward mask has. */
  predicate BackwardMask(taps: seq<Tap>, b: nat) {
    forall k :: 0 <= k < |taps| ==> AntiCausal(taps[k], b) && taps[k].weight >= 0
  }

  /** Every neighbour named by `taps` lies inside the buffer, and adding its
      weight does not leave the 32-bit range. */
  predicate Readable(buf: Grid, r: int, c: int, taps: seq<Tap>) {
    forall k :: 0 <= k < |taps| ==>
      && 0 <= r + taps[k].dr < |buf|
      && 0 <= c + taps[k].dc < |buf[r + taps[k].dr]|
      && InInt32(buf[r + taps[k].dr][c + taps[k].dc] + taps[k].weight)
  }

  /** The candidate distance `tmp[neighbour] + WEIGHT` offered by one tap. */
  function Cand(buf: Grid, r: int, c: int, t: Tap): int
    requires 0 <= r + t.dr < |buf| && 0 <= c + t.dc < |buf[r + t.dr]|
  {
    buf[r + t.dr][c + t.dc] + t.weight
  }

  /** The sequence of `t = ...; if (t0 > t) t0 = t;` steps the kernels run,
      starting from t0 and trying taps lo, lo + 1, ..., hi - 1 in order. The
      result is the minimum of t0 and those candidates. */
  function Relax(t0: int, buf: Grid, r: int, c: int, taps: seq<Tap>, lo: nat, hi: nat): (t: int)
    requires lo <= hi <= |taps| && Readable(buf, r, c, taps)
    ensures t <= t0
    ensures forall k :: lo <= k < hi ==> t <= Cand(buf, r, c, taps[k])
    ensures t == t0 || exists k :: lo <= k < hi && t == Cand(buf, r, c, taps[k])
    decreases hi
  {
    if hi == lo then t0
    else
      var t1 := Relax(t0, buf, r, c, taps, lo, hi - 1);
      var t := Cand(buf, r, c, taps[hi - 1]);
      if t1 > t then t else t1
  }

  /** No tap of cell (r, c) reads buffer cell (x, y). */
  predicate TapAvoids(r: int, c: int, taps: seq<Tap>, x: int, y: int) {
    forall k :: 0 <= k < |taps| ==> r + taps[k].dr != x || c + taps[k].dc != y
  }

  /** Overwriting a cell that no tap reads keeps the taps readable. */
  lemma ReadableUnchanged(buf: Grid, r: int, c: int, taps: seq<Tap>, x: nat, y: nat, v: int)
    requires Readable(buf, r, c, taps)
    requires x < |buf| && y < |buf[x]|
    requires TapAvoids(r, c, taps, x, y)
    ensures Readable(Write(buf, x, y, v), r, c, taps)
  {
  }

  /** Overwriting a cell that no tap reads does not change the relaxed value. */
  lemma {:induction false} RelaxUnchanged(t0: int, buf: Grid, r: int, c: int, taps: seq<Tap>, lo: nat, hi: nat, x: nat, y: nat, v: int)
    requires lo <= hi <= |taps| && Readable(buf, r, c, taps)
    requires x < |buf| && y < |buf[x]|
    requires TapAvoids(r, c, taps, x, y)
    ensures Readable(Write(buf, x, y, v), r, c, taps)
    ensures Relax(t0, Write(buf, x, y, v), r, c, taps, lo, hi) == Relax(t0, buf, r, c, taps, lo, hi)
    decreases hi
  {
    ReadableUnchanged(buf, r, c, taps, x, y, v);
    if hi > lo {
      RelaxUnchanged(t0, buf, r, c, taps, lo, hi - 1, x, y, v);
    }
  }

  /** Two buffers of one shape that agree on every cell the taps read. */
  predicate AgreeOnTaps(buf1: Grid, buf2: Grid, r: int, c: int, taps: seq<Tap>)
    requires Readable(buf1, r, c, taps)
  {
    && |buf1| == |buf2|
    && (forall x :: 0 <= x < |buf1| ==> |buf1[x]| == |buf2[x]|)
    && forall k :: 0 <= k < |taps| ==>
         buf1[r + taps[k].dr][c + taps[k].dc] == buf2[r + taps[k].dr][c + taps[k].dc]
  }

  /** Two buffers that agree on every cell the taps read relax alike. */
  lemma {:induction false} RelaxAgree(t0: int, buf1: Grid, buf2: Grid, r: int, c: int, taps: seq<Tap>, lo: nat, hi: nat)
    requires lo <= hi <= |taps| && Readable(buf1, r, c, taps)
    requires AgreeOnTaps(buf1, buf2, r, c, taps)
    ensures Readable(buf2, r, c, taps)
    ensures Relax(t0, buf1, r, c, taps, lo, hi) == Relax(t0, buf2, r, c, taps, lo, hi)
    decreases hi
  {
    if hi > lo {
      RelaxAgree(t0, buf1, buf2, r, c, taps, lo, hi - 1);
    }
  }

  /** `icvInitTopBottom`: fill the top `b` and bottom `b` rows of the buffer
      with the sentinel, leaving the other rows as they were. */
  method InitTopBottom(temp: Grid, h: nat, w: nat, b: nat) returns (buf: Grid)
    requires IsGrid(temp, h + 2 * b, w + 2 * b)
    ensures IsGrid(buf, h + 2 * b, w + 2 * b)
    ensures TopBottomSentinel(buf, h, w, b)
    ensures forall r :: b <= r < h + b ==> buf[r] == temp[r]
  {
    buf := temp;
    var i := 0;
    while i < b
      invariant 0 <= i <= b
      invariant IsGrid(buf, h + 2 * b, w + 2 * b)
      invariant forall r, c :: 0 <= r < h + 2 * b && 0 <= c < w + 2 * b && (r < i || h + 2 * b - i <= r) ==> buf[r][c] == InitDist0
      invariant forall r :: i <= r < h + 2 * b - i ==> buf[r] == temp[r]
    {
      var top := i;
      var bottom := h + 2 * b - i - 1;
      var j := 0;
      while j < w + 2 * b
        invariant 0 <= j <= w + 2 * b
        invariant IsGrid(buf, h + 2 * b, w + 2 * b)
        invariant forall r, c :: 0 <= r < h + 2 * b && 0 <= c < w + 2 * b && (r < i || h + 2 * b - i <= r) ==> buf[r][c] == InitDist0
        invariant forall c :: 0 <= c < j ==> buf[top][c] == InitDist0 && buf[bottom][c] == InitDist0
        invariant forall c :: j <= c < w + 2 * b ==> buf[top][c] == temp[top][c] && buf[bottom][c] == temp[bottom][c]
        invariant forall r :: i < r < h + 2 * b - i - 1 ==> buf[r] == temp[r]
      {
        buf := Write(buf, top, j, InitDist0);
        buf := Write(buf, bottom, j, InitDist0);
        j := j + 1;
      }
      i := i + 1;
    }
  }
}

=== FILE: chamfer_config.dfy ===
/** The configuration layer of the distance transform: the preset metric
    table `icvGetDistanceTransformMask`, and the argument validation and
    mask-size rewriting of `cvDistTransform`, which end in a plan saying
    which kernel runs, on how wide a border, with which weights.

    Weights are the metric constants as exact reals; their float32 rounding
    and the fixed-point conversion `CV_FLT_TO_FIX` are not modelled, so the
    kernels take their weights already in fixed point. */
module ChamferConfig {
  import opened Wrappers
  import opened ChamferBuffer
  import opened ChamferForward
  import opened ChamferKernels
  import opened ChamferLabelKernel

  /** The metric codes `CV_DIST_*` and mask sizes `CV_DIST_MASK_*`. */
  const DistUser: int := -1
  const DistL1: int := 1
  const DistL2: int := 2
  const DistC: int := 3
  const Mask3: int := 3
  const Mask5: int := 5

  /** The statuses `icvGetDistanceTransformMask` fails with. */
  datatype MaskError = NullPtrErr | BadRangeErr

  /** The code the caller passes: 0, 1 or 2 for C, L1 and L2, plus ten
      times the mask size. */
  function MaskCode(distType: int, maskSize: int): int {
    (if distType == DistC then 0 else if distType == DistL1 then 1 else 2) + maskSize * 10
  }

  predicate IsPreset(distType: int) {
    distType == DistC || distType == DistL1 || distType == DistL2
  }

  /** `icvGetDistanceTransformMask`: the weights it writes for a code, in the
      order HV, DIAG[, LONG]; `hasMetrics` is false for a null output array. */
  function GetDistanceTransformMask(maskType: int, hasMetrics: bool): (r: Result<seq<real>, MaskError>)
    ensures !hasMetrics ==> r == Failure(NullPtrErr)
    ensures hasMetrics && r.Failure? ==> r.error == BadRangeErr
    ensures r.Success? ==> maskType / 10 == Mask3 || maskType / 10 == Mask5
    ensures r.Success? ==> |r.value| == (maskType / 10) / 2 + 1
    ensures r.Success? ==> 0.0 < r.value[0] <= r.value[1]
    ensures r.Success? && |r.value| == 3 ==> r.value[1] <= r.value[2]
  {
    if !hasMetrics then Failure(NullPtrErr)
    else if maskType == 30 then Success([1.0, 1.0])
    else if maskType == 31 then Success([1.0, 2.0])
    else if maskType == 32 then Success([0.955, 1.3693])
    else if maskType == 50 then Success([1.0, 1.0, 2.0])
    else if maskType == 51 then Success([1.0, 2.0, 3.0])
    else if maskType == 52 then Success([1.0, 1.4, 2.1969])
    else Failure(BadRangeErr)
  }

  /** The table holds exactly the codes a preset metric and a valid mask size
      produce: every such code is found, with one weight per mask radius
      plus one, and every code found is such a code. */
  lemma MaskTableCodes(maskType: int)
    ensures GetDistanceTransformMask(maskType, true).Success? <==>
      exists d, m :: IsPreset(d) && (m == Mask3 || m == Mask5) && maskType == MaskCode(d, m)
  {
    if GetDistanceTransformMask(maskType, true).Success? {
      var d := if maskType % 10 == 0 then DistC else if maskType % 10 == 1 then DistL1 else DistL2;
      assert maskType == MaskCode(d, maskType / 10);
    }
  }

  /** A preset metric with a valid mask size always finds its weights. */
  lemma PresetFound(distType: int, maskSize: int)
    requires IsPreset(distType) && (maskSize == Mask3 || maskSize == Mask5)
    ensures GetDistanceTransformMask(MaskCode(distType, maskSize), true).Success?
    ensures |GetDistanceTransformMask(MaskCode(distType, maskSize), true).value| == maskSize / 2 + 1
  {
  }

  /** Array element types the call distinguishes. */
  datatype MatType = U8C1 | S8C1 | F32C1 | S32C1 | OtherType

  /** An array argument: its element type and size. */
  datatype Arr = Arr(kind: MatType, rows: nat, cols: nat)

  /** The errors `cvDistTransform` raises, plus `BadArg` for the corrected
      validation. */
  datatype DistError = UnsupportedFormat | UnmatchedSizes | BadSize | NotImplemented | NullPtr | BadArg

  /** Where the weights come from: the preset table, the caller's array, or
      nowhere (the stack array `_mask` is left unwritten). */
  datatype Weights = Given(metrics: seq<real>) | Uninitialised

  /** What runs after validation: the kernel's mask size, whether it is the
      labelled kernel, the weights, and the border of the work buffer. */
  datatype Plan = Plan(maskSize: int, labelled: bool, weights: Weights, border: nat)

  /** `CV_IS_MASK_ARR`: a single-channel 8-bit array. */
  predicate IsMaskArr(a: Arr) {
    a.kind == U8C1 || a.kind == S8C1
  }

  predicate SameSize(a: Arr, b: Arr) {
    a.rows == b.rows && a.cols == b.cols
  }

  /** The mask-size rewrite: C and L1 run 3x3 without labels and 5x5 with
      them; L2 with labels is forced to 5x5; otherwise the size is kept. */
  function EffectiveMaskSize(distType: int, maskSize: int, labelled: bool): (r: int)
    ensures r == maskSize || r == Mask3 || r == Mask5
    ensures labelled && IsPreset(distType) ==> r == Mask5
    ensures !IsPreset(distType) ==> r == maskSize
  {
    if distType == DistC || distType == DistL1 then (if labelled then Mask5 else Mask3)
    else if distType == DistL2 && labelled then Mask5
    else maskSize
  }

  /** The checks that come before the metric is looked at. */
  function CheckArrays(src: Arr, dst: Arr, maskSize: int, labels: Option<Arr>, ms: int): (r: Result<(), DistError>)
    ensures r.Success? <==>
      && IsMaskArr(src) && dst.kind == F32C1 && SameSize(src, dst) && (maskSize == Mask3 || maskSize == Mask5)
      && (labels.Some? ==> labels.value.kind == S32C1 && SameSize(labels.value, dst) && ms != Mask3)
    ensures r == Failure(NotImplemented) ==> labels.Some? && ms == Mask3
  {
    if !IsMaskArr(src) || dst.kind != F32C1 then Failure(UnsupportedFormat)
    else if !SameSize(src, dst) then Failure(UnmatchedSizes)
    else if maskSize != Mask3 && maskSize != Mask5 then Failure(BadSize)
    else if labels.Some? && labels.value.kind != S32C1 then Failure(UnsupportedFormat)
    else if labels.Some? && !SameSize(labels.value, dst) then Failure(UnmatchedSizes)
    else if labels.Some? && ms == Mask3 then Failure(NotImplemented)
    else Success(())
  }

  /** The weights the call hands to the kernel for a metric that passed the
      checks, as the C code fills `_mask`: the preset table (whose status is
      ignored), a copy of the first maskSize/2+1 user weights, or nothing. */
  function MetricWeights(distType: int, ms: int, mask: seq<real>): (r: Weights)
    requires distType == DistUser ==> |mask| >= ms / 2 + 1 && ms >= 0
    ensures IsPreset(distType) && (ms == Mask3 || ms == Mask5) ==> r.Given? && |r.metrics| == ms / 2 + 1
    ensures distType == DistUser ==> r.Given? && |r.metrics| == ms / 2 + 1
    ensures r.Given? ==> IsPreset(distType) || distType == DistUser
  {
    if IsPreset(distType) then
      match GetDistanceTransformMask(MaskCode(distType, ms), true)
      case Success(m) => Given(m)
      case Failure(_) => Uninitialised
    else if distType == DistUser then Given(mask[..ms / 2 + 1])
    else Uninitialised
  }

  /** `cvDistTransform` up to the kernel call, as written: a metric code
      other than C, L1, L2 and USER passes every check and runs with
      `_mask` unwritten. A user metric's array must hold the maskSize/2+1
      weights the call copies; a preset metric never reads it. */
  function DistTransformPlan(src: Arr, dst: Arr, distType: int, maskSize: int, mask: Option<seq<real>>, labels: Option<Arr>): (r: Result<Plan, DistError>)
    requires distType == DistUser && mask.Some? && (maskSize == Mask3 || maskSize == Mask5) ==> |mask.value| >= maskSize / 2 + 1
    ensures r.Success? ==> r.value.maskSize == EffectiveMaskSize(distType, maskSize, labels.Some?)
    ensures r.Success? ==> r.value.labelled == labels.Some?
  {
    var ms := EffectiveMaskSize(distType, maskSize, labels.Some?);
    var _ :- CheckArrays(src, dst, maskSize, labels, ms);
    if distType == DistUser && mask.None? then Failure(NullPtr)
    else Success(Plan(ms, labels.Some?, MetricWeights(distType, ms, if mask.Some? then mask.value else []), if ms == Mask3 then 1 else 2))
  }

  /** The arguments the call accepts, stated directly: formats and sizes
      agree, the mask size is 3 or 5, labels are 32-bit integers of the
      destination's size and come with a 5x5 mask after the rewrite, which
      only a metric other than C, L1 and L2 with a 3x3 mask misses; a user
      metric brings its array. */
  predicate ValidArgs(src: Arr, dst: Arr, distType: int, maskSize: int, mask: Option<seq<real>>, labels: Option<Arr>) {
    && IsMaskArr(src) && dst.kind == F32C1 && SameSize(src, dst)
    && (maskSize == Mask3 || maskSize == Mask5)
    && (labels.Some? ==> labels.value.kind == S32C1 && SameSize(labels.value, dst))
    && (labels.Some? && !IsPreset(distType) ==> maskSize == Mask5)
    && (distType == DistUser ==> mask.Some?)
  }

  /** The call succeeds exactly on valid arguments, and a successful plan
      runs a 3x3 or 5x5 kernel on a border of the mask radius, labelled
      only with the 5x5 mask. */
  lemma PlanSucceedsIff(src: Arr, dst: Arr, distType: int, maskSize: int, mask: Option<seq<real>>, labels: Option<Arr>)
    requires distType == DistUser && mask.Some? && (maskSize == Mask3 || maskSize == Mask5) ==> |mask.value| >= maskSize / 2 + 1
    ensures DistTransformPlan(src, dst, distType, maskSize, mask, labels).Success? <==> ValidArgs(src, dst, distType, maskSize, mask, labels)
    ensures DistTransformPlan(src, dst, distType, maskSize, mask, labels).Success? ==>
      var p := DistTransformPlan(src, dst, distType, maskSize, mask, labels).value;
      && (p.maskSize == Mask3 || p.maskSize == Mask5)
      && p.border == p.maskSize / 2
      && (p.labelled ==> p.maskSize == Mask5)
  {
  }

  /** Asking for labels with a 3x3 mask is refused only for a metric other
      than C, L1 and L2 (of the documented ones, the user metric): the
      rewrite sends every preset metric with labels to 5x5. */
  lemma NotImplementedOnlyForUser(src: Arr, dst: Arr, distType: int, maskSize: int, mask: Option<seq<real>>, labels: Option<Arr>)
    requires distType == DistUser && mask.Some? && (maskSize == Mask3 || maskSize == Mask5) ==> |mask.value| >= maskSize / 2 + 1
    requires DistTransformPlan(src, dst, distType, maskSize, mask, labels) == Failure(NotImplemented)
    ensures !IsPreset(distType) && maskSize == Mask3 && labels.Some?
  {
  }

  /** After validation a preset metric always finds its weights in the table
      (the status the C code ignores is always OK), and a user metric gets a
      copy of exactly maskSize/2+1 of its weights. */
  lemma PlanWeights(src: Arr, dst: Arr, distType: int, maskSize: int, mask: Option<seq<real>>, labels: Option<Arr>)
    requires distType == DistUser && mask.Some? && (maskSize == Mask3 || maskSize == Mask5) ==> |mask.value| >= maskSize / 2 + 1
    requires DistTransformPlan(src, dst, distType, maskSize, mask, labels).Success?
    ensures var p := DistTransformPlan(src, dst, distType, maskSize, mask, labels).value;
      && (IsPreset(distType) ==> p.weights == Given(GetDistanceTransformMask(MaskCode(distType, p.maskSize), true).value))
      && (distType == DistUser ==> p.weights == Given(mask.value[..maskSize / 2 + 1]))
      && (IsPreset(distType) || distType == DistUser ==> |p.weights.metrics| == p.maskSize / 2 + 1)
  {
    var ms := EffectiveMaskSize(distType, maskSize, labels.Some?);
    if IsPreset(distType) {
      PresetFound(distType, ms);
    }
  }

  /** A preset metric never reads the caller's array: the plan is the same
      whatever array, short, long or null, comes with it. */
  lemma PresetIgnoresMask(src: Arr, dst: Arr, distType: int, maskSize: int, m1: Option<seq<real>>, m2: Option<seq<real>>, labels: Option<Arr>)
    requires IsPreset(distType)
    ensures DistTransformPlan(src, dst, distType, maskSize, m1, labels) == DistTransformPlan(src, dst, distType, maskSize, m2, labels)
  {
  }

  /** A metric code that is none of C, L1, L2 and USER passes validation and
      reaches the kernel with no weights written. */
  lemma UnknownMetricUninitialised()
    ensures DistTransformPlan(Arr(U8C1, 4, 4), Arr(F32C1, 4, 4), 4, Mask3, None, None) == Success(Plan(Mask3, false, Uninitialised, 1))
  {
  }

  /** `cvDistTransform` up to the kernel call with the metric code checked:
      a code other than C, L1, L2 and USER is refused with `BadArg` after the
      array checks. */
  function DistTransformPlanChecked(src: Arr, dst: Arr, distType: int, maskSize: int, mask: Option<seq<real>>, labels: Option<Arr>): (r: Result<Plan, DistError>)
    requires distType == DistUser && mask.Some? && (maskSize == Mask3 || maskSize == Mask5) ==> |mask.value| >= maskSize / 2 + 1
    ensures r.Success? ==> r.value.maskSize == EffectiveMaskSize(distType, maskSize, labels.Some?)
    ensures r.Success? ==> r.value.labelled == labels.Some?
    ensures (IsPreset(distType) || distType == DistUser) ==> r == DistTransformPlan(src, dst, distType, maskSize, mask, labels)
    ensures r.Success? ==> IsPreset(distType) || distType == DistUser
  {
    var ms := EffectiveMaskSize(distType, maskSize, labels.Some?);
    var _ :- CheckArrays(src, dst, maskSize, labels, ms);
    if !IsPreset(distType) && distType != DistUser then Failure(BadArg)
    else DistTransformPlan(src, dst, distType, maskSize, mask, labels)
  }

  /** With the metric checked, every plan carries weights, one per mask
      radius plus one. */
  lemma CheckedPlanHasWeights(src: Arr, dst: Arr, distType: int, maskSize: int, mask: Option<seq<real>>, labels: Option<Arr>)
    requires distType == DistUser && mask.Some? && (maskSize == Mask3 || maskSize == Mask5) ==> |mask.value| >= maskSize / 2 + 1
    requires DistTransformPlanChecked(src, dst, distType, maskSize, mask, labels).Success?
    ensures var p := DistTransformPlanChecked(src, dst, distType, maskSize, mask, labels).value;
      p.weights.Given? && |p.weights.metrics| == p.maskSize / 2 + 1
  {
    PlanWeights(src, dst, distType, maskSize, mask, labels);
  }

  /** The forward taps a plan runs with, from fixed-point weights HV, DIAG
      and, for the 5x5 mask, LONG. */
  function PlanTaps(maskSize: int, fix: seq<int>): seq<Tap>
    requires |fix| == maskSize / 2 + 1 && (maskSize == Mask3 || maskSize == Mask5)
  {
    if maskSize == Mask3 then Mask3x3(fix[0], fix[1]) else Mask5x5(fix[0], fix[1], fix[2])
  }

  /** The kernel dispatch after validation: a 3x3 plan runs the 3x3 kernel on
      a border of 1, a 5x5 plan the 5x5 kernel on a border of 2, a labelled
      plan the labelled 5x5 kernel. `fix` holds the plan's weights in fixed
      point; `temp` is the work buffer with whatever `cvCreateMat` left in
      it; for a labelled plan `src` and `seed` are the prepared image and
      the seed labels. */
  method RunPlan(p: Plan, src: Grid, seed: Grid, h: nat, w: nat, fix: seq<int>, temp: Grid) returns (dist: Grid, labels: Option<Grid>)
    requires p.maskSize == Mask3 || p.maskSize == Mask5
    requires p.border == p.maskSize / 2 && (p.labelled ==> p.maskSize == Mask5)
    requires |fix| == p.maskSize / 2 + 1 && forall k :: 0 <= k < |fix| ==> 0 <= fix[k]
    requires IsGrid(src, h, w) && IsGrid(seed, h, w) && IsGrid(temp, h + 2 * p.border, w + 2 * p.border)
    requires Headroom(h, fix[0], PlanTaps(p.maskSize, fix))
    ensures IsGrid(dist, h, w)
    ensures labels.Some? <==> p.labelled
    ensures !p.labelled ==> IsDistanceMap(src, dist, h, w, p.border, PlanTaps(p.maskSize, fix), false, fix[0])
    ensures labels.Some? ==> IsLabelledMap(src, seed, dist, labels.value, h, w, p.border, PlanTaps(p.maskSize, fix), fix[0])
  {
    if p.labelled {
      var lab;
      dist, lab := DistanceTransformEx5x5(src, seed, h, w, fix[0], fix[1], fix[2], temp);
      labels := Some(lab);
    } else if p.maskSize == Mask3 {
      dist := DistanceTransform3x3(src, h, w, fix[0], fix[1], temp);
      labels := None;
    } else {
      dist := DistanceTransform5x5(src, h, w, fix[0], fix[1], fix[2], temp);
      labels := None;
    }
  }
}

=== FILE: chamfer_forward.dfy ===
/** The forward raster pass of the unlabelled chamfer distance transform
    (`icvDistanceTransform_3x3_C1R` and `icvDistanceTransform_5x5_C1R`).

    Both kernels run the same algorithm over the padded buffer and differ only
    in the radius b of the padding and in the taps they read, so the passes
    are written once over a tap list and instantiated with `Mask3x3` and
    `Mask5x5`. Distances are the 16.16 fixed-point integers the kernels
    compute with; the final conversion to `float` is not modelled. */
module ChamferForward {
  import opened ChamferBuffer

  /** What the forward pass stores at an image cell: 0 for a zero source
      pixel; otherwise the plain kernels start from the first candidate and
      relax it by the others, while the labelled kernel (`ex`) starts from
      ICV_INIT_DIST0 and relaxes it by every candidate. */
  function ForwardCell(pixel: int, buf: Grid, r: int, c: int, taps: seq<Tap>, ex: bool): int
    requires |taps| > 0 && Readable(buf, r, c, taps)
  {
    if pixel == 0 then 0
    else if ex then Relax(InitDist0, buf, r, c, taps, 0, |taps|)
    else Relax(Cand(buf, r, c, taps[0]), buf, r, c, taps, 1, |taps|)
  }

  /** A non-zero pixel's forward value is the smallest candidate (the
      labelled kernel caps it at the sentinel). */
  lemma ForwardCellIsMin(pixel: int, buf: Grid, r: int, c: int, taps: seq<Tap>, ex: bool)
    requires |taps| > 0 && Readable(buf, r, c, taps) && pixel != 0
    ensures forall k :: 0 <= k < |taps| ==> ForwardCell(pixel, buf, r, c, taps, ex) <= Cand(buf, r, c, taps[k])
    ensures ex ==> ForwardCell(pixel, buf, r, c, taps, ex) <= InitDist0
    ensures (ex && ForwardCell(pixel, buf, r, c, taps, ex) == InitDist0)
      || exists k :: 0 <= k < |taps| && ForwardCell(pixel, buf, r, c, taps, ex) == Cand(buf, r, c, taps[k])
  {
    if !ex && ForwardCell(pixel, buf, r, c, taps, ex) == Cand(buf, r, c, taps[0]) {
      assert 0 < |taps|;
    }
  }

  lemma ForwardCellUnchanged(pixel: int, buf: Grid, r: int, c: int, taps: seq<Tap>, ex: bool, x: nat, y: nat, v: int)
    requires |taps| > 0 && Readable(buf, r, c, taps)
    requires x < |buf| && y < |buf[x]| && TapAvoids(r, c, taps, x, y)
    ensures Readable(Write(buf, x, y, v), r, c, taps)
    ensures ForwardCell(pixel, Write(buf, x, y, v), r, c, taps, ex) == ForwardCell(pixel, buf, r, c, taps, ex)
  {
    if ex {
      RelaxUnchanged(InitDist0, buf, r, c, taps, 0, |taps|, x, y, v);
    } else {
      RelaxUnchanged(Cand(buf, r, c, taps[0]), buf, r, c, taps, 1, |taps|, x, y, v);
    }
  }

  lemma ForwardCellAgree(pixel: int, buf1: Grid, buf2: Grid, r: int, c: int, taps: seq<Tap>, ex: bool)
    requires |taps| > 0 && Readable(buf1, r, c, taps)
    requires AgreeOnTaps(buf1, buf2, r, c, taps)
    ensures Readable(buf2, r, c, taps)
    ensures ForwardCell(pixel, buf1, r, c, taps, ex) == ForwardCell(pixel, buf2, r, c, taps, ex)
  {
    if ex {
      RelaxAgree(InitDist0, buf1, buf2, r, c, taps, 0, |taps|);
    } else {
      assert Cand(buf1, r, c, taps[0]) == Cand(buf2, r, c, taps[0]);
      RelaxAgree(Cand(buf1, r, c, taps[0]), buf1, buf2, r, c, taps, 1, |taps|);
    }
  }

  /** Every image cell holds its forward value computed from the final
      buffer: the forward taps only read cells the scan has finished. */
  ghost predicate ForwardFixpoint(src: Grid, buf: Grid, h: nat, w: nat, b: nat, taps: seq<Tap>, ex: bool)
    requires IsGrid(src, h, w) && IsGrid(buf, h + 2 * b, w + 2 * b) && |taps| > 0
  {
    forall r, c {:trigger Readable(buf, r, c, taps)} :: Interior(r, c, h, w, b) ==>
      Readable(buf, r, c, taps) && buf[r][c] == ForwardCell(src[r - b][c - b], buf, r, c, taps, ex)
  }

  /** The 32-bit headroom the kernels need: a distance grows by at most hv
      per image row above the sentinel, and one more weight is added to it. */
  predicate Headroom(h: nat, hv: int, taps: seq<Tap>) {
    forall k :: 0 <= k < |taps| ==> InitDist0 + h * hv + taps[k].weight <= IntMax
  }

  /** Upper bound on a forward distance stored in buffer row r. */
  function RowLimit(r: int, b: nat, hv: int): int {
    InitDist0 + (if r < b then 0 else r - b + 1) * hv
  }

  lemma RowLimitStep(r: int, b: nat, hv: int)
    requires b <= r
    ensures RowLimit(r, b, hv) == RowLimit(r - 1, b, hv) + hv
  {
    if r == b {
    } else {
      assert (r - b + 1) * hv == (r - b) * hv + hv;
    }
  }

  lemma RowLimitMono(r1: int, r2: int, b: nat, hv: int)
    requires r1 <= r2 && hv >= 0
    ensures InitDist0 <= RowLimit(r1, b, hv) <= RowLimit(r2, b, hv)
  {
    var n1 := if r1 < b then 0 else r1 - b + 1;
    var n2 := if r2 < b then 0 else r2 - b + 1;
    assert 0 <= n1 <= n2;
    assert (n2 - n1) * hv >= 0;
    assert n2 * hv == n1 * hv + (n2 - n1) * hv;
  }

  lemma RowLimitMax(r: int, b: nat, h: nat, hv: int)
    requires r < h + b && hv >= 0
    ensures RowLimit(r, b, hv) <= InitDist0 + h * hv
  {
    var n := if r < b then 0 else r - b + 1;
    assert 0 <= n <= h;
    assert (h - n) * hv >= 0;
    assert h * hv == n * hv + (h - n) * hv;
  }

  /** A cell of a row the forward scan has finished: padding holds the
      sentinel, an image cell its forward value, bounded by its row. */
  predicate ForwardDone(src: Grid, buf: Grid, h: nat, w: nat, b: nat, taps: seq<Tap>, ex: bool, hv: int, r: int, c: int)
    requires IsGrid(src, h, w) && IsGrid(buf, h + 2 * b, w + 2 * b) && |taps| > 0
    requires 0 <= r < h + 2 * b && 0 <= c < w + 2 * b
  {
    if Interior(r, c, h, w, b) then
      && Readable(buf, r, c, taps)
      && buf[r][c] == ForwardCell(src[r - b][c - b], buf, r, c, taps, ex)
      && 0 <= buf[r][c] <= RowLimit(r, b, hv)
    else
      buf[r][c] == InitDist0
  }

  /** Every cell of buffer rows 0 .. R-1 is finished. */
  ghost predicate RowsDone(src: Grid, buf: Grid, h: nat, w: nat, b: nat, taps: seq<Tap>, ex: bool, hv: int, R: int)
    requires IsGrid(src, h, w) && IsGrid(buf, h + 2 * b, w + 2 * b) && |taps| > 0
  {
    forall r, c :: 0 <= r < R && r < h + 2 * b && 0 <= c < w + 2 * b ==> ForwardDone(src, buf, h, w, b, taps, ex, hv, r, c)
  }

  /** Finished rows only read rows above them, so changing later rows keeps
      them finished. */
  lemma RowsFrame(src: Grid, buf1: Grid, buf2: Grid, h: nat, w: nat, b: nat, taps: seq<Tap>, ex: bool, hv: int, R: int)
    requires IsGrid(src, h, w) && IsGrid(buf1, h + 2 * b, w + 2 * b) && IsGrid(buf2, h + 2 * b, w + 2 * b)
    requires ForwardMask(taps, b, hv)
    requires forall r :: 0 <= r < R && r < h + 2 * b ==> buf1[r] == buf2[r]
    requires RowsDone(src, buf1, h, w, b, taps, ex, hv, R)
    ensures RowsDone(src, buf2, h, w, b, taps, ex, hv, R)
  {
    forall r, c | 0 <= r < R && r < h + 2 * b && 0 <= c < w + 2 * b
      ensures ForwardDone(src, buf2, h, w, b, taps, ex, hv, r, c)
    {
      assert ForwardDone(src, buf1, h, w, b, taps, ex, hv, r, c);
      if Interior(r, c, h, w, b) {
        assert forall k :: 0 <= k < |taps| ==> Causal(taps[k], b);
        ForwardCellAgree(src[r - b][c - b], buf1, buf2, r, c, taps, ex);
      }
    }
  }

  /** The state of the forward scan just before it visits image cell
      (row, col): rows above are finished in the snapshot `prev` taken at
      the start of the row and unchanged since, and the padding and the
      cells left of col in the current row are finished. */
  ghost predicate ScanState(src: Grid, prev: Grid, buf: Grid, h: nat, w: nat, b: nat, taps: seq<Tap>, ex: bool, hv: int, row: int, col: int)
    requires IsGrid(src, h, w) && IsGrid(prev, h + 2 * b, w + 2 * b) && IsGrid(buf, h + 2 * b, w + 2 * b) && |taps| > 0
  {
    && b <= row < h + b
    && (forall r :: 0 <= r < h + 2 * b && r != row ==> buf[r] == prev[r])
    && RowsDone(src, prev, h, w, b, taps, ex, hv, row)
    && forall c :: 0 <= c < w + 2 * b && (c < col || w + b <= c) ==> ForwardDone(src, buf, h, w, b, taps, ex, hv, row, c)
  }

  /** A forward value is bounded by the value above it plus HV_DIST, and is
      never negative when its neighbours are not. */
  lemma ForwardCellBound(pixel: int, buf: Grid, r: int, c: int, taps: seq<Tap>, ex: bool, b: nat, hv: int)
    requires ForwardMask(taps, b, hv) && Readable(buf, r, c, taps)
    requires forall k :: 0 <= k < |taps| ==> buf[r + taps[k].dr][c + taps[k].dc] >= 0
    ensures 0 <= r - 1 < |buf| && 0 <= c < |buf[r - 1]|
    ensures 0 <= ForwardCell(pixel, buf, r, c, taps, ex) <= buf[r - 1][c] + hv
  {
    var up :| 0 <= up < |taps| && taps[up] == Tap(-1, 0, hv);
    var v := ForwardCell(pixel, buf, r, c, taps, ex);
    if pixel != 0 {
      ForwardCellIsMin(pixel, buf, r, c, taps, ex);
      assert v <= Cand(buf, r, c, taps[up]);
      if v != InitDist0 {
        var k :| 0 <= k < |taps| && v == Cand(buf, r, c, taps[k]);
        assert taps[k].weight >= 0;
      }
    }
  }

  /** At a visit, every tap reads a finished cell, so the taps are readable
      and their values lie between 0 and the row limit. */
  lemma ForwardVisitTaps(src: Grid, prev: Grid, buf: Grid, h: nat, w: nat, b: nat, taps: seq<Tap>, ex: bool, hv: int, row: int, col: int)
    requires IsGrid(src, h, w) && IsGrid(prev, h + 2 * b, w + 2 * b) && IsGrid(buf, h + 2 * b, w + 2 * b)
    requires ForwardMask(taps, b, hv) && Headroom(h, hv, taps)
    requires b <= col < w + b
    requires ScanState(src, prev, buf, h, w, b, taps, ex, hv, row, col)
    ensures Readable(buf, row, col, taps)
    ensures forall k :: 0 <= k < |taps| ==> buf[row + taps[k].dr][col + taps[k].dc] >= 0
    ensures buf[row - 1][col] <= RowLimit(row - 1, b, hv)
  {
    assert hv >= 0 by {
      var up :| 0 <= up < |taps| && taps[up] == Tap(-1, 0, hv);
    }
    forall k | 0 <= k < |taps|
      ensures 0 <= row + taps[k].dr < |buf| && 0 <= col + taps[k].dc < |buf[row + taps[k].dr]|
      ensures 0 <= buf[row + taps[k].dr][col + taps[k].dc] <= RowLimit(row, b, hv)
      ensures InInt32(buf[row + taps[k].dr][col + taps[k].dc] + taps[k].weight)
    {
      assert Causal(taps[k], b);
      var x, y := row + taps[k].dr, col + taps[k].dc;
      if x < row {
        assert ForwardDone(src, prev, h, w, b, taps, ex, hv, x, y);
        RowLimitMono(x, row, b, hv);
      } else {
        assert ForwardDone(src, buf, h, w, b, taps, ex, hv, x, y);
      }
      RowLimitMono(0, row, b, hv);
      RowLimitMax(row, b, h, hv);
    }
    assert ForwardDone(src, prev, h, w, b, taps, ex, hv, row - 1, col);
  }

  /** At a visit the taps are readable and the new value stays below the
      row limit. */
  lemma ForwardVisit(src: Grid, prev: Grid, buf: Grid, h: nat, w: nat, b: nat, taps: seq<Tap>, ex: bool, hv: int, row: int, col: int)
    requires IsGrid(src, h, w) && IsGrid(prev, h + 2 * b, w + 2 * b) && IsGrid(buf, h + 2 * b, w + 2 * b)
    requires ForwardMask(taps, b, hv) && Headroom(h, hv, taps)
    requires b <= col < w + b
    requires ScanState(src, prev, buf, h, w, b, taps, ex, hv, row, col)
    ensures Readable(buf, row, col, taps)
    ensures 0 <= ForwardCell(src[row - b][col - b], buf, row, col, taps, ex) <= RowLimit(row, b, hv)
  {
    ForwardVisitTaps(src, prev, buf, h, w, b, taps, ex, hv, row, col);
    ForwardCellBound(src[row - b][col - b], buf, row, col, taps, ex, b, hv);
    RowLimitStep(row, b, hv);
  }

  /** Writing the visited cell keeps the scan state one column further. */
  /** Writing a cell of the current row leaves another finished cell of
      that row finished: a causal mask never reads to the right. */
  lemma WriteKeepsDone(src: Grid, buf: Grid, h: nat, w: nat, b: nat, taps: seq<Tap>, ex: bool, hv: int, row: int, c: int, col: int, v: int)
    requires IsGrid(src, h, w) && IsGrid(buf, h + 2 * b, w + 2 * b)
    requires ForwardMask(taps, b, hv)
    requires 0 <= row < h + 2 * b && 0 <= c < w + 2 * b && b <= col < w + b
    requires c < col || w + b <= c
    requires ForwardDone(src, buf, h, w, b, taps, ex, hv, row, c)
    ensures ForwardDone(src, Write(buf, row, col, v), h, w, b, taps, ex, hv, row, c)
  {
    if Interior(row, c, h, w, b) {
      assert forall k :: 0 <= k < |taps| ==> Causal(taps[k], b);
      ForwardCellUnchanged(src[row - b][c - b], buf, row, c, taps, ex, row, col, v);
    }
  }

  /** The cell just written holds its forward value. */
  lemma WrittenDone(src: Grid, buf: Grid, h: nat, w: nat, b: nat, taps: seq<Tap>, ex: bool, hv: int, row: int, col: int, v: int)
    requires IsGrid(src, h, w) && IsGrid(buf, h + 2 * b, w + 2 * b)
    requires ForwardMask(taps, b, hv)
    requires b <= row < h + b && b <= col < w + b
    requires Readable(buf, row, col, taps)
    requires v == ForwardCell(src[row - b][col - b], buf, row, col, taps, ex)
    requires 0 <= v <= RowLimit(row, b, hv)
    ensures ForwardDone(src, Write(buf, row, col, v), h, w, b, taps, ex, hv, row, col)
  {
    assert forall k :: 0 <= k < |taps| ==> Causal(taps[k], b);
    ForwardCellUnchanged(src[row - b][col - b], buf, row, col, taps, ex, row, col, v);
  }

  lemma ForwardAfterWrite(src: Grid, prev: Grid, buf: Grid, h: nat, w: nat, b: nat, taps: seq<Tap>, ex: bool, hv: int, row: int, col: int)
    requires IsGrid(src, h, w) && IsGrid(prev, h + 2 * b, w + 2 * b) && IsGrid(buf, h + 2 * b, w + 2 * b)
    requires ForwardMask(taps, b, hv) && Headroom(h, hv, taps)
    requires b <= col < w + b
    requires ScanState(src, prev, buf, h, w, b, taps, ex, hv, row, col)
    ensures Readable(buf, row, col, taps)
    ensures ScanState(src, prev, Write(buf, row, col, ForwardCell(src[row - b][col - b], buf, row, col, taps, ex)), h, w, b, taps, ex, hv, row, col + 1)
  {
    ForwardVisit(src, prev, buf, h, w, b, taps, ex, hv, row, col);
    var v := ForwardCell(src[row - b][col - b], buf, row, col, taps, ex);
    forall c | 0 <= c < w + 2 * b && (c <= col || w + b <= c)
      ensures ForwardDone(src, Write(buf, row, col, v), h, w, b, taps, ex, hv, row, c)
    {
      if c == col {
        WrittenDone(src, buf, h, w, b, taps, ex, hv, row, col, v);
      } else {
        WriteKeepsDone(src, buf, h, w, b, taps, ex, hv, row, c, col, v);
      }
    }
  }


  /** With its padding set, a row is ready to be scanned from its first
      image column. */
  lemma RowStart(src: Grid, prev: Grid, buf: Grid, h: nat, w: nat, b: nat, taps: seq<Tap>, ex: bool, hv: int, row: int)
    requires IsGrid(src, h, w) && IsGrid(prev, h + 2 * b, w + 2 * b) && IsGrid(buf, h + 2 * b, w + 2 * b)
    requires ForwardMask(taps, b, hv) && b <= row < h + b
    requires RowsDone(src, prev, h, w, b, taps, ex, hv, row)
    requires forall r :: 0 <= r < h + 2 * b && r != row ==> buf[r] == prev[r]
    requires forall c :: 0 <= c < w + 2 * b && (c < b || w + b <= c) ==> buf[row][c] == InitDist0
    ensures ScanState(src, prev, buf, h, w, b, taps, ex, hv, row, b)
  {
  }

  /** A scanned row joins the finished rows; the top and bottom padding
      rows were not touched. */
  lemma RowEnd(src: Grid, prev: Grid, buf: Grid, h: nat, w: nat, b: nat, taps: seq<Tap>, ex: bool, hv: int, row: int)
    requires IsGrid(src, h, w) && IsGrid(prev, h + 2 * b, w + 2 * b) && IsGrid(buf, h + 2 * b, w + 2 * b)
    requires ForwardMask(taps, b, hv)
    requires TopBottomSentinel(prev, h, w, b)
    requires ScanState(src, prev, buf, h, w, b, taps, ex, hv, row, w + b)
    ensures TopBottomSentinel(buf, h, w, b)
    ensures RowsDone(src, buf, h, w, b, taps, ex, hv, row + 1)
  {
    RowsFrame(src, prev, buf, h, w, b, taps, ex, hv, row);
    forall r, c | 0 <= r < row + 1 && r < h + 2 * b && 0 <= c < w + 2 * b
      ensures ForwardDone(src, buf, h, w, b, taps, ex, hv, r, c)
    {
      if r < row {
        assert ForwardDone(src, buf, h, w, b, taps, ex, hv, r, c);
      }
    }
  }

  /** Once every row is finished, the buffer meets the pass's contract. */
  lemma ForwardFinished(src: Grid, buf: Grid, h: nat, w: nat, b: nat, taps: seq<Tap>, ex: bool, hv: int)
    requires IsGrid(src, h, w) && IsGrid(buf, h + 2 * b, w + 2 * b) && ForwardMask(taps, b, hv)
    requires TopBottomSentinel(buf, h, w, b) && RowsDone(src, buf, h, w, b, taps, ex, hv, h + b)
    ensures PaddingSentinel(buf, h, w, b)
    ensures ForwardFixpoint(src, buf, h, w, b, taps, ex)
    ensures Bounded(buf, 0, InitDist0 + h * hv)
  {
    assert hv >= 0 by {
      var up :| 0 <= up < |taps| && taps[up] == Tap(-1, 0, hv);
    }
    forall r, c | 0 <= r < h + 2 * b && 0 <= c < w + 2 * b
      ensures 0 <= buf[r][c] <= InitDist0 + h * hv
    {
      if b <= r < h + b {
        assert ForwardDone(src, buf, h, w, b, taps, ex, hv, r, c);
        RowLimitMax(r, b, h, hv);
      }
    }
    forall r, c | Interior(r, c, h, w, b)
      ensures Readable(buf, r, c, taps) && buf[r][c] == ForwardCell(src[r - b][c - b], buf, r, c, taps, ex)
    {
      assert ForwardDone(src, buf, h, w, b, taps, ex, hv, r, c);
    }
    forall r, c | 0 <= r < h + 2 * b && 0 <= c < w + 2 * b && !Interior(r, c, h, w, b)
      ensures buf[r][c] == InitDist0
    {
      if b <= r < h + b {
        assert ForwardDone(src, buf, h, w, b, taps, ex, hv, r, c);
      }
    }
  }

  /** `tmp[-j-1] = tmp[size.width + j] = ICV_INIT_DIST0` for j < b: the left
      and right padding of one buffer row get the sentinel. */
  method SetRowPadding(buf: Grid, h: nat, w: nat, b: nat, row: nat) returns (out: Grid)
    requires IsGrid(buf, h + 2 * b, w + 2 * b) && row < h + 2 * b
    ensures IsGrid(out, h + 2 * b, w + 2 * b)
    ensures forall r :: 0 <= r < h + 2 * b && r != row ==> out[r] == buf[r]
    ensures forall c :: 0 <= c < w + 2 * b && (c < b || w + b <= c) ==> out[row][c] == InitDist0
    ensures forall c :: b <= c < w + b ==> out[row][c] == buf[row][c]
  {
    out := buf;
    var j := 0;
    while j < b
      invariant 0 <= j <= b
      invariant IsGrid(out, h + 2 * b, w + 2 * b)
      invariant forall r :: 0 <= r < h + 2 * b && r != row ==> out[r] == buf[r]
      invariant forall c :: 0 <= c < w + 2 * b && (b - j <= c < b || w + b <= c < w + b + j) ==> out[row][c] == InitDist0
      invariant forall c :: 0 <= c < w + 2 * b && (c < b - j || b <= c < w + b || w + b + j <= c) ==> out[row][c] == buf[row][c]
    {
      out := Write(out, row, b - j - 1, InitDist0);
      out := Write(out, row, w + b + j, InitDist0);
      j := j + 1;
    }
  }

  /** One row of the forward scan: each image cell, left to right, gets its
      forward value. */
  method ForwardRow(src: Grid, h: nat, w: nat, b: nat, taps: seq<Tap>, ex: bool, hv: int, buf: Grid, row: nat, ghost prev: Grid) returns (out: Grid)
    requires IsGrid(src, h, w) && IsGrid(prev, h + 2 * b, w + 2 * b) && IsGrid(buf, h + 2 * b, w + 2 * b)
    requires ForwardMask(taps, b, hv) && Headroom(h, hv, taps)
    requires ScanState(src, prev, buf, h, w, b, taps, ex, hv, row, b)
    ensures IsGrid(out, h + 2 * b, w + 2 * b)
    ensures ScanState(src, prev, out, h, w, b, taps, ex, hv, row, w + b)
  {
    out := buf;
    var j := 0;
    while j < w
      invariant 0 <= j <= w
      invariant IsGrid(out, h + 2 * b, w + 2 * b)
      invariant ScanState(src, prev, out, h, w, b, taps, ex, hv, row, j + b)
    {
      ForwardAfterWrite(src, prev, out, h, w, b, taps, ex, hv, row, j + b);
      var t0 := ForwardCell(src[row - b][j], out, row, j + b, taps, ex);
      out := Write(out, row, j + b, t0);
      j := j + 1;
    }
  }

  /** The forward raster pass (lines 82-107 and 155-188 of the C file):
      top to bottom, left to right; the left and right padding of each row
      is set to the sentinel before the row is scanned. */
  method ForwardPass(src: Grid, h: nat, w: nat, b: nat, taps: seq<Tap>, ex: bool, hv: int, temp: Grid) returns (buf: Grid)
    requires IsGrid(src, h, w) && IsGrid(temp, h + 2 * b, w + 2 * b)
    requires ForwardMask(taps, b, hv) && Headroom(h, hv, taps)
    requires TopBottomSentinel(temp, h, w, b)
    ensures IsGrid(buf, h + 2 * b, w + 2 * b)
    ensures PaddingSentinel(buf, h, w, b)
    ensures ForwardFixpoint(src, buf, h, w, b, taps, ex)
    ensures Bounded(buf, 0, InitDist0 + h * hv)
  {
    buf := temp;
    var i := 0;
    while i < h
      invariant 0 <= i <= h
      invariant IsGrid(buf, h + 2 * b, w + 2 * b)
      invariant TopBottomSentinel(buf, h, w, b)
      invariant RowsDone(src, buf, h, w, b, taps, ex, hv, i + b)
    {
      ghost var prev := buf;
      buf := SetRowPadding(buf, h, w, b, i + b);
      RowStart(src, prev, buf, h, w, b, taps, ex, hv, i + b);
      buf := ForwardRow(src, h, w, b, taps, ex, hv, buf, i + b, prev);
      RowEnd(src, prev, buf, h, w, b, taps, ex, hv, i + b);
      i := i + 1;
    }
    ForwardFinished(src, buf, h, w, b, taps, ex, hv);
  }
}

=== FILE: chamfer_kernels.dfy ===
/** The unlabelled kernels `icvDistanceTransform_3x3_C1R` and
    `icvDistanceTransform_5x5_C1R`: sentinel rows, the forward pass, then the
    backward pass with the mirrored taps; and what their result is.

    The result is characterised by the fixpoint equations of the two passes
    (`IsDistanceMap`). Those equations have exactly one solution for a given
    source image, so the distances do not depend on what the freshly
    allocated work buffer happened to hold. */
module ChamferKernels {
  import opened ChamferBuffer
  import opened ChamferForward
  import opened ChamferBackward

  /** The image part of a padded buffer: pixel (i, j) is cell (i + b, j + b). */
  function Extract(buf: Grid, h: nat, w: nat, b: nat): (d: Grid)
    requires IsGrid(buf, h + 2 * b, w + 2 * b)
    ensures IsGrid(d, h, w)
    ensures forall i, j :: 0 <= i < h && 0 <= j < w ==> d[i][j] == buf[i + b][j + b]
  {
    seq(h, i requires 0 <= i < h => buf[i + b][b..w + b])
  }

  /** The mirror of a forward mask is a backward mask. */
  lemma MirrorIsBackward(taps: seq<Tap>, b: nat, hv: int)
    requires ForwardMask(taps, b, hv)
    ensures BackwardMask(Mirror(taps), b)
  {
    forall k | 0 <= k < |taps|
      ensures AntiCausal(Mirror(taps)[k], b) && Mirror(taps)[k].weight >= 0
    {
      assert Causal(taps[k], b);
    }
  }

  /** `fwd` and `bwd` are the buffers after the forward and the backward
      pass over `src`: each satisfies its pass's equations, the padding holds
      the sentinel throughout, and every value is a non-negative distance. */
  ghost predicate TwoPass(src: Grid, fwd: Grid, bwd: Grid, h: nat, w: nat, b: nat, taps: seq<Tap>, ex: bool, hv: int)
  {
    && IsGrid(src, h, w) && IsGrid(fwd, h + 2 * b, w + 2 * b) && IsGrid(bwd, h + 2 * b, w + 2 * b)
    && |taps| > 0
    && PaddingSentinel(fwd, h, w, b)
    && ForwardFixpoint(src, fwd, h, w, b, taps, ex)
    && Bounded(fwd, 0, IntMax)
    && KeepsPadding(fwd, bwd, h, w, b)
    && BackwardFixpoint(fwd, bwd, h, w, b, Mirror(taps), hv)
    && Bounded(bwd, 0, IntMax)
  }

  /** `dist` is the distance map the two passes produce from `src`. */
  ghost predicate IsDistanceMap(src: Grid, dist: Grid, h: nat, w: nat, b: nat, taps: seq<Tap>, ex: bool, hv: int)
  {
    exists fwd: Grid, bwd: Grid :: TwoPass(src, fwd, bwd, h, w, b, taps, ex, hv) && dist == Extract(bwd, h, w, b)
  }

  /** Two buffers that both satisfy the forward equations with sentinel
      padding agree at each image cell: by induction in raster order, since
      every forward tap reads padding or an earlier cell. */
  lemma {:induction false} ForwardCellEq(src: Grid, f1: Grid, f2: Grid, h: nat, w: nat, b: nat, taps: seq<Tap>, ex: bool, hv: int, r: nat, c: nat)
    requires IsGrid(src, h, w) && IsGrid(f1, h + 2 * b, w + 2 * b) && IsGrid(f2, h + 2 * b, w + 2 * b)
    requires ForwardMask(taps, b, hv)
    requires PaddingSentinel(f1, h, w, b) && PaddingSentinel(f2, h, w, b)
    requires ForwardFixpoint(src, f1, h, w, b, taps, ex) && ForwardFixpoint(src, f2, h, w, b, taps, ex)
    requires Interior(r, c, h, w, b)
    ensures f1[r][c] == f2[r][c]
    decreases r, c
  {
    assert Readable(f1, r, c, taps);
    forall k | 0 <= k < |taps|
      ensures f1[r + taps[k].dr][c + taps[k].dc] == f2[r + taps[k].dr][c + taps[k].dc]
    {
      assert Causal(taps[k], b);
      var x, y := r + taps[k].dr, c + taps[k].dc;
      if Interior(x, y, h, w, b) {
        ForwardCellEq(src, f1, f2, h, w, b, taps, ex, hv, x, y);
      }
    }
    ForwardCellAgree(src[r - b][c - b], f1, f2, r, c, taps, ex);
  }

  /** The forward equations with sentinel padding have one solution. */
  lemma ForwardUnique(src: Grid, f1: Grid, f2: Grid, h: nat, w: nat, b: nat, taps: seq<Tap>, ex: bool, hv: int)
    requires IsGrid(src, h, w) && IsGrid(f1, h + 2 * b, w + 2 * b) && IsGrid(f2, h + 2 * b, w + 2 * b)
    requires ForwardMask(taps, b, hv)
    requires PaddingSentinel(f1, h, w, b) && PaddingSentinel(f2, h, w, b)
    requires ForwardFixpoint(src, f1, h, w, b, taps, ex) && ForwardFixpoint(src, f2, h, w, b, taps, ex)
    ensures f1 == f2
  {
    forall r | 0 <= r < h + 2 * b
      ensures f1[r] == f2[r]
    {
      forall c | 0 <= c < w + 2 * b
        ensures f1[r][c] == f2[r][c]
      {
        if Interior(r, c, h, w, b) {
          ForwardCellEq(src, f1, f2, h, w, b, taps, ex, hv, r, c);
        }
      }
    }
  }

  /** Two buffers that both satisfy the backward equations over the same
      forward buffer, and keep its padding, agree at each image cell: by
      induction in reverse raster order. */
  lemma {:induction false} BackwardCellEq(fwd: Grid, g1: Grid, g2: Grid, h: nat, w: nat, b: nat, taps: seq<Tap>, hv: int, r: nat, c: nat)
    requires IsGrid(fwd, h + 2 * b, w + 2 * b) && IsGrid(g1, h + 2 * b, w + 2 * b) && IsGrid(g2, h + 2 * b, w + 2 * b)
    requires BackwardMask(taps, b)
    requires KeepsPadding(fwd, g1, h, w, b) && KeepsPadding(fwd, g2, h, w, b)
    requires BackwardFixpoint(fwd, g1, h, w, b, taps, hv) && BackwardFixpoint(fwd, g2, h, w, b, taps, hv)
    requires Interior(r, c, h, w, b)
    ensures g1[r][c] == g2[r][c]
    decreases h + 2 * b - r, w + 2 * b - c
  {
    assert Readable(g1, r, c, taps);
    forall k | 0 <= k < |taps|
      ensures g1[r + taps[k].dr][c + taps[k].dc] == g2[r + taps[k].dr][c + taps[k].dc]
    {
      assert AntiCausal(taps[k], b);
      var x, y := r + taps[k].dr, c + taps[k].dc;
      assert 0 <= x < h + 2 * b && 0 <= y < w + 2 * b;
      if Interior(x, y, h, w, b) {
        BackwardCellEq(fwd, g1, g2, h, w, b, taps, hv, x, y);
      } else {
        assert g1[x][y] == fwd[x][y] == g2[x][y];
      }
    }
    BackwardCellAgree(fwd[r][c], g1, g2, r, c, taps, hv);
  }

  /** The backward equations over a given forward buffer have one solution
      that keeps its padding. */
  lemma BackwardUnique(fwd: Grid, g1: Grid, g2: Grid, h: nat, w: nat, b: nat, taps: seq<Tap>, hv: int)
    requires IsGrid(fwd, h + 2 * b, w + 2 * b) && IsGrid(g1, h + 2 * b, w + 2 * b) && IsGrid(g2, h + 2 * b, w + 2 * b)
    requires BackwardMask(taps, b)
    requires KeepsPadding(fwd, g1, h, w, b) && KeepsPadding(fwd, g2, h, w, b)
    requires BackwardFixpoint(fwd, g1, h, w, b, taps, hv) && BackwardFixpoint(fwd, g2, h, w, b, taps, hv)
    ensures g1 == g2
  {
    forall r | 0 <= r < h + 2 * b
      ensures g1[r] == g2[r]
    {
      forall c | 0 <= c < w + 2 * b
        ensures g1[r][c] == g2[r][c]
      {
        if Interior(r, c, h, w, b) {
          BackwardCellEq(fwd, g1, g2, h, w, b, taps, hv, r, c);
        }
      }
    }
  }

  /** The distance map of an image is unique: whatever the work buffer held
      before the kernel ran, the distances come out the same. */
  lemma DistanceMapUnique(src: Grid, d1: Grid, d2: Grid, h: nat, w: nat, b: nat, taps: seq<Tap>, ex: bool, hv: int)
    requires ForwardMask(taps, b, hv)
    requires IsDistanceMap(src, d1, h, w, b, taps, ex, hv) && IsDistanceMap(src, d2, h, w, b, taps, ex, hv)
    ensures d1 == d2
  {
    var f1, g1 :| TwoPass(src, f1, g1, h, w, b, taps, ex, hv) && d1 == Extract(g1, h, w, b);
    var f2, g2 :| TwoPass(src, f2, g2, h, w, b, taps, ex, hv) && d2 == Extract(g2, h, w, b);
    ForwardUnique(src, f1, f2, h, w, b, taps, ex, hv);
    MirrorIsBackward(taps, b, hv);
    BackwardUnique(f1, g1, g2, h, w, b, Mirror(taps), hv);
  }

  /** With positive weights and non-negative neighbours, a non-zero pixel
      gets a positive forward value. */
  lemma ForwardCellPositive(pixel: int, buf: Grid, r: int, c: int, taps: seq<Tap>, ex: bool)
    requires |taps| > 0 && Readable(buf, r, c, taps) && pixel != 0
    requires PositiveWeights(taps)
    requires forall k :: 0 <= k < |taps| ==> buf[r + taps[k].dr][c + taps[k].dc] >= 0
    ensures ForwardCell(pixel, buf, r, c, taps, ex) > 0
  {
    ForwardCellIsMin(pixel, buf, r, c, taps, ex);
  }

  /** With positive weights and non-negative neighbours, a positive entry
      stays positive through the backward relaxation. */
  lemma BackwardCellPositive(t0: int, buf: Grid, r: int, c: int, taps: seq<Tap>, hv: int)
    requires Readable(buf, r, c, taps) && t0 > 0
    requires PositiveWeights(taps)
    requires forall k :: 0 <= k < |taps| ==> buf[r + taps[k].dr][c + taps[k].dc] >= 0
    ensures BackwardCell(t0, buf, r, c, taps, hv) > 0
  {
    var v := BackwardCell(t0, buf, r, c, taps, hv);
    if v != t0 {
      var k :| 0 <= k < |taps| && v == Cand(buf, r, c, taps[k]);
    }
  }

  /** With positive weights, the forward equations give every non-zero
      pixel a positive value. */
  lemma ForwardFixpointPositive(src: Grid, fwd: Grid, h: nat, w: nat, b: nat, taps: seq<Tap>, ex: bool, r: int, c: int)
    requires IsGrid(src, h, w) && IsGrid(fwd, h + 2 * b, w + 2 * b) && |taps| > 0
    requires ForwardFixpoint(src, fwd, h, w, b, taps, ex) && Bounded(fwd, 0, IntMax) && PositiveWeights(taps)
    requires Interior(r, c, h, w, b) && src[r - b][c - b] != 0
    ensures fwd[r][c] > 0
  {
    assert Readable(fwd, r, c, taps);
    ForwardCellPositive(src[r - b][c - b], fwd, r, c, taps, ex);
  }

  /** With positive weights, the backward equations keep a positive forward
      value positive. */
  lemma BackwardFixpointPositive(fwd: Grid, bwd: Grid, h: nat, w: nat, b: nat, taps: seq<Tap>, hv: int, r: int, c: int)
    requires IsGrid(fwd, h + 2 * b, w + 2 * b) && IsGrid(bwd, h + 2 * b, w + 2 * b)
    requires BackwardFixpoint(fwd, bwd, h, w, b, taps, hv) && Bounded(bwd, 0, IntMax) && PositiveWeights(taps)
    requires Interior(r, c, h, w, b) && fwd[r][c] > 0
    ensures bwd[r][c] > 0
  {
    assert Readable(bwd, r, c, taps);
    BackwardCellPositive(fwd[r][c], bwd, r, c, taps, hv);
  }

  /** A zero pixel is 0 after the forward pass and, since HV_DIST is not
      negative, the backward guard `t0 > HV_DIST` keeps it. */
  lemma FixpointZero(src: Grid, fwd: Grid, bwd: Grid, h: nat, w: nat, b: nat, taps: seq<Tap>, ex: bool, hv: int, r: int, c: int)
    requires IsGrid(src, h, w) && IsGrid(fwd, h + 2 * b, w + 2 * b) && IsGrid(bwd, h + 2 * b, w + 2 * b) && |taps| > 0
    requires ForwardFixpoint(src, fwd, h, w, b, taps, ex) && BackwardFixpoint(fwd, bwd, h, w, b, Mirror(taps), hv) && hv >= 0
    requires Interior(r, c, h, w, b) && src[r - b][c - b] == 0
    ensures bwd[r][c] == 0
  {
    assert Readable(fwd, r, c, taps);
    assert Readable(bwd, r, c, Mirror(taps));
  }

  lemma MirrorPositive(taps: seq<Tap>)
    requires PositiveWeights(taps)
    ensures PositiveWeights(Mirror(taps))
  {
    var mt := Mirror(taps);
    forall k | 0 <= k < |mt| ensures mt[k].weight > 0 {
      assert mt[k].weight == taps[k].weight;
    }
  }

  /** A zero pixel has distance 0. */
  lemma DistanceMapZero(src: Grid, dist: Grid, h: nat, w: nat, b: nat, taps: seq<Tap>, ex: bool, hv: int, i: nat, j: nat)
    requires hv >= 0
    requires IsDistanceMap(src, dist, h, w, b, taps, ex, hv)
    requires i < h && j < w && src[i][j] == 0
    ensures dist[i][j] == 0
  {
    var fwd, bwd :| TwoPass(src, fwd, bwd, h, w, b, taps, ex, hv) && dist == Extract(bwd, h, w, b);
    FixpointZero(src, fwd, bwd, h, w, b, taps, ex, hv, i + b, j + b);
  }

  /** With positive weights only a zero pixel has distance 0. */
  lemma DistanceMapPositive(src: Grid, dist: Grid, h: nat, w: nat, b: nat, taps: seq<Tap>, ex: bool, hv: int, i: nat, j: nat)
    requires PositiveWeights(taps)
    requires IsDistanceMap(src, dist, h, w, b, taps, ex, hv)
    requires i < h && j < w && src[i][j] != 0
    ensures dist[i][j] > 0
  {
    var fwd, bwd :| TwoPass(src, fwd, bwd, h, w, b, taps, ex, hv) && dist == Extract(bwd, h, w, b);
    ForwardFixpointPositive(src, fwd, h, w, b, taps, ex, i + b, j + b);
    MirrorPositive(taps);
    BackwardFixpointPositive(fwd, bwd, h, w, b, Mirror(taps), hv, i + b, j + b);
  }

  /** The kernel body shared by the 3x3 and 5x5 kernels: sentinel rows, the
      forward pass, the backward pass with the mirrored taps. `temp` is the
      work buffer as allocated, with arbitrary contents. */
  method DistanceTransform(src: Grid, h: nat, w: nat, b: nat, taps: seq<Tap>, hv: int, temp: Grid) returns (dist: Grid)
    requires IsGrid(src, h, w) && IsGrid(temp, h + 2 * b, w + 2 * b)
    requires ForwardMask(taps, b, hv) && Headroom(h, hv, taps)
    ensures IsGrid(dist, h, w)
    ensures IsDistanceMap(src, dist, h, w, b, taps, false, hv)
    ensures forall i, j :: 0 <= i < h && 0 <= j < w ==> 0 <= dist[i][j] <= InitDist0 + h * hv
  {
    var buf := InitTopBottom(temp, h, w, b);
    var fwd := ForwardPass(src, h, w, b, taps, false, hv, buf);
    ghost var cap := InitDist0 + h * hv;
    MirrorIsBackward(taps, b, hv);
    var bwd := BackwardPass(fwd, h, w, b, Mirror(taps), hv, cap);
    dist := Extract(bwd, h, w, b);
    assert TwoPass(src, fwd, bwd, h, w, b, taps, false, hv);
  }

  /** `icvDistanceTransform_3x3_C1R` on weights already in fixed point. */
  method DistanceTransform3x3(src: Grid, h: nat, w: nat, hvDist: int, diagDist: int, temp: Grid) returns (dist: Grid)
    requires IsGrid(src, h, w) && IsGrid(temp, h + 2, w + 2)
    requires 0 <= hvDist && 0 <= diagDist
    requires Headroom(h, hvDist, Mask3x3(hvDist, diagDist))
    ensures IsGrid(dist, h, w)
    ensures IsDistanceMap(src, dist, h, w, 1, Mask3x3(hvDist, diagDist), false, hvDist)
    ensures forall i, j :: 0 <= i < h && 0 <= j < w ==> 0 <= dist[i][j] <= InitDist0 + h * hvDist
  {
    dist := DistanceTransform(src, h, w, 1, Mask3x3(hvDist, diagDist), hvDist, temp);
  }

  /** `icvDistanceTransform_5x5_C1R` on weights already in fixed point. */
  method DistanceTransform5x5(src: Grid, h: nat, w: nat, hvDist: int, diagDist: int, longDist: int, temp: Grid) returns (dist: Grid)
    requires IsGrid(src, h, w) && IsGrid(temp, h + 4, w + 4)
    requires 0 <= hvDist && 0 <= diagDist && 0 <= longDist
    requires Headroom(h, hvDist, Mask5x5(hvDist, diagDist, longDist))
    ensures IsGrid(dist, h, w)
    ensures IsDistanceMap(src, dist, h, w, 2, Mask5x5(hvDist, diagDist, longDist), false, hvDist)
    ensures forall i, j :: 0 <= i < h && 0 <= j < w ==> 0 <= dist[i][j] <= InitDist0 + h * hvDist
  {
    dist := DistanceTransform(src, h, w, 2, Mask5x5(hvDist, diagDist, longDist), hvDist, temp);
  }
}

=== FILE: chamfer_label_backward.dfy ===
/** The backward pass of `icvDistanceTransformEx_5x5_C1R` with its labels:
    bottom to top, right to left, a pixel whose forward distance t0 exceeds
    HV_DIST is relaxed by the mirrored taps, and when a candidate is
    strictly smaller the pixel also takes that neighbour's label (`lls[...]`),
    read from the label image as the backward scan has left it so far. */
module ChamferLabelBackward {
  import opened ChamferBuffer
  import opened ChamferBackward
  import opened ChamferLabels

  /** Buffer cell (r, c) comes after (row, col) in the forward raster order,
      so the backward scan reaches it first. */
  predicate After(r: int, c: int, row: int, col: int) {
    r > row || (r == row && c > col)
  }

  /** A backward tap never reads the cell being written, nor any cell the
      backward scan reaches after an earlier cell. */
  lemma AntiCausalAvoids(taps: seq<Tap>, b: nat, r: int, c: int, row: int, col: int)
    requires forall k :: 0 <= k < |taps| ==> AntiCausal(taps[k], b)
    requires After(r, c, row, col) || (r == row && c == col)
    ensures TapAvoids(r, c, taps, row, col)
  {
    forall k | 0 <= k < |taps|
      ensures r + taps[k].dr != row || c + taps[k].dc != col
    {
      assert AntiCausal(taps[k], b);
    }
  }

  /** Image cell (r, c) holds its backward label: the label of the forward
      pass `labF` relaxed against the buffer and labels as they are now. */
  ghost predicate BackLabelDone(fwd: Grid, labF: Grid, buf: Grid, lab: Grid, h: nat, w: nat, b: nat, taps: seq<Tap>, hv: int, r: int, c: int)
    requires IsGrid(fwd, h + 2 * b, w + 2 * b) && IsGrid(labF, h, w) && IsGrid(buf, h + 2 * b, w + 2 * b) && IsGrid(lab, h, w)
    requires Interior(r, c, h, w, b)
  {
    && Readable(buf, r, c, taps)
    && PaddingLoses(fwd[r][c], buf, r, c, taps, h, w, b)
    && lab[r - b][c - b] == BackwardLabel(fwd[r][c], labF[r - b][c - b], buf, lab, r, c, taps, hv, h, w, b)
  }

  /** The label half of the backward scan before it visits (row, col):
      pixels already visited hold their backward label, the others still
      hold their forward label. */
  ghost predicate BackLabelScan(fwd: Grid, labF: Grid, buf: Grid, lab: Grid, h: nat, w: nat, b: nat, taps: seq<Tap>, hv: int, row: int, col: int)
    requires IsGrid(fwd, h + 2 * b, w + 2 * b) && IsGrid(labF, h, w) && IsGrid(buf, h + 2 * b, w + 2 * b) && IsGrid(lab, h, w)
  {
    && (forall r, c {:trigger BackLabelDone(fwd, labF, buf, lab, h, w, b, taps, hv, r, c)} ::
          Interior(r, c, h, w, b) && After(r, c, row, col) ==> BackLabelDone(fwd, labF, buf, lab, h, w, b, taps, hv, r, c))
    && (forall x, y :: 0 <= x < h && 0 <= y < w && !After(x + b, y + b, row, col) ==> lab[x][y] == labF[x][y])
  }

  /** Every image pixel holds its backward label. */
  ghost predicate BackLabelFixpoint(fwd: Grid, labF: Grid, buf: Grid, lab: Grid, h: nat, w: nat, b: nat, taps: seq<Tap>, hv: int)
    requires IsGrid(fwd, h + 2 * b, w + 2 * b) && IsGrid(labF, h, w) && IsGrid(buf, h + 2 * b, w + 2 * b) && IsGrid(lab, h, w)
  {
    forall r, c {:trigger BackLabelDone(fwd, labF, buf, lab, h, w, b, taps, hv, r, c)} ::
      Interior(r, c, h, w, b) ==> BackLabelDone(fwd, labF, buf, lab, h, w, b, taps, hv, r, c)
  }

  /** A finished backward label stays finished while the cells and labels
      it reads and its own label stay put. */
  lemma BackLabelDoneFrame(fwd: Grid, labF: Grid, buf1: Grid, buf2: Grid, lab1: Grid, lab2: Grid, h: nat, w: nat, b: nat, taps: seq<Tap>, hv: int, r: int, c: int)
    requires IsGrid(fwd, h + 2 * b, w + 2 * b) && IsGrid(labF, h, w) && IsGrid(buf1, h + 2 * b, w + 2 * b) && IsGrid(lab1, h, w)
    requires IsGrid(buf2, h + 2 * b, w + 2 * b) && IsGrid(lab2, h, w)
    requires Interior(r, c, h, w, b)
    requires BackLabelDone(fwd, labF, buf1, lab1, h, w, b, taps, hv, r, c)
    requires AgreeOnTaps(buf1, buf2, r, c, taps)
    requires LabelsAgree(lab1, lab2, r, c, taps, h, w, b)
    requires lab2[r - b][c - b] == lab1[r - b][c - b]
    ensures BackLabelDone(fwd, labF, buf2, lab2, h, w, b, taps, hv, r, c)
  {
    RelaxLabelAgree(fwd[r][c], labF[r - b][c - b], buf1, buf2, lab1, lab2, r, c, taps, h, w, b, 0, |taps|);
  }

  /** At a backward visit every tap that lands on padding reads the
      sentinel the forward pass left there, and no forward distance of the
      labelled kernel exceeds the sentinel: such a tap never wins. */
  lemma BackPaddingTaps(fwd: Grid, prev: Grid, buf: Grid, h: nat, w: nat, b: nat, taps: seq<Tap>, hv: int, row: int, col: int)
    requires IsGrid(fwd, h + 2 * b, w + 2 * b) && IsGrid(prev, h + 2 * b, w + 2 * b) && IsGrid(buf, h + 2 * b, w + 2 * b)
    requires BackwardMask(taps, b) && PaddingSentinel(fwd, h, w, b) && Bounded(fwd, 0, InitDist0)
    requires b <= col < w + b
    requires BackScanState(fwd, prev, buf, h, w, b, taps, hv, row, col)
    requires Readable(buf, row, col, taps)
    ensures PaddingLoses(fwd[row][col], buf, row, col, taps, h, w, b)
  {
    forall k | 0 <= k < |taps| && !Interior(row + taps[k].dr, col + taps[k].dc, h, w, b)
      ensures fwd[row][col] <= Cand(buf, row, col, taps[k])
    {
      assert AntiCausal(taps[k], b);
      var x, y := row + taps[k].dr, col + taps[k].dc;
      if x > row {
        assert BackDone(fwd, prev, h, w, b, taps, hv, x, y);
      } else {
        assert BackDone(fwd, buf, h, w, b, taps, hv, x, y);
      }
    }
  }

  /** What the labelled backward scan computes at image pixel (row - b, j)
      from the pair (t0, l0) = (tmp[j], lls[j]) it finds there: the
      distance never grows, and the label changes only with a strict drop. */
  function BackwardStepEx(buf: Grid, lab: Grid, h: nat, w: nat, b: nat, taps: seq<Tap>, hv: int, row: int, j: int): (n: Nearest)
    requires IsGrid(buf, h + 2 * b, w + 2 * b) && IsGrid(lab, h, w) && b <= row < h + b && 0 <= j < w
    requires Readable(buf, row, j + b, taps) && PaddingLoses(buf[row][j + b], buf, row, j + b, taps, h, w, b)
    ensures n.dist <= buf[row][j + b]
    ensures n.dist == buf[row][j + b] ==> n.lbl == lab[row - b][j]
  {
    if buf[row][j + b] > hv then RelaxLabel(buf[row][j + b], lab[row - b][j], buf, lab, row, j + b, taps, h, w, b, 0, |taps|)
    else Nearest(buf[row][j + b], lab[row - b][j])
  }

  /** Its distance is the unlabelled backward value. */
  lemma BackwardStepExDist(buf: Grid, lab: Grid, h: nat, w: nat, b: nat, taps: seq<Tap>, hv: int, row: int, j: int)
    requires IsGrid(buf, h + 2 * b, w + 2 * b) && IsGrid(lab, h, w) && b <= row < h + b && 0 <= j < w
    requires Readable(buf, row, j + b, taps) && PaddingLoses(buf[row][j + b], buf, row, j + b, taps, h, w, b)
    ensures BackwardStepEx(buf, lab, h, w, b, taps, hv, row, j).dist == BackwardCell(buf[row][j + b], buf, row, j + b, taps, hv)
  {
    if buf[row][j + b] > hv {
      RelaxLabelDist(buf[row][j + b], lab[row - b][j], buf, lab, row, j + b, taps, h, w, b, 0, |taps|);
    }
  }

  /** The label image after the visit: `lls[j] = l0` when `t0 > HV_DIST`,
      untouched otherwise. */
  function NextBackLabels(buf: Grid, lab: Grid, h: nat, w: nat, b: nat, taps: seq<Tap>, hv: int, row: int, j: int): (lab': Grid)
    requires IsGrid(buf, h + 2 * b, w + 2 * b) && IsGrid(lab, h, w) && b <= row < h + b && 0 <= j < w
    requires Readable(buf, row, j + b, taps) && PaddingLoses(buf[row][j + b], buf, row, j + b, taps, h, w, b)
    ensures IsGrid(lab', h, w)
  {
    if buf[row][j + b] > hv then Write(lab, row - b, j, BackwardStepEx(buf, lab, h, w, b, taps, hv, row, j).lbl)
    else lab
  }

  /** Writing buffer cell (row, j + b) and label (row - b, j) keeps a label
      the backward scan finished earlier finished. */
  lemma BackLabelKeptDone(fwd: Grid, labF: Grid, buf: Grid, lab: Grid, h: nat, w: nat, b: nat, taps: seq<Tap>, hv: int, r: int, c: int, row: int, j: int, v: int, wrote: bool, l: int)
    requires IsGrid(fwd, h + 2 * b, w + 2 * b) && IsGrid(labF, h, w) && IsGrid(buf, h + 2 * b, w + 2 * b) && IsGrid(lab, h, w)
    requires BackwardMask(taps, b)
    requires Interior(r, c, h, w, b) && b <= row < h + b && 0 <= j < w && After(r, c, row, j + b)
    requires BackLabelDone(fwd, labF, buf, lab, h, w, b, taps, hv, r, c)
    ensures BackLabelDone(fwd, labF, Write(buf, row, j + b, v), if wrote then Write(lab, row - b, j, l) else lab, h, w, b, taps, hv, r, c)
  {
    assert forall k :: 0 <= k < |taps| ==> AntiCausal(taps[k], b);
    AntiCausalAvoids(taps, b, r, c, row, j + b);
    WriteAgrees(buf, r, c, taps, row, j + b, v);
    if wrote {
      LabelWriteAgrees(lab, r, c, taps, h, w, b, row - b, j, l);
    }
    BackLabelDoneFrame(fwd, labF, buf, Write(buf, row, j + b, v), lab, if wrote then Write(lab, row - b, j, l) else lab, h, w, b, taps, hv, r, c);
  }

  /** A visited pixel holds its backward label once the buffer and label
      image the scan moves on with agree with those it was relaxed against
      on every tap. */
  lemma BackLabelVisited(fwd: Grid, labF: Grid, buf: Grid, buf': Grid, lab: Grid, lab': Grid, h: nat, w: nat, b: nat, taps: seq<Tap>, hv: int, row: int, j: int)
    requires IsGrid(fwd, h + 2 * b, w + 2 * b) && IsGrid(labF, h, w) && IsGrid(buf, h + 2 * b, w + 2 * b) && IsGrid(lab, h, w)
    requires IsGrid(buf', h + 2 * b, w + 2 * b) && IsGrid(lab', h, w)
    requires b <= row < h + b && 0 <= j < w
    requires Readable(buf, row, j + b, taps) && PaddingLoses(fwd[row][j + b], buf, row, j + b, taps, h, w, b)
    requires AgreeOnTaps(buf, buf', row, j + b, taps) && LabelsAgree(lab, lab', row, j + b, taps, h, w, b)
    requires lab'[row - b][j] == BackwardLabel(fwd[row][j + b], labF[row - b][j], buf, lab, row, j + b, taps, hv, h, w, b)
    ensures BackLabelDone(fwd, labF, buf', lab', h, w, b, taps, hv, row, j + b)
  {
    RelaxLabelAgree(fwd[row][j + b], labF[row - b][j], buf, buf', lab, lab', row, j + b, taps, h, w, b, 0, |taps|);
  }

  /** The pixel just visited holds its backward label. */
  lemma BackLabelWrittenDone(fwd: Grid, labF: Grid, buf: Grid, lab: Grid, h: nat, w: nat, b: nat, taps: seq<Tap>, hv: int, row: int, j: int, v: int)
    requires IsGrid(fwd, h + 2 * b, w + 2 * b) && IsGrid(labF, h, w) && IsGrid(buf, h + 2 * b, w + 2 * b) && IsGrid(lab, h, w)
    requires BackwardMask(taps, b) && b <= row < h + b && 0 <= j < w
    requires buf[row][j + b] == fwd[row][j + b] && lab[row - b][j] == labF[row - b][j]
    requires Readable(buf, row, j + b, taps) && PaddingLoses(fwd[row][j + b], buf, row, j + b, taps, h, w, b)
    ensures BackLabelDone(fwd, labF, Write(buf, row, j + b, v), NextBackLabels(buf, lab, h, w, b, taps, hv, row, j), h, w, b, taps, hv, row, j + b)
  {
    assert forall k :: 0 <= k < |taps| ==> AntiCausal(taps[k], b);
    AntiCausalAvoids(taps, b, row, j + b, row, j + b);
    WriteAgrees(buf, row, j + b, taps, row, j + b, v);
    var lab' := NextBackLabels(buf, lab, h, w, b, taps, hv, row, j);
    if buf[row][j + b] > hv {
      LabelWriteAgrees(lab, row, j + b, taps, h, w, b, row - b, j, BackwardStepEx(buf, lab, h, w, b, taps, hv, row, j).lbl);
    }
    BackLabelVisited(fwd, labF, buf, Write(buf, row, j + b, v), lab, lab', h, w, b, taps, hv, row, j);
  }

  /** Visiting (row, j + b) only touches that pixel's label, so the pixels
      the backward scan has not reached keep their forward labels. */
  lemma ForwardLabelsAfterWrite(labF: Grid, lab: Grid, h: nat, w: nat, b: nat, row: int, j: int, wrote: bool, l: int)
    requires IsGrid(labF, h, w) && IsGrid(lab, h, w) && b <= row < h + b && 0 <= j < w
    requires forall x, y :: 0 <= x < h && 0 <= y < w && !After(x + b, y + b, row, j + b) ==> lab[x][y] == labF[x][y]
    ensures forall x, y :: 0 <= x < h && 0 <= y < w && !After(x + b, y + b, row, j + b - 1) ==>
      (if wrote then Write(lab, row - b, j, l) else lab)[x][y] == labF[x][y]
  {
  }

  /** Visiting (row, j + b) moves the label half of the backward scan one
      column left. */
  lemma BackLabelAfterWrite(fwd: Grid, labF: Grid, buf: Grid, lab: Grid, h: nat, w: nat, b: nat, taps: seq<Tap>, hv: int, row: int, j: int, v: int)
    requires IsGrid(fwd, h + 2 * b, w + 2 * b) && IsGrid(labF, h, w) && IsGrid(buf, h + 2 * b, w + 2 * b) && IsGrid(lab, h, w)
    requires BackwardMask(taps, b) && b <= row < h + b && 0 <= j < w
    requires buf[row][j + b] == fwd[row][j + b]
    requires Readable(buf, row, j + b, taps) && PaddingLoses(fwd[row][j + b], buf, row, j + b, taps, h, w, b)
    requires BackLabelScan(fwd, labF, buf, lab, h, w, b, taps, hv, row, j + b)
    ensures BackLabelScan(fwd, labF, Write(buf, row, j + b, v), NextBackLabels(buf, lab, h, w, b, taps, hv, row, j), h, w, b, taps, hv, row, j + b - 1)
  {
    var lab' := NextBackLabels(buf, lab, h, w, b, taps, hv, row, j);
    var wrote := buf[row][j + b] > hv;
    var l := BackwardStepEx(buf, lab, h, w, b, taps, hv, row, j).lbl;
    assert lab' == if wrote then Write(lab, row - b, j, l) else lab;
    assert lab[row - b][j] == labF[row - b][j];
    forall r, c | Interior(r, c, h, w, b) && After(r, c, row, j + b - 1)
      ensures BackLabelDone(fwd, labF, Write(buf, row, j + b, v), lab', h, w, b, taps, hv, r, c)
    {
      if r == row && c == j + b {
        BackLabelWrittenDone(fwd, labF, buf, lab, h, w, b, taps, hv, row, j, v);
      } else {
        assert BackLabelDone(fwd, labF, buf, lab, h, w, b, taps, hv, r, c);
        BackLabelKeptDone(fwd, labF, buf, lab, h, w, b, taps, hv, r, c, row, j, v, wrote, l);
      }
    }
    ForwardLabelsAfterWrite(labF, lab, h, w, b, row, j, wrote, l);
  }

  /** One step of the labelled backward scan keeps both halves of the scan
      state. */
  lemma BackwardVisitEx(fwd: Grid, labF: Grid, prev: Grid, buf: Grid, lab: Grid, h: nat, w: nat, b: nat, taps: seq<Tap>, hv: int, row: int, j: nat)
    requires IsGrid(fwd, h + 2 * b, w + 2 * b) && IsGrid(labF, h, w) && IsGrid(prev, h + 2 * b, w + 2 * b)
    requires IsGrid(buf, h + 2 * b, w + 2 * b) && IsGrid(lab, h, w)
    requires BackwardMask(taps, b) && PaddingSentinel(fwd, h, w, b) && Bounded(fwd, 0, InitDist0) && BackHeadroom(InitDist0, taps)
    requires j < w
    requires BackScanState(fwd, prev, buf, h, w, b, taps, hv, row, j + b)
    requires BackLabelScan(fwd, labF, buf, lab, h, w, b, taps, hv, row, j + b)
    ensures b <= row < h + b
    ensures Readable(buf, row, j + b, taps) && PaddingLoses(buf[row][j + b], buf, row, j + b, taps, h, w, b)
    ensures BackScanState(fwd, prev, Write(buf, row, j + b, BackwardStepEx(buf, lab, h, w, b, taps, hv, row, j).dist), h, w, b, taps, hv, row, j + b - 1)
    ensures BackLabelScan(fwd, labF, Write(buf, row, j + b, BackwardStepEx(buf, lab, h, w, b, taps, hv, row, j).dist),
                          NextBackLabels(buf, lab, h, w, b, taps, hv, row, j), h, w, b, taps, hv, row, j + b - 1)
  {
    BackwardAfterWrite(fwd, prev, buf, h, w, b, taps, hv, InitDist0, row, j + b);
    BackPaddingTaps(fwd, prev, buf, h, w, b, taps, hv, row, j + b);
    assert buf[row][j + b] == fwd[row][j + b];
    BackwardStepExDist(buf, lab, h, w, b, taps, hv, row, j);
    BackLabelAfterWrite(fwd, labF, buf, lab, h, w, b, taps, hv, row, j, BackwardStepEx(buf, lab, h, w, b, taps, hv, row, j).dist);
  }

  /** One row of the labelled backward scan (lines 323-390 of the C file).
      When `t0 <= HV_DIST` the C code leaves `tmp[j]` alone; writing back
      the unchanged t0 here is the same. */
  method BackwardRowEx(fwd: Grid, labF: Grid, h: nat, w: nat, b: nat, taps: seq<Tap>, hv: int, buf: Grid, lab: Grid, row: nat, ghost prev: Grid)
    returns (out: Grid, outLab: Grid)
    requires IsGrid(fwd, h + 2 * b, w + 2 * b) && IsGrid(labF, h, w) && IsGrid(prev, h + 2 * b, w + 2 * b)
    requires IsGrid(buf, h + 2 * b, w + 2 * b) && IsGrid(lab, h, w)
    requires BackwardMask(taps, b) && PaddingSentinel(fwd, h, w, b) && Bounded(fwd, 0, InitDist0) && BackHeadroom(InitDist0, taps)
    requires BackScanState(fwd, prev, buf, h, w, b, taps, hv, row, w + b - 1)
    requires BackLabelScan(fwd, labF, buf, lab, h, w, b, taps, hv, row, w + b - 1)
    ensures IsGrid(out, h + 2 * b, w + 2 * b) && IsGrid(outLab, h, w)
    ensures BackScanState(fwd, prev, out, h, w, b, taps, hv, row, b - 1)
    ensures BackLabelScan(fwd, labF, out, outLab, h, w, b, taps, hv, row, b - 1)
  {
    out, outLab := buf, lab;
    var j := w;
    while j > 0
      invariant 0 <= j <= w
      invariant IsGrid(out, h + 2 * b, w + 2 * b) && IsGrid(outLab, h, w)
      invariant BackScanState(fwd, prev, out, h, w, b, taps, hv, row, j + b - 1)
      invariant BackLabelScan(fwd, labF, out, outLab, h, w, b, taps, hv, row, j + b - 1)
    {
      j := j - 1;
      BackwardVisitEx(fwd, labF, prev, out, outLab, h, w, b, taps, hv, row, j);
      var n := BackwardStepEx(out, outLab, h, w, b, taps, hv, row, j);
      if out[row][j + b] > hv {
        out := Write(out, row, j + b, n.dist);
        outLab := Write(outLab, row - b, j, n.lbl);
      } else {
        out := Write(out, row, j + b, n.dist);
      }
    }
  }

  /** A scanned row hands over to the row above. */
  lemma BackLabelRowEnd(fwd: Grid, labF: Grid, buf: Grid, lab: Grid, h: nat, w: nat, b: nat, taps: seq<Tap>, hv: int, row: int)
    requires IsGrid(fwd, h + 2 * b, w + 2 * b) && IsGrid(labF, h, w) && IsGrid(buf, h + 2 * b, w + 2 * b) && IsGrid(lab, h, w)
    requires BackLabelScan(fwd, labF, buf, lab, h, w, b, taps, hv, row, b - 1)
    ensures BackLabelScan(fwd, labF, buf, lab, h, w, b, taps, hv, row - 1, w + b - 1)
  {
    forall r, c | Interior(r, c, h, w, b) && After(r, c, row - 1, w + b - 1)
      ensures BackLabelDone(fwd, labF, buf, lab, h, w, b, taps, hv, r, c)
    {
      assert After(r, c, row, b - 1);
    }
  }

  /** The labelled backward raster pass over the forward buffer `fwd` and
      forward labels `labF`: the distance half is the ordinary backward pass,
      and every pixel ends with its backward label. */
  method BackwardPassEx(fwd: Grid, labF: Grid, h: nat, w: nat, b: nat, taps: seq<Tap>, hv: int) returns (buf: Grid, lab: Grid)
    requires IsGrid(fwd, h + 2 * b, w + 2 * b) && IsGrid(labF, h, w)
    requires BackwardMask(taps, b) && PaddingSentinel(fwd, h, w, b) && Bounded(fwd, 0, InitDist0) && BackHeadroom(InitDist0, taps)
    ensures IsGrid(buf, h + 2 * b, w + 2 * b) && IsGrid(lab, h, w)
    ensures KeepsPadding(fwd, buf, h, w, b)
    ensures forall r, c :: 0 <= r < h + 2 * b && 0 <= c < w + 2 * b ==> 0 <= buf[r][c] <= fwd[r][c]
    ensures BackwardFixpoint(fwd, buf, h, w, b, taps, hv)
    ensures BackLabelFixpoint(fwd, labF, buf, lab, h, w, b, taps, hv)
  {
    buf, lab := fwd, labF;
    var i := h;
    while i > 0
      invariant 0 <= i <= h
      invariant IsGrid(buf, h + 2 * b, w + 2 * b) && IsGrid(lab, h, w)
      invariant forall r :: 0 <= r < i + b ==> buf[r] == fwd[r]
      invariant BackRowsDone(fwd, buf, h, w, b, taps, hv, i + b)
      invariant BackLabelScan(fwd, labF, buf, lab, h, w, b, taps, hv, i + b - 1, w + b - 1)
    {
      var row := i + b - 1;
      BackRowStart(fwd, buf, h, w, b, taps, hv, row);
      ghost var prev := buf;
      buf, lab := BackwardRowEx(fwd, labF, h, w, b, taps, hv, buf, lab, row, prev);
      BackRowEnd(fwd, prev, buf, h, w, b, taps, hv, row);
      BackLabelRowEnd(fwd, labF, buf, lab, h, w, b, taps, hv, row);
      i := i - 1;
    }
    BackwardFinished(fwd, buf, h, w, b, taps, hv, InitDist0);
    forall r, c | Interior(r, c, h, w, b)
      ensures BackLabelDone(fwd, labF, buf, lab, h, w, b, taps, hv, r, c)
    {
      assert After(r, c, b - 1, w + b - 1);
    }
  }
}

=== FILE: chamfer_label_kernel.dfy ===
/** `icvDistanceTransformEx_5x5_C1R` as a whole: sentinel rows, the labelled
    forward pass started from ICV_INIT_DIST0, then the labelled backward pass
    with the mirrored taps; and what its distances and labels are.

    A label is where a distance came from: zero pixels keep the seed label
    the caller drew, every other pixel carries the label of the neighbour
    whose candidate it took, so each label is 0 or the seed of some zero
    pixel. */
module ChamferLabelKernel {
  import opened ChamferBuffer
  import opened ChamferForward
  import opened ChamferBackward
  import opened ChamferKernels
  import opened ChamferLabels
  import opened ChamferLabelBackward

  /** `fwd`, `labF`, `bwd` and `lab` are the buffers and label images after
      the labelled forward and backward passes over `src` with seeds `seed`. */
  ghost predicate LabelledPasses(src: Grid, seed: Grid, fwd: Grid, labF: Grid, bwd: Grid, lab: Grid, h: nat, w: nat, b: nat, taps: seq<Tap>, hv: int)
  {
    && TwoPass(src, fwd, bwd, h, w, b, taps, true, hv)
    && IsGrid(seed, h, w) && IsGrid(labF, h, w) && IsGrid(lab, h, w)
    && Bounded(fwd, 0, InitDist0)
    && LabelFixpoint(src, seed, fwd, labF, h, w, b, taps)
    && BackLabelFixpoint(fwd, labF, bwd, lab, h, w, b, Mirror(taps), hv)
  }

  /** `dist` and `labels` are what the labelled kernel produces. */
  ghost predicate IsLabelledMap(src: Grid, seed: Grid, dist: Grid, labels: Grid, h: nat, w: nat, b: nat, taps: seq<Tap>, hv: int)
  {
    exists fwd: Grid, labF: Grid, bwd: Grid ::
      LabelledPasses(src, seed, fwd, labF, bwd, labels, h, w, b, taps, hv) && dist == Extract(bwd, h, w, b)
  }

  /** The labelled forward pass starts every non-zero pixel at the sentinel
      and only lowers it, so no forward value exceeds ICV_INIT_DIST0. */
  lemma ExCapped(src: Grid, fwd: Grid, h: nat, w: nat, b: nat, taps: seq<Tap>)
    requires IsGrid(src, h, w) && IsGrid(fwd, h + 2 * b, w + 2 * b) && |taps| > 0
    requires PaddingSentinel(fwd, h, w, b) && ForwardFixpoint(src, fwd, h, w, b, taps, true)
    requires Bounded(fwd, 0, IntMax)
    ensures Bounded(fwd, 0, InitDist0)
  {
    forall r, c | 0 <= r < |fwd| && 0 <= c < |fwd[r]|
      ensures fwd[r][c] <= InitDist0
    {
      if Interior(r, c, h, w, b) {
        assert Readable(fwd, r, c, taps);
      }
    }
  }

  /** The forward headroom covers the backward pass of the labelled kernel. */
  lemma ExBackHeadroom(h: nat, b: nat, taps: seq<Tap>, hv: int)
    requires ForwardMask(taps, b, hv) && Headroom(h, hv, taps)
    ensures BackHeadroom(InitDist0, Mirror(taps))
  {
    ForwardMaskHv(taps, b, hv);
    assert h * hv >= 0;
  }

  /** The labelled kernel over any forward mask. */
  method DistanceTransformEx(src: Grid, seed: Grid, h: nat, w: nat, b: nat, taps: seq<Tap>, hv: int, temp: Grid) returns (dist: Grid, labels: Grid)
    requires IsGrid(src, h, w) && IsGrid(seed, h, w) && IsGrid(temp, h + 2 * b, w + 2 * b)
    requires ForwardMask(taps, b, hv) && Headroom(h, hv, taps)
    ensures IsGrid(dist, h, w) && IsGrid(labels, h, w)
    ensures IsLabelledMap(src, seed, dist, labels, h, w, b, taps, hv)
    ensures IsDistanceMap(src, dist, h, w, b, taps, true, hv)
    ensures forall i, j :: 0 <= i < h && 0 <= j < w ==> 0 <= dist[i][j] <= InitDist0
  {
    var buf := InitTopBottom(temp, h, w, b);
    var fwd, labF := ForwardPassEx(src, seed, h, w, b, taps, hv, buf);
    ForwardMaskHv(taps, b, hv);
    ExCapped(src, fwd, h, w, b, taps);
    MirrorIsBackward(taps, b, hv);
    ExBackHeadroom(h, b, taps, hv);
    var bwd;
    bwd, labels := BackwardPassEx(fwd, labF, h, w, b, Mirror(taps), hv);
    dist := Extract(bwd, h, w, b);
    assert LabelledPasses(src, seed, fwd, labF, bwd, labels, h, w, b, taps, hv);
  }

  /** `icvDistanceTransformEx_5x5_C1R` on weights already in fixed point. */
  method DistanceTransformEx5x5(src: Grid, seed: Grid, h: nat, w: nat, hvDist: int, diagDist: int, longDist: int, temp: Grid)
    returns (dist: Grid, labels: Grid)
    requires IsGrid(src, h, w) && IsGrid(seed, h, w) && IsGrid(temp, h + 4, w + 4)
    requires 0 <= hvDist && 0 <= diagDist && 0 <= longDist
    requires Headroom(h, hvDist, Mask5x5(hvDist, diagDist, longDist))
    ensures IsGrid(dist, h, w) && IsGrid(labels, h, w)
    ensures IsLabelledMap(src, seed, dist, labels, h, w, 2, Mask5x5(hvDist, diagDist, longDist), hvDist)
    ensures IsDistanceMap(src, dist, h, w, 2, Mask5x5(hvDist, diagDist, longDist), true, hvDist)
    ensures forall i, j :: 0 <= i < h && 0 <= j < w ==> 0 <= dist[i][j] <= InitDist0
  {
    dist, labels := DistanceTransformEx(src, seed, h, w, 2, Mask5x5(hvDist, diagDist, longDist), hvDist, temp);
  }

  /** Label l is 0 or the seed of some zero pixel. */
  predicate Seeded(src: Grid, seed: Grid, h: nat, w: nat, l: int)
    requires IsGrid(src, h, w) && IsGrid(seed, h, w)
  {
    l == 0 || exists x, y :: 0 <= x < h && 0 <= y < w && src[x][y] == 0 && seed[x][y] == l
  }

  /** Every forward label is 0 or a seed: by induction in raster order, a
      zero pixel keeps its seed and any other pixel takes 0 or the label of
      an earlier pixel. */
  lemma {:induction false} ForwardLabelSeeded(src: Grid, seed: Grid, fwd: Grid, labF: Grid, h: nat, w: nat, b: nat, taps: seq<Tap>, hv: int, r: int, c: int)
    requires IsGrid(src, h, w) && IsGrid(seed, h, w) && IsGrid(fwd, h + 2 * b, w + 2 * b) && IsGrid(labF, h, w)
    requires ForwardMask(taps, b, hv) && LabelFixpoint(src, seed, fwd, labF, h, w, b, taps)
    requires Interior(r, c, h, w, b)
    ensures Seeded(src, seed, h, w, labF[r - b][c - b])
    decreases r, c
  {
    assert LabelDone(src, seed, fwd, labF, h, w, b, taps, r, c);
    if src[r - b][c - b] != 0 {
      var n := RelaxLabel(InitDist0, 0, fwd, labF, r, c, taps, h, w, b, 0, |taps|);
      if n.dist < InitDist0 {
        var k := RelaxLabelWinner(InitDist0, 0, fwd, labF, r, c, taps, h, w, b, 0, |taps|);
        assert Causal(taps[k], b);
        ForwardLabelSeeded(src, seed, fwd, labF, h, w, b, taps, hv, r + taps[k].dr, c + taps[k].dc);
      }
    }
  }

  /** Every final label is 0 or a seed: by induction in backward raster
      order, a pixel keeps its forward label or takes the label of a pixel
      the backward scan visited earlier. */
  lemma {:induction false} BackwardLabelSeeded(src: Grid, seed: Grid, fwd: Grid, labF: Grid, bwd: Grid, lab: Grid, h: nat, w: nat, b: nat, taps: seq<Tap>, hv: int, r: int, c: int)
    requires IsGrid(src, h, w) && IsGrid(seed, h, w) && IsGrid(fwd, h + 2 * b, w + 2 * b) && IsGrid(labF, h, w)
    requires IsGrid(bwd, h + 2 * b, w + 2 * b) && IsGrid(lab, h, w)
    requires ForwardMask(taps, b, hv) && LabelFixpoint(src, seed, fwd, labF, h, w, b, taps)
    requires BackwardMask(Mirror(taps), b) && BackLabelFixpoint(fwd, labF, bwd, lab, h, w, b, Mirror(taps), hv)
    requires Interior(r, c, h, w, b)
    ensures Seeded(src, seed, h, w, lab[r - b][c - b])
    decreases h + b - r, w + b - c
  {
    var btaps := Mirror(taps);
    assert BackLabelDone(fwd, labF, bwd, lab, h, w, b, btaps, hv, r, c);
    var n := RelaxLabel(fwd[r][c], labF[r - b][c - b], bwd, lab, r, c, btaps, h, w, b, 0, |btaps|);
    if fwd[r][c] > hv && n.dist < fwd[r][c] {
      var k := RelaxLabelWinner(fwd[r][c], labF[r - b][c - b], bwd, lab, r, c, btaps, h, w, b, 0, |btaps|);
      assert AntiCausal(btaps[k], b);
      BackwardLabelSeeded(src, seed, fwd, labF, bwd, lab, h, w, b, taps, hv, r + btaps[k].dr, c + btaps[k].dc);
    } else {
      ForwardLabelSeeded(src, seed, fwd, labF, h, w, b, taps, hv, r, c);
    }
  }

  /** Every label the kernel outputs is 0 or the seed label of a zero pixel. */
  lemma LabelsSeeded(src: Grid, seed: Grid, dist: Grid, labels: Grid, h: nat, w: nat, b: nat, taps: seq<Tap>, hv: int, i: int, j: int)
    requires ForwardMask(taps, b, hv) && IsLabelledMap(src, seed, dist, labels, h, w, b, taps, hv)
    requires 0 <= i < h && 0 <= j < w
    ensures IsGrid(src, h, w) && IsGrid(seed, h, w) && IsGrid(labels, h, w)
    ensures Seeded(src, seed, h, w, labels[i][j])
  {
    var fwd, labF, bwd :| LabelledPasses(src, seed, fwd, labF, bwd, labels, h, w, b, taps, hv) && dist == Extract(bwd, h, w, b);
    MirrorIsBackward(taps, b, hv);
    BackwardLabelSeeded(src, seed, fwd, labF, bwd, labels, h, w, b, taps, hv, i + b, j + b);
    assert (i + b) - b == i && (j + b) - b == j;
  }

  /** An image without zero pixels has no seed, so every label is 0. */
  lemma NoZeroPixelNoLabel(src: Grid, seed: Grid, dist: Grid, labels: Grid, h: nat, w: nat, b: nat, taps: seq<Tap>, hv: int)
    requires ForwardMask(taps, b, hv) && IsLabelledMap(src, seed, dist, labels, h, w, b, taps, hv)
    requires IsGrid(src, h, w) && forall x, y :: 0 <= x < h && 0 <= y < w ==> src[x][y] != 0
    ensures IsGrid(labels, h, w)
    ensures forall i, j :: 0 <= i < h && 0 <= j < w ==> labels[i][j] == 0
  {
    forall i, j | 0 <= i < h && 0 <= j < w
      ensures IsGrid(labels, h, w) && labels[i][j] == 0
    {
      LabelsSeeded(src, seed, dist, labels, h, w, b, taps, hv, i, j);
    }
  }

  /** At the fixpoints, a zero pixel has forward and backward distance 0
      and keeps its seed through both passes. */
  lemma ZeroCellKeepsSeed(src: Grid, seed: Grid, fwd: Grid, labF: Grid, bwd: Grid, lab: Grid, h: nat, w: nat, b: nat, taps: seq<Tap>, hv: int, r: int, c: int)
    requires IsGrid(src, h, w) && IsGrid(seed, h, w) && IsGrid(fwd, h + 2 * b, w + 2 * b) && IsGrid(labF, h, w)
    requires IsGrid(bwd, h + 2 * b, w + 2 * b) && IsGrid(lab, h, w) && |taps| > 0 && 0 <= hv
    requires ForwardFixpoint(src, fwd, h, w, b, taps, true) && LabelFixpoint(src, seed, fwd, labF, h, w, b, taps)
    requires BackwardFixpoint(fwd, bwd, h, w, b, Mirror(taps), hv) && BackLabelFixpoint(fwd, labF, bwd, lab, h, w, b, Mirror(taps), hv)
    requires Interior(r, c, h, w, b) && src[r - b][c - b] == 0
    ensures bwd[r][c] == 0 && lab[r - b][c - b] == seed[r - b][c - b]
  {
    assert Readable(fwd, r, c, taps);
    assert LabelDone(src, seed, fwd, labF, h, w, b, taps, r, c);
    assert Readable(bwd, r, c, Mirror(taps));
    assert BackLabelDone(fwd, labF, bwd, lab, h, w, b, Mirror(taps), hv, r, c);
  }

  /** A zero pixel ends with distance 0 and keeps its seed label. */
  lemma ZeroPixelKeepsSeed(src: Grid, seed: Grid, dist: Grid, labels: Grid, h: nat, w: nat, b: nat, taps: seq<Tap>, hv: int, i: int, j: int)
    requires ForwardMask(taps, b, hv) && IsLabelledMap(src, seed, dist, labels, h, w, b, taps, hv)
    requires IsGrid(src, h, w) && 0 <= i < h && 0 <= j < w && src[i][j] == 0
    ensures IsGrid(dist, h, w) && IsGrid(seed, h, w) && IsGrid(labels, h, w)
    ensures dist[i][j] == 0 && labels[i][j] == seed[i][j]
  {
    var fwd, labF, bwd :| LabelledPasses(src, seed, fwd, labF, bwd, labels, h, w, b, taps, hv) && dist == Extract(bwd, h, w, b);
    ForwardMaskHv(taps, b, hv);
    assert (i + b) - b == i && (j + b) - b == j;
    ZeroCellKeepsSeed(src, seed, fwd, labF, bwd, labels, h, w, b, taps, hv, i + b, j + b);
  }

  /** When the backward pass changes a pixel's label, its distance strictly
      dropped below the forward one, and the new label and distance both
      come from the first backward neighbour reaching the minimum, which is
      an image pixel. */
  lemma BackwardLabelFollows(fwd: Grid, labF: Grid, bwd: Grid, lab: Grid, h: nat, w: nat, b: nat, taps: seq<Tap>, hv: int, r: int, c: int) returns (k: int)
    requires IsGrid(fwd, h + 2 * b, w + 2 * b) && IsGrid(labF, h, w) && IsGrid(bwd, h + 2 * b, w + 2 * b) && IsGrid(lab, h, w)
    requires BackwardFixpoint(fwd, bwd, h, w, b, taps, hv) && BackLabelFixpoint(fwd, labF, bwd, lab, h, w, b, taps, hv)
    requires Interior(r, c, h, w, b) && lab[r - b][c - b] != labF[r - b][c - b]
    ensures Readable(bwd, r, c, taps)
    ensures hv < fwd[r][c] && bwd[r][c] < fwd[r][c]
    ensures 0 <= k < |taps| && Interior(r + taps[k].dr, c + taps[k].dc, h, w, b)
    ensures bwd[r][c] == Cand(bwd, r, c, taps[k]) && lab[r - b][c - b] == TapLabel(lab, r, c, taps[k], h, w, b)
    ensures forall j :: 0 <= j < k ==> Cand(bwd, r, c, taps[j]) > bwd[r][c]
  {
    assert Readable(bwd, r, c, taps);
    assert BackLabelDone(fwd, labF, bwd, lab, h, w, b, taps, hv, r, c);
    RelaxLabelDist(fwd[r][c], labF[r - b][c - b], bwd, lab, r, c, taps, h, w, b, 0, |taps|);
    k := RelaxLabelWinner(fwd[r][c], labF[r - b][c - b], bwd, lab, r, c, taps, h, w, b, 0, |taps|);
  }

  /** A non-zero pixel that leaves the forward pass with a non-zero label
      took its distance and label from the first forward neighbour reaching
      the minimum, an image pixel strictly nearer than the sentinel. */
  lemma ForwardLabelFollows(src: Grid, seed: Grid, fwd: Grid, labF: Grid, h: nat, w: nat, b: nat, taps: seq<Tap>, r: int, c: int) returns (k: int)
    requires IsGrid(src, h, w) && IsGrid(seed, h, w) && IsGrid(fwd, h + 2 * b, w + 2 * b) && IsGrid(labF, h, w) && |taps| > 0
    requires ForwardFixpoint(src, fwd, h, w, b, taps, true) && LabelFixpoint(src, seed, fwd, labF, h, w, b, taps)
    requires Interior(r, c, h, w, b) && src[r - b][c - b] != 0 && labF[r - b][c - b] != 0
    ensures Readable(fwd, r, c, taps)
    ensures fwd[r][c] < InitDist0
    ensures 0 <= k < |taps| && Interior(r + taps[k].dr, c + taps[k].dc, h, w, b)
    ensures fwd[r][c] == Cand(fwd, r, c, taps[k]) && labF[r - b][c - b] == TapLabel(labF, r, c, taps[k], h, w, b)
    ensures forall j :: 0 <= j < k ==> Cand(fwd, r, c, taps[j]) > fwd[r][c]
  {
    assert Readable(fwd, r, c, taps);
    assert LabelDone(src, seed, fwd, labF, h, w, b, taps, r, c);
    RelaxLabelDist(InitDist0, 0, fwd, labF, r, c, taps, h, w, b, 0, |taps|);
    k := RelaxLabelWinner(InitDist0, 0, fwd, labF, r, c, taps, h, w, b, 0, |taps|);
  }

  /** A non-zero pixel no forward candidate beats the sentinel at ends the
      forward pass with the sentinel distance and label 0. */
  lemma ForwardUnreached(src: Grid, seed: Grid, fwd: Grid, labF: Grid, h: nat, w: nat, b: nat, taps: seq<Tap>, r: int, c: int)
    requires IsGrid(src, h, w) && IsGrid(seed, h, w) && IsGrid(fwd, h + 2 * b, w + 2 * b) && IsGrid(labF, h, w) && |taps| > 0
    requires ForwardFixpoint(src, fwd, h, w, b, taps, true) && LabelFixpoint(src, seed, fwd, labF, h, w, b, taps)
    requires Interior(r, c, h, w, b) && src[r - b][c - b] != 0
    requires Readable(fwd, r, c, taps) && forall k :: 0 <= k < |taps| ==> InitDist0 <= Cand(fwd, r, c, taps[k])
    ensures fwd[r][c] == InitDist0 && labF[r - b][c - b] == 0
  {
    assert LabelDone(src, seed, fwd, labF, h, w, b, taps, r, c);
    RelaxLabelKeeps(InitDist0, 0, fwd, labF, r, c, taps, h, w, b, 0, |taps|);
    RelaxLabelDist(InitDist0, 0, fwd, labF, r, c, taps, h, w, b, 0, |taps|);
  }
}

=== FILE: chamfer_labels.dfy ===
/** The label-propagating 5x5 kernel `icvDistanceTransformEx_5x5_C1R`.

    Next to the padded distance buffer it keeps an unpadded `int` label
    image: on entry it holds the seed labels the caller drew (each zero
    pixel labelled with its connected component), and every non-zero pixel
    inherits the label of the neighbour it takes its distance from. A
    distance and a label are replaced together, and only when a candidate
    is strictly smaller (`if( t0 > t )`), so ties keep the neighbour checked
    first.

    The distance half of the kernel is the forward pass started from the
    sentinel (`ex`) followed by the ordinary backward pass; the label half
    is modelled here. */
module ChamferLabels {
  import opened ChamferBuffer
  import opened ChamferForward
  import opened ChamferBackward
  import opened ChamferKernels

  /** The running pair (t0, l0) of the labelled kernels: best distance so
      far and the label it came with. */
  datatype Nearest = Nearest(dist: int, lbl: int)

  /** A tap of buffer cell (r, c) that lands on padding offers at least t0.
      The label image has no padding, so the kernel must never take a label
      from such a tap; this holds because padding holds the sentinel and
      t0 starts at or below it. */
  predicate PaddingLoses(t0: int, buf: Grid, r: int, c: int, taps: seq<Tap>, h: nat, w: nat, b: nat)
    requires Readable(buf, r, c, taps)
  {
    forall k :: 0 <= k < |taps| && !Interior(r + taps[k].dr, c + taps[k].dc, h, w, b) ==> t0 <= Cand(buf, r, c, taps[k])
  }

  /** `lls[...]` at the neighbour a tap of buffer cell (r, c) reads. */
  function TapLabel(lab: Grid, r: int, c: int, t: Tap, h: nat, w: nat, b: nat): int
    requires IsGrid(lab, h, w) && Interior(r + t.dr, c + t.dc, h, w, b)
  {
    lab[r + t.dr - b][c + t.dc - b]
  }

  /** The labelled fold: starting from (t0, l0), try taps lo .. hi-1 in order
      and take a tap's candidate and label when the candidate is strictly
      smaller. The distance never rises above t0, and a label other than
      l0 only comes with a strict improvement. */
  function RelaxLabel(t0: int, l0: int, buf: Grid, lab: Grid, r: int, c: int, taps: seq<Tap>, h: nat, w: nat, b: nat, lo: nat, hi: nat): (n: Nearest)
    requires lo <= hi <= |taps| && Readable(buf, r, c, taps) && IsGrid(lab, h, w)
    requires PaddingLoses(t0, buf, r, c, taps, h, w, b)
    ensures n.dist <= t0
    ensures n.dist == t0 ==> n.lbl == l0
    decreases hi
  {
    if hi == lo then Nearest(t0, l0)
    else
      var n1 := RelaxLabel(t0, l0, buf, lab, r, c, taps, h, w, b, lo, hi - 1);
      var t := Cand(buf, r, c, taps[hi - 1]);
      if n1.dist > t then Nearest(t, TapLabel(lab, r, c, taps[hi - 1], h, w, b)) else n1
  }

  /** The labelled fold computes the same distance as the unlabelled one. */
  lemma {:induction false} RelaxLabelDist(t0: int, l0: int, buf: Grid, lab: Grid, r: int, c: int, taps: seq<Tap>, h: nat, w: nat, b: nat, lo: nat, hi: nat)
    requires lo <= hi <= |taps| && Readable(buf, r, c, taps) && IsGrid(lab, h, w)
    requires PaddingLoses(t0, buf, r, c, taps, h, w, b)
    ensures RelaxLabel(t0, l0, buf, lab, r, c, taps, h, w, b, lo, hi).dist == Relax(t0, buf, r, c, taps, lo, hi)
    decreases hi
  {
    if hi > lo {
      RelaxLabelDist(t0, l0, buf, lab, r, c, taps, h, w, b, lo, hi - 1);
    }
  }

  /** When the fold improves on t0, the result is the candidate and label of
      the FIRST tap reaching the minimum: every earlier tap is strictly
      worse, no later tap is better, and the winner reads an image pixel. */
  lemma {:induction false} RelaxLabelWinner(t0: int, l0: int, buf: Grid, lab: Grid, r: int, c: int, taps: seq<Tap>, h: nat, w: nat, b: nat, lo: nat, hi: nat) returns (k: int)
    requires lo <= hi <= |taps| && Readable(buf, r, c, taps) && IsGrid(lab, h, w)
    requires PaddingLoses(t0, buf, r, c, taps, h, w, b)
    requires RelaxLabel(t0, l0, buf, lab, r, c, taps, h, w, b, lo, hi).dist < t0
    ensures lo <= k < hi && Interior(r + taps[k].dr, c + taps[k].dc, h, w, b)
    ensures RelaxLabel(t0, l0, buf, lab, r, c, taps, h, w, b, lo, hi) == Nearest(Cand(buf, r, c, taps[k]), TapLabel(lab, r, c, taps[k], h, w, b))
    ensures forall j :: lo <= j < k ==> Cand(buf, r, c, taps[j]) > Cand(buf, r, c, taps[k])
    ensures forall j :: lo <= j < hi ==> Cand(buf, r, c, taps[k]) <= Cand(buf, r, c, taps[j])
    decreases hi
  {
    var n1 := RelaxLabel(t0, l0, buf, lab, r, c, taps, h, w, b, lo, hi - 1);
    RelaxLabelDist(t0, l0, buf, lab, r, c, taps, h, w, b, lo, hi - 1);
    var t := Cand(buf, r, c, taps[hi - 1]);
    if n1.dist > t {
      k := hi - 1;
      assert t < t0;
      assert Interior(r + taps[k].dr, c + taps[k].dc, h, w, b);
    } else {
      k := RelaxLabelWinner(t0, l0, buf, lab, r, c, taps, h, w, b, lo, hi - 1);
    }
  }

  /** When no candidate is strictly below t0 the fold keeps (t0, l0): a
      non-zero pixel with no neighbour below the sentinel gets the sentinel
      distance and label 0. */
  lemma {:induction false} RelaxLabelKeeps(t0: int, l0: int, buf: Grid, lab: Grid, r: int, c: int, taps: seq<Tap>, h: nat, w: nat, b: nat, lo: nat, hi: nat)
    requires lo <= hi <= |taps| && Readable(buf, r, c, taps) && IsGrid(lab, h, w)
    requires PaddingLoses(t0, buf, r, c, taps, h, w, b)
    requires forall j :: lo <= j < hi ==> t0 <= Cand(buf, r, c, taps[j])
    ensures RelaxLabel(t0, l0, buf, lab, r, c, taps, h, w, b, lo, hi) == Nearest(t0, l0)
    decreases hi
  {
    if hi > lo {
      RelaxLabelKeeps(t0, l0, buf, lab, r, c, taps, h, w, b, lo, hi - 1);
    }
  }

  /** Two label images that agree wherever the taps of (r, c) land on an
      image pixel. */
  predicate LabelsAgree(lab1: Grid, lab2: Grid, r: int, c: int, taps: seq<Tap>, h: nat, w: nat, b: nat)
    requires IsGrid(lab1, h, w) && IsGrid(lab2, h, w)
  {
    forall k :: 0 <= k < |taps| && Interior(r + taps[k].dr, c + taps[k].dc, h, w, b) ==>
      TapLabel(lab1, r, c, taps[k], h, w, b) == TapLabel(lab2, r, c, taps[k], h, w, b)
  }

  /** The labelled fold only depends on the cells and labels its taps read. */
  lemma {:induction false} RelaxLabelAgree(t0: int, l0: int, buf1: Grid, buf2: Grid, lab1: Grid, lab2: Grid, r: int, c: int, taps: seq<Tap>, h: nat, w: nat, b: nat, lo: nat, hi: nat)
    requires lo <= hi <= |taps| && Readable(buf1, r, c, taps) && IsGrid(lab1, h, w) && IsGrid(lab2, h, w)
    requires PaddingLoses(t0, buf1, r, c, taps, h, w, b)
    requires AgreeOnTaps(buf1, buf2, r, c, taps) && LabelsAgree(lab1, lab2, r, c, taps, h, w, b)
    ensures Readable(buf2, r, c, taps) && PaddingLoses(t0, buf2, r, c, taps, h, w, b)
    ensures RelaxLabel(t0, l0, buf1, lab1, r, c, taps, h, w, b, lo, hi) == RelaxLabel(t0, l0, buf2, lab2, r, c, taps, h, w, b, lo, hi)
    decreases hi
  {
    forall k | 0 <= k < |taps|
      ensures 0 <= r + taps[k].dr < |buf2| && 0 <= c + taps[k].dc < |buf2[r + taps[k].dr]|
      ensures Cand(buf1, r, c, taps[k]) == Cand(buf2, r, c, taps[k])
    {
    }
    if hi > lo {
      RelaxLabelAgree(t0, l0, buf1, buf2, lab1, lab2, r, c, taps, h, w, b, lo, hi - 1);
      var n1 := RelaxLabel(t0, l0, buf1, lab1, r, c, taps, h, w, b, lo, hi - 1);
      var t := Cand(buf1, r, c, taps[hi - 1]);
      if n1.dist > t {
        assert Interior(r + taps[hi - 1].dr, c + taps[hi - 1].dc, h, w, b);
        assert TapLabel(lab1, r, c, taps[hi - 1], h, w, b) == TapLabel(lab2, r, c, taps[hi - 1], h, w, b);
      }
    }
  }

  /** Overwriting a buffer cell no tap reads keeps the taps' cells. */
  lemma WriteAgrees(buf: Grid, r: int, c: int, taps: seq<Tap>, x: nat, y: nat, v: int)
    requires Readable(buf, r, c, taps) && x < |buf| && y < |buf[x]| && TapAvoids(r, c, taps, x, y)
    ensures AgreeOnTaps(buf, Write(buf, x, y, v), r, c, taps)
  {
  }

  /** Overwriting the label of image pixel (x, y), i.e. buffer cell
      (x + b, y + b), keeps the labels the taps read when no tap reads it. */
  lemma LabelWriteAgrees(lab: Grid, r: int, c: int, taps: seq<Tap>, h: nat, w: nat, b: nat, x: nat, y: nat, v: int)
    requires IsGrid(lab, h, w) && x < h && y < w && TapAvoids(r, c, taps, x + b, y + b)
    ensures IsGrid(Write(lab, x, y, v), h, w)
    ensures LabelsAgree(lab, Write(lab, x, y, v), r, c, taps, h, w, b)
  {
  }

  /** The label the forward pass leaves at an image pixel: a zero pixel keeps
      its seed; any other pixel takes the label of its first strictly nearest
      neighbour, or 0 when no neighbour is below the sentinel. */
  function ForwardLabel(pixel: int, seed: int, buf: Grid, lab: Grid, r: int, c: int, taps: seq<Tap>, h: nat, w: nat, b: nat): int
    requires Readable(buf, r, c, taps) && IsGrid(lab, h, w)
    requires PaddingLoses(InitDist0, buf, r, c, taps, h, w, b)
  {
    if pixel == 0 then seed else RelaxLabel(InitDist0, 0, buf, lab, r, c, taps, h, w, b, 0, |taps|).lbl
  }

  /** The label the backward pass leaves at an image pixel whose forward
      distance and label are t0 and l0: unchanged when `t0 <= HV_DIST`,
      otherwise the label of the first strictly nearer backward neighbour. */
  function BackwardLabel(t0: int, l0: int, buf: Grid, lab: Grid, r: int, c: int, taps: seq<Tap>, hv: int, h: nat, w: nat, b: nat): int
    requires Readable(buf, r, c, taps) && IsGrid(lab, h, w)
    requires PaddingLoses(t0, buf, r, c, taps, h, w, b)
  {
    if t0 > hv then RelaxLabel(t0, l0, buf, lab, r, c, taps, h, w, b, 0, |taps|).lbl else l0
  }

  /** Buffer cell (r, c) comes before (row, col) in the forward raster order. */
  predicate Before(r: int, c: int, row: int, col: int) {
    r < row || (r == row && c < col)
  }

  /** A causal tap never reads the cell being written, nor any cell written
      after an earlier cell. */
  lemma CausalAvoids(taps: seq<Tap>, b: nat, r: int, c: int, row: int, col: int)
    requires forall k :: 0 <= k < |taps| ==> Causal(taps[k], b)
    requires Before(r, c, row, col) || (r == row && c == col)
    ensures TapAvoids(r, c, taps, row, col)
  {
    forall k | 0 <= k < |taps|
      ensures r + taps[k].dr != row || c + taps[k].dc != col
    {
      assert Causal(taps[k], b);
    }
  }

  /** Image cell (r, c) holds its forward label, computed from the buffer and
      the label image as they are now. */
  ghost predicate LabelDone(src: Grid, seed: Grid, buf: Grid, lab: Grid, h: nat, w: nat, b: nat, taps: seq<Tap>, r: int, c: int)
    requires IsGrid(src, h, w) && IsGrid(seed, h, w) && IsGrid(buf, h + 2 * b, w + 2 * b) && IsGrid(lab, h, w)
    requires Interior(r, c, h, w, b)
  {
    && Readable(buf, r, c, taps)
    && PaddingLoses(InitDist0, buf, r, c, taps, h, w, b)
    && lab[r - b][c - b] == ForwardLabel(src[r - b][c - b], seed[r - b][c - b], buf, lab, r, c, taps, h, w, b)
  }

  /** The label half of the forward scan before it visits (row, col): visited
      pixels hold their forward label, the others still their seed. */
  ghost predicate LabelScan(src: Grid, seed: Grid, buf: Grid, lab: Grid, h: nat, w: nat, b: nat, taps: seq<Tap>, row: int, col: int)
    requires IsGrid(src, h, w) && IsGrid(seed, h, w) && IsGrid(buf, h + 2 * b, w + 2 * b) && IsGrid(lab, h, w)
  {
    && (forall r, c {:trigger LabelDone(src, seed, buf, lab, h, w, b, taps, r, c)} ::
          Interior(r, c, h, w, b) && Before(r, c, row, col) ==> LabelDone(src, seed, buf, lab, h, w, b, taps, r, c))
    && (forall x, y :: 0 <= x < h && 0 <= y < w && !Before(x + b, y + b, row, col) ==> lab[x][y] == seed[x][y])
  }

  /** Every image pixel holds its forward label. */
  ghost predicate LabelFixpoint(src: Grid, seed: Grid, buf: Grid, lab: Grid, h: nat, w: nat, b: nat, taps: seq<Tap>)
    requires IsGrid(src, h, w) && IsGrid(seed, h, w) && IsGrid(buf, h + 2 * b, w + 2 * b) && IsGrid(lab, h, w)
  {
    forall r, c {:trigger LabelDone(src, seed, buf, lab, h, w, b, taps, r, c)} ::
      Interior(r, c, h, w, b) ==> LabelDone(src, seed, buf, lab, h, w, b, taps, r, c)
  }

  /** A finished label stays finished while the cells and labels it reads
      and its own label stay put. */
  lemma LabelDoneFrame(src: Grid, seed: Grid, buf1: Grid, buf2: Grid, lab1: Grid, lab2: Grid, h: nat, w: nat, b: nat, taps: seq<Tap>, r: int, c: int)
    requires IsGrid(src, h, w) && IsGrid(seed, h, w) && IsGrid(buf1, h + 2 * b, w + 2 * b) && IsGrid(lab1, h, w)
    requires IsGrid(buf2, h + 2 * b, w + 2 * b) && IsGrid(lab2, h, w)
    requires Interior(r, c, h, w, b)
    requires LabelDone(src, seed, buf1, lab1, h, w, b, taps, r, c)
    requires AgreeOnTaps(buf1, buf2, r, c, taps)
    requires LabelsAgree(lab1, lab2, r, c, taps, h, w, b)
    requires lab2[r - b][c - b] == lab1[r - b][c - b]
    ensures LabelDone(src, seed, buf2, lab2, h, w, b, taps, r, c)
  {
    RelaxLabelAgree(InitDist0, 0, buf1, buf2, lab1, lab2, r, c, taps, h, w, b, 0, |taps|);
  }

  /** At a forward visit every tap that lands on padding reads the
      sentinel, so it cannot beat the starting value ICV_INIT_DIST0. */
  lemma ForwardPaddingTaps(src: Grid, prev: Grid, buf: Grid, h: nat, w: nat, b: nat, taps: seq<Tap>, ex: bool, hv: int, row: int, col: int)
    requires IsGrid(src, h, w) && IsGrid(prev, h + 2 * b, w + 2 * b) && IsGrid(buf, h + 2 * b, w + 2 * b)
    requires ForwardMask(taps, b, hv)
    requires b <= col < w + b
    requires ScanState(src, prev, buf, h, w, b, taps, ex, hv, row, col)
    requires Readable(buf, row, col, taps)
    ensures PaddingLoses(InitDist0, buf, row, col, taps, h, w, b)
  {
    forall k | 0 <= k < |taps| && !Interior(row + taps[k].dr, col + taps[k].dc, h, w, b)
      ensures InitDist0 <= Cand(buf, row, col, taps[k])
    {
      assert Causal(taps[k], b);
      var x, y := row + taps[k].dr, col + taps[k].dc;
      if x < row {
        assert ForwardDone(src, prev, h, w, b, taps, ex, hv, x, y);
      } else {
        assert ForwardDone(src, buf, h, w, b, taps, ex, hv, x, y);
      }
    }
  }

  /** Writing buffer cell (row, j + b) and label (row - b, j) keeps an
      earlier finished label finished. */
  lemma LabelKeptDone(src: Grid, seed: Grid, buf: Grid, lab: Grid, h: nat, w: nat, b: nat, taps: seq<Tap>, hv: int, r: int, c: int, row: int, j: int, v: int, wrote: bool, l: int)
    requires IsGrid(src, h, w) && IsGrid(seed, h, w) && IsGrid(buf, h + 2 * b, w + 2 * b) && IsGrid(lab, h, w)
    requires ForwardMask(taps, b, hv)
    requires Interior(r, c, h, w, b) && b <= row < h + b && 0 <= j < w && Before(r, c, row, j + b)
    requires LabelDone(src, seed, buf, lab, h, w, b, taps, r, c)
    ensures LabelDone(src, seed, Write(buf, row, j + b, v), if wrote then Write(lab, row - b, j, l) else lab, h, w, b, taps, r, c)
  {
    assert forall k :: 0 <= k < |taps| ==> Causal(taps[k], b);
    CausalAvoids(taps, b, r, c, row, j + b);
    WriteAgrees(buf, r, c, taps, row, j + b, v);
    if wrote {
      LabelWriteAgrees(lab, r, c, taps, h, w, b, row - b, j, l);
    }
    LabelDoneFrame(src, seed, buf, Write(buf, row, j + b, v), lab, if wrote then Write(lab, row - b, j, l) else lab, h, w, b, taps, r, c);
  }

  /** A visited pixel holds its forward label once the buffer and label
      image the scan moves on with agree with those it was relaxed against
      on every tap: a zero pixel keeps its seed, any other pixel holds the
      label that came with its distance. */
  lemma LabelVisited(src: Grid, seed: Grid, buf: Grid, buf': Grid, lab: Grid, lab': Grid, h: nat, w: nat, b: nat, taps: seq<Tap>, row: int, j: int)
    requires IsGrid(src, h, w) && IsGrid(seed, h, w) && IsGrid(buf, h + 2 * b, w + 2 * b) && IsGrid(lab, h, w)
    requires IsGrid(buf', h + 2 * b, w + 2 * b) && IsGrid(lab', h, w)
    requires b <= row < h + b && 0 <= j < w
    requires Readable(buf, row, j + b, taps) && PaddingLoses(InitDist0, buf, row, j + b, taps, h, w, b)
    requires AgreeOnTaps(buf, buf', row, j + b, taps) && LabelsAgree(lab, lab', row, j + b, taps, h, w, b)
    requires lab'[row - b][j] == ForwardLabel(src[row - b][j], seed[row - b][j], buf, lab, row, j + b, taps, h, w, b)
    ensures LabelDone(src, seed, buf', lab', h, w, b, taps, row, j + b)
  {
    RelaxLabelAgree(InitDist0, 0, buf, buf', lab, lab', row, j + b, taps, h, w, b, 0, |taps|);
  }

  /** The cell just visited holds its forward label. */
  lemma LabelWrittenDone(src: Grid, seed: Grid, buf: Grid, lab: Grid, h: nat, w: nat, b: nat, taps: seq<Tap>, hv: int, row: int, j: int, v: int)
    requires IsGrid(src, h, w) && IsGrid(seed, h, w) && IsGrid(buf, h + 2 * b, w + 2 * b) && IsGrid(lab, h, w)
    requires ForwardMask(taps, b, hv) && b <= row < h + b && 0 <= j < w
    requires Readable(buf, row, j + b, taps) && PaddingLoses(InitDist0, buf, row, j + b, taps, h, w, b)
    requires lab[row - b][j] == seed[row - b][j]
    ensures LabelDone(src, seed, Write(buf, row, j + b, v), NextLabels(src, buf, lab, h, w, b, taps, row, j), h, w, b, taps, row, j + b)
  {
    assert forall k :: 0 <= k < |taps| ==> Causal(taps[k], b);
    CausalAvoids(taps, b, row, j + b, row, j + b);
    WriteAgrees(buf, row, j + b, taps, row, j + b, v);
    var lab' := NextLabels(src, buf, lab, h, w, b, taps, row, j);
    if src[row - b][j] != 0 {
      LabelWriteAgrees(lab, row, j + b, taps, h, w, b, row - b, j, ForwardStepEx(src, buf, lab, h, w, b, taps, row, j).lbl);
    }
    LabelVisited(src, seed, buf, Write(buf, row, j + b, v), lab, lab', h, w, b, taps, row, j);
  }

  /** Visiting (row, j + b) only touches that pixel's label, so the pixels
      after it still hold their seeds. */
  lemma SeedsAfterWrite(seed: Grid, lab: Grid, h: nat, w: nat, b: nat, row: int, j: int, wrote: bool, l: int)
    requires IsGrid(seed, h, w) && IsGrid(lab, h, w) && b <= row < h + b && 0 <= j < w
    requires forall x, y :: 0 <= x < h && 0 <= y < w && !Before(x + b, y + b, row, j + b) ==> lab[x][y] == seed[x][y]
    ensures forall x, y :: 0 <= x < h && 0 <= y < w && !Before(x + b, y + b, row, j + b + 1) ==>
      (if wrote then Write(lab, row - b, j, l) else lab)[x][y] == seed[x][y]
  {
  }

  /** Visiting (row, j + b) moves the label half of the scan one column on. */
  lemma LabelAfterWrite(src: Grid, seed: Grid, buf: Grid, lab: Grid, h: nat, w: nat, b: nat, taps: seq<Tap>, hv: int, row: int, j: int, v: int)
    requires IsGrid(src, h, w) && IsGrid(seed, h, w) && IsGrid(buf, h + 2 * b, w + 2 * b) && IsGrid(lab, h, w)
    requires ForwardMask(taps, b, hv) && b <= row < h + b && 0 <= j < w
    requires Readable(buf, row, j + b, taps) && PaddingLoses(InitDist0, buf, row, j + b, taps, h, w, b)
    requires LabelScan(src, seed, buf, lab, h, w, b, taps, row, j + b)
    ensures LabelScan(src, seed, Write(buf, row, j + b, v), NextLabels(src, buf, lab, h, w, b, taps, row, j), h, w, b, taps, row, j + b + 1)
  {
    var lab' := NextLabels(src, buf, lab, h, w, b, taps, row, j);
    var wrote := src[row - b][j] != 0;
    var l := ForwardStepEx(src, buf, lab, h, w, b, taps, row, j).lbl;
    assert lab' == if wrote then Write(lab, row - b, j, l) else lab;
    assert lab[row - b][j] == seed[row - b][j];
    forall r, c | Interior(r, c, h, w, b) && Before(r, c, row, j + b + 1)
      ensures LabelDone(src, seed, Write(buf, row, j + b, v), lab', h, w, b, taps, r, c)
    {
      if r == row && c == j + b {
        LabelWrittenDone(src, seed, buf, lab, h, w, b, taps, hv, row, j, v);
      } else {
        assert LabelDone(src, seed, buf, lab, h, w, b, taps, r, c);
        LabelKeptDone(src, seed, buf, lab, h, w, b, taps, hv, r, c, row, j, v, wrote, l);
      }
    }
    SeedsAfterWrite(seed, lab, h, w, b, row, j, wrote, l);
  }

  /** Setting the padding of row `row` keeps the labels of earlier rows
      finished: they never read a later row. */
  lemma LabelRowStart(src: Grid, seed: Grid, prev: Grid, buf: Grid, lab: Grid, h: nat, w: nat, b: nat, taps: seq<Tap>, hv: int, row: int)
    requires IsGrid(src, h, w) && IsGrid(seed, h, w) && IsGrid(prev, h + 2 * b, w + 2 * b) && IsGrid(buf, h + 2 * b, w + 2 * b) && IsGrid(lab, h, w)
    requires ForwardMask(taps, b, hv)
    requires forall r :: 0 <= r < h + 2 * b && r != row ==> buf[r] == prev[r]
    requires LabelScan(src, seed, prev, lab, h, w, b, taps, row, b)
    ensures LabelScan(src, seed, buf, lab, h, w, b, taps, row, b)
  {
    forall r, c | Interior(r, c, h, w, b) && Before(r, c, row, b)
      ensures LabelDone(src, seed, buf, lab, h, w, b, taps, r, c)
    {
      assert LabelDone(src, seed, prev, lab, h, w, b, taps, r, c);
      assert forall k :: 0 <= k < |taps| ==> Causal(taps[k], b);
      LabelDoneFrame(src, seed, prev, buf, lab, lab, h, w, b, taps, r, c);
    }
  }

  /** A scanned row hands over to the next one. */
  lemma LabelRowEnd(src: Grid, seed: Grid, buf: Grid, lab: Grid, h: nat, w: nat, b: nat, taps: seq<Tap>, row: int)
    requires IsGrid(src, h, w) && IsGrid(seed, h, w) && IsGrid(buf, h + 2 * b, w + 2 * b) && IsGrid(lab, h, w)
    requires LabelScan(src, seed, buf, lab, h, w, b, taps, row, w + b)
    ensures LabelScan(src, seed, buf, lab, h, w, b, taps, row + 1, b)
  {
    forall r, c | Interior(r, c, h, w, b) && Before(r, c, row + 1, b)
      ensures LabelDone(src, seed, buf, lab, h, w, b, taps, r, c)
    {
      assert Before(r, c, row, w + b);
    }
  }

  /** What the labelled forward scan computes at image pixel (row - b, j):
      distance 0 and the seed for a zero pixel, otherwise the labelled fold
      from (ICV_INIT_DIST0, 0). The distance never exceeds ICV_INIT_DIST0,
      and a non-zero pixel that no candidate improves keeps label 0. */
  function ForwardStepEx(src: Grid, buf: Grid, lab: Grid, h: nat, w: nat, b: nat, taps: seq<Tap>, row: int, j: int): (n: Nearest)
    requires IsGrid(src, h, w) && IsGrid(lab, h, w) && b <= row < h + b && 0 <= j < w && |taps| > 0
    requires Readable(buf, row, j + b, taps) && PaddingLoses(InitDist0, buf, row, j + b, taps, h, w, b)
    ensures n.dist <= InitDist0
    ensures src[row - b][j] != 0 && n.dist == InitDist0 ==> n.lbl == 0
  {
    if src[row - b][j] == 0 then Nearest(0, lab[row - b][j])
    else
      RelaxLabel(InitDist0, 0, buf, lab, row, j + b, taps, h, w, b, 0, |taps|)
  }

  lemma ForwardStepExDist(src: Grid, buf: Grid, lab: Grid, h: nat, w: nat, b: nat, taps: seq<Tap>, row: int, j: int)
    requires IsGrid(src, h, w) && IsGrid(lab, h, w) && b <= row < h + b && 0 <= j < w && |taps| > 0
    requires Readable(buf, row, j + b, taps) && PaddingLoses(InitDist0, buf, row, j + b, taps, h, w, b)
    ensures ForwardStepEx(src, buf, lab, h, w, b, taps, row, j).dist == ForwardCell(src[row - b][j], buf, row, j + b, taps, true)
  {
    if src[row - b][j] != 0 {
      RelaxLabelDist(InitDist0, 0, buf, lab, row, j + b, taps, h, w, b, 0, |taps|);
    }
  }

  /** The label image after the visit: `lls[j] = l0` for a non-zero pixel,
      untouched for a zero pixel. */
  function NextLabels(src: Grid, buf: Grid, lab: Grid, h: nat, w: nat, b: nat, taps: seq<Tap>, row: int, j: int): (lab': Grid)
    requires IsGrid(src, h, w) && IsGrid(lab, h, w) && b <= row < h + b && 0 <= j < w && |taps| > 0
    requires Readable(buf, row, j + b, taps) && PaddingLoses(InitDist0, buf, row, j + b, taps, h, w, b)
    ensures IsGrid(lab', h, w)
  {
    if src[row - b][j] == 0 then lab
    else Write(lab, row - b, j, ForwardStepEx(src, buf, lab, h, w, b, taps, row, j).lbl)
  }

  /** One step of the labelled forward scan keeps both halves of the scan
      state. */
  lemma ForwardVisitEx(src: Grid, seed: Grid, prev: Grid, buf: Grid, lab: Grid, h: nat, w: nat, b: nat, taps: seq<Tap>, hv: int, row: int, j: nat)
    requires IsGrid(src, h, w) && IsGrid(seed, h, w) && IsGrid(prev, h + 2 * b, w + 2 * b) && IsGrid(buf, h + 2 * b, w + 2 * b) && IsGrid(lab, h, w)
    requires ForwardMask(taps, b, hv) && Headroom(h, hv, taps)
    requires j < w
    requires ScanState(src, prev, buf, h, w, b, taps, true, hv, row, j + b)
    requires LabelScan(src, seed, buf, lab, h, w, b, taps, row, j + b)
    ensures b <= row < h + b
    ensures Readable(buf, row, j + b, taps) && PaddingLoses(InitDist0, buf, row, j + b, taps, h, w, b)
    ensures ScanState(src, prev, Write(buf, row, j + b, ForwardStepEx(src, buf, lab, h, w, b, taps, row, j).dist), h, w, b, taps, true, hv, row, j + b + 1)
    ensures LabelScan(src, seed, Write(buf, row, j + b, ForwardStepEx(src, buf, lab, h, w, b, taps, row, j).dist),
                      NextLabels(src, buf, lab, h, w, b, taps, row, j), h, w, b, taps, row, j + b + 1)
  {
    ForwardAfterWrite(src, prev, buf, h, w, b, taps, true, hv, row, j + b);
    ForwardPaddingTaps(src, prev, buf, h, w, b, taps, true, hv, row, j + b);
    ForwardStepExDist(src, buf, lab, h, w, b, taps, row, j);
    LabelAfterWrite(src, seed, buf, lab, h, w, b, taps, hv, row, j, ForwardStepEx(src, buf, lab, h, w, b, taps, row, j).dist);
  }

  /** One row of the labelled forward scan (lines 253-320 of the C file). */
  method ForwardRowEx(src: Grid, seed: Grid, h: nat, w: nat, b: nat, taps: seq<Tap>, hv: int, buf: Grid, lab: Grid, row: nat, ghost prev: Grid)
    returns (out: Grid, outLab: Grid)
    requires IsGrid(src, h, w) && IsGrid(seed, h, w) && IsGrid(prev, h + 2 * b, w + 2 * b) && IsGrid(buf, h + 2 * b, w + 2 * b) && IsGrid(lab, h, w)
    requires ForwardMask(taps, b, hv) && Headroom(h, hv, taps)
    requires ScanState(src, prev, buf, h, w, b, taps, true, hv, row, b)
    requires LabelScan(src, seed, buf, lab, h, w, b, taps, row, b)
    ensures IsGrid(out, h + 2 * b, w + 2 * b) && IsGrid(outLab, h, w)
    ensures ScanState(src, prev, out, h, w, b, taps, true, hv, row, w + b)
    ensures LabelScan(src, seed, out, outLab, h, w, b, taps, row, w + b)
  {
    out, outLab := buf, lab;
    var j := 0;
    while j < w
      invariant 0 <= j <= w
      invariant IsGrid(out, h + 2 * b, w + 2 * b) && IsGrid(outLab, h, w)
      invariant ScanState(src, prev, out, h, w, b, taps, true, hv, row, j + b)
      invariant LabelScan(src, seed, out, outLab, h, w, b, taps, row, j + b)
    {
      ForwardVisitEx(src, seed, prev, out, outLab, h, w, b, taps, hv, row, j);
      var n := ForwardStepEx(src, out, outLab, h, w, b, taps, row, j);
      if src[row - b][j] == 0 {
        out := Write(out, row, j + b, n.dist);
      } else {
        out := Write(out, row, j + b, n.dist);
        outLab := Write(outLab, row - b, j, n.lbl);
      }
      j := j + 1;
    }
  }

  /** The labelled forward raster pass: the distance half is the forward
      pass started from the sentinel, and every pixel ends with its forward
      label. */
  method ForwardPassEx(src: Grid, seed: Grid, h: nat, w: nat, b: nat, taps: seq<Tap>, hv: int, temp: Grid) returns (buf: Grid, lab: Grid)
    requires IsGrid(src, h, w) && IsGrid(seed, h, w) && IsGrid(temp, h + 2 * b, w + 2 * b)
    requires ForwardMask(taps, b, hv) && Headroom(h, hv, taps)
    requires TopBottomSentinel(temp, h, w, b)
    ensures IsGrid(buf, h + 2 * b, w + 2 * b) && IsGrid(lab, h, w)
    ensures PaddingSentinel(buf, h, w, b)
    ensures ForwardFixpoint(src, buf, h, w, b, taps, true)
    ensures Bounded(buf, 0, InitDist0 + h * hv)
    ensures LabelFixpoint(src, seed, buf, lab, h, w, b, taps)
  {
    buf, lab := temp, seed;
    var i := 0;
    while i < h
      invariant 0 <= i <= h
      invariant IsGrid(buf, h + 2 * b, w + 2 * b) && IsGrid(lab, h, w)
      invariant TopBottomSentinel(buf, h, w, b)
      invariant RowsDone(src, buf, h, w, b, taps, true, hv, i + b)
      invariant LabelScan(src, seed, buf, lab, h, w, b, taps, i + b, b)
    {
      ghost var prev := buf;
      buf := SetRowPadding(buf, h, w, b, i + b);
      RowStart(src, prev, buf, h, w, b, taps, true, hv, i + b);
      LabelRowStart(src, seed, prev, buf, lab, h, w, b, taps, hv, i + b);
      buf, lab := ForwardRowEx(src, seed, h, w, b, taps, hv, buf, lab, i + b, prev);
      RowEnd(src, prev, buf, h, w, b, taps, true, hv, i + b);
      LabelRowEnd(src, seed, buf, lab, h, w, b, taps, i + b);
      i := i + 1;
    }
    ForwardFinished(src, buf, h, w, b, taps, true, hv);
    forall r, c | Interior(r, c, h, w, b)
      ensures LabelDone(src, seed, buf, lab, h, w, b, taps, r, c)
    {
      assert Before(r, c, h + b, b);
    }
  }
}

=== FILE: haar_cascade.dfy ===
/** `loadFromXML` of the GPU Haar detector: a legacy `CvHaarClassifierCascade`
    (stages of trees of nodes, each node a feature of up to three weighted
    rectangles and two children) is flattened into the arrays the device
    code walks. Root nodes are collected per tree while the other nodes go
    to a temporary list; the two are then merged, roots first, and every
    link to a non-leaf child is shifted by the number of roots. */
module HaarCascade {
  import opened Wrappers

  /** `CV_HAAR_FEATURE_MAX`: rectangles per legacy feature. */
  const FeatureMax: int := 3

  /** A weighted rectangle of a legacy feature. */
  datatype OldRect = OldRect(x: int, y: int, width: int, height: int, weight: real)

  /** `CvHaarFeature`: the tilted flag and the rectangles. */
  datatype OldFeature = OldFeature(tilted: int, rects: seq<OldRect>)

  /** One node of a legacy tree: `left` and `right` are either a positive
      index of another node of the same tree or `-k` for leaf value
      `alpha[k]`. */
  datatype OldNode = OldNode(threshold: real, left: int, right: int, feature: OldFeature)

  /** `CvHaarClassifier`: the nodes (node 0 is the root) and the leaf values. */
  datatype OldTree = OldTree(nodes: seq<OldNode>, alpha: seq<real>)

  datatype OldStage = OldStage(threshold: real, trees: seq<OldTree>)

  /** `CvHaarClassifierCascade`: the original window size and the stages. */
  datatype OldCascade = OldCascade(windowWidth: int, windowHeight: int, stages: seq<OldStage>)

  /** `HaarClassifierNodeDescriptor32`: a leaf value or the index of the
      next node in the node array. */
  datatype NodeDesc = Leaf(value: real) | Next(offset: int)

  /** `HaarFeatureDescriptor32`: the tilted flag, which children are leaves,
      and the range `[first, first + count)` of the node's rectangles in the
      feature array. */
  datatype FeatureDesc = FeatureDesc(tilted: bool, leftLeaf: bool, rightLeaf: bool, count: int, first: int)

  /** `HaarClassifierNode128`. */
  datatype HaarNode = HaarNode(threshold: real, left: NodeDesc, right: NodeDesc, desc: FeatureDesc)

  /** `HaarFeature64`: one rectangle and its weight. */
  datatype HaarFeature = HaarFeature(x: int, y: int, width: int, height: int, weight: real)

  /** `HaarStage64`: where the stage's roots start and how many there are. */
  datatype HaarStage = HaarStage(rootOffset: int, threshold: real, numRoots: int)

  /** `HaarClassifierCascadeDescriptor`. */
  datatype Descriptor = Descriptor(numStages: int, numRootNodes: int, numTotalNodes: int, numFeatures: int,
                                   width: int, height: int, stumpsOnly: bool, needsTilted: bool)

  /** The four outputs of `loadFromXML`. */
  datatype Loaded = Loaded(haar: Descriptor, stages: seq<HaarStage>, nodes: seq<HaarNode>, features: seq<HaarFeature>)

  /** `NCV_HAAR_XML_LOADING_EXCEPTION`: `cvLoad` returned nothing. */
  datatype LoadError = XmlLoadingException

  /** The rectangles actually used by a node: those before the first zero
      weight among the first `CV_HAAR_FEATURE_MAX`. */
  function NodeRects(f: OldFeature): seq<OldRect> {
    WeightedPrefix(if |f.rects| <= FeatureMax then f.rects else f.rects[..FeatureMax])
  }

  /** The longest prefix without a zero weight. */
  function WeightedPrefix(rects: seq<OldRect>): (r: seq<OldRect>)
    ensures |r| <= |rects| && r == rects[..|r|]
    ensures forall l :: 0 <= l < |r| ==> r[l].weight != 0.0
    ensures |r| < |rects| ==> rects[|r|].weight == 0.0
  {
    if |rects| == 0 || rects[0].weight == 0.0 then [] else [rects[0]] + WeightedPrefix(rects[1..])
  }

  function ConvertRect(r: OldRect): HaarFeature {
    HaarFeature(r.x, r.y, r.width, r.height, r.weight)
  }

  function Convert(rs: seq<OldRect>): (r: seq<HaarFeature>)
    ensures |r| == |rs| && forall l :: 0 <= l < |rs| ==> r[l] == ConvertRect(rs[l])
  {
    seq(|rs|, l requires 0 <= l < |rs| => ConvertRect(rs[l]))
  }

  /** A child reference reads `alpha` only inside its bounds. */
  predicate NodeOk(node: OldNode, alpha: seq<real>) {
    (node.left <= 0 ==> -node.left < |alpha|) && (node.right <= 0 ==> -node.right < |alpha|)
  }

  predicate TreeOk(tree: OldTree) {
    forall n :: 0 <= n < |tree.nodes| ==> NodeOk(tree.nodes[n], tree.alpha)
  }

  predicate TreesOk(ts: seq<OldTree>) {
    forall t :: 0 <= t < |ts| ==> TreeOk(ts[t])
  }

  /** The descriptor of one child: a leaf value, or the temporary-list index
      of node `child` of a tree whose non-root nodes start at `base`. */
  function ChildDesc(child: int, alpha: seq<real>, base: int): (r: NodeDesc)
    requires child <= 0 ==> -child < |alpha|
    ensures r.Leaf? <==> child <= 0
  {
    if child <= 0 then Leaf(alpha[-child]) else Next(base + child - 1)
  }

  /** The converted node; its rectangles start at `first` in the feature array. */
  function NodeOut(node: OldNode, alpha: seq<real>, base: int, first: int): HaarNode
    requires NodeOk(node, alpha)
  {
    HaarNode(node.threshold, ChildDesc(node.left, alpha, base), ChildDesc(node.right, alpha, base),
             FeatureDesc(node.feature.tilted != 0, node.left <= 0, node.right <= 0, |NodeRects(node.feature)|, first))
  }

  /** The loop state: roots, the temporary list of other nodes, the feature
      array, and the two flags of the descriptor. */
  datatype Acc = Acc(roots: seq<HaarNode>, tmp: seq<HaarNode>, features: seq<HaarFeature>, stumpsOnly: bool, tilted: bool)

  /** Node `n` of `tree`. `treeBase` is the size of the temporary list when
      the tree started; `asWritten` selects the code's child base (the size
      of the temporary list at this node) and its tilted flag (overwritten
      by every node) instead of the corrected ones. */
  function AddNode(a: Acc, tree: OldTree, n: int, treeBase: int, asWritten: bool): (r: Acc)
    requires 0 <= n < |tree.nodes| && NodeOk(tree.nodes[n], tree.alpha)
    ensures r.features == a.features + Convert(NodeRects(tree.nodes[n].feature))
    ensures |r.roots| + |r.tmp| == |a.roots| + |a.tmp| + 1
    ensures a.roots <= r.roots && a.tmp <= r.tmp
  {
    var node := tree.nodes[n];
    var base := if asWritten then |a.tmp| else treeBase;
    var out := NodeOut(node, tree.alpha, base, |a.features|);
    Acc(if n == 0 then a.roots + [out] else a.roots,
        if n == 0 then a.tmp else a.tmp + [out],
        a.features + Convert(NodeRects(node.feature)),
        a.stumpsOnly && node.left <= 0 && node.right <= 0,
        if asWritten then node.feature.tilted != 0 else a.tilted || node.feature.tilted != 0)
  }

  /** Nodes `0 .. n - 1` of `tree`. */
  function AddNodes(a: Acc, tree: OldTree, n: int, treeBase: int, asWritten: bool): Acc
    requires 0 <= n <= |tree.nodes| && TreeOk(tree)
  {
    if n == 0 then a else AddNode(AddNodes(a, tree, n - 1, treeBase, asWritten), tree, n - 1, treeBase, asWritten)
  }

  function AddTree(a: Acc, tree: OldTree, asWritten: bool): Acc
    requires TreeOk(tree)
  {
    AddNodes(a, tree, |tree.nodes|, |a.tmp|, asWritten)
  }

  /** The trees of `ts`, in order. */
  function AddTrees(a: Acc, ts: seq<OldTree>, asWritten: bool): Acc
    requires TreesOk(ts)
  {
    if |ts| == 0 then a else AddTree(AddTrees(a, ts[..|ts| - 1], asWritten), ts[|ts| - 1], asWritten)
  }

  /** Roots contributed by `ts`: one per non-empty tree. */
  function RootCount(ts: seq<OldTree>): nat {
    if |ts| == 0 then 0 else RootCount(ts[..|ts| - 1]) + (if |ts[|ts| - 1].nodes| > 0 then 1 else 0)
  }

  /** Non-root nodes contributed by `ts`. */
  function TmpCount(ts: seq<OldTree>): nat {
    if |ts| == 0 then 0
    else TmpCount(ts[..|ts| - 1]) + (if |ts[|ts| - 1].nodes| > 0 then |ts[|ts| - 1].nodes| - 1 else 0)
  }

  /** All nodes of `ts`. */
  function NodeTotal(ts: seq<OldTree>): nat {
    if |ts| == 0 then 0 else NodeTotal(ts[..|ts| - 1]) + |ts[|ts| - 1].nodes|
  }

  /** Every node is either a root or goes to the temporary list. */
  lemma {:induction false} CountsAddUp(ts: seq<OldTree>)
    ensures RootCount(ts) + TmpCount(ts) == NodeTotal(ts)
  {
    if |ts| > 0 {
      CountsAddUp(ts[..|ts| - 1]);
    }
  }

  /** `r` has a slot for node `m` of a tree started in state `a`. */
  predicate Holds(a: Acc, r: Acc, m: int) {
    m >= 0 && (m == 0 ==> |a.roots| < |r.roots|) && (m > 0 ==> 0 <= |a.tmp| + m - 1 < |r.tmp|)
  }

  /** Where node `m` of a tree is stored by the node loop: the root in the
      root list, the others in order in the temporary list. */
  function StoredAt(a: Acc, r: Acc, m: int): HaarNode
    requires Holds(a, r, m)
  {
    if m == 0 then r.roots[|a.roots|] else r.tmp[|a.tmp| + m - 1]
  }

  /** The node loop of one tree appends one root (if the tree is not empty)
      and the other nodes to the temporary list, keeping what was there. */
  lemma {:induction false} AddNodesShape(a: Acc, tree: OldTree, n: int, treeBase: int, asWritten: bool)
    requires 0 <= n <= |tree.nodes| && TreeOk(tree)
    ensures var r := AddNodes(a, tree, n, treeBase, asWritten);
      |r.roots| == |a.roots| + (if n > 0 then 1 else 0) && a.roots <= r.roots
      && |r.tmp| == |a.tmp| + (if n > 0 then n - 1 else 0) && a.tmp <= r.tmp
      && a.features <= r.features
  {
    if n > 0 {
      AddNodesShape(a, tree, n - 1, treeBase, asWritten);
    }
  }

  /** The child base node `m` uses: the temporary-list size at the start
      of the tree when corrected; as written, the size at node `m`, which
      is `m - 1` further on. */
  function NodeBase(a: Acc, treeBase: int, asWritten: bool, m: int): int {
    if asWritten then |a.tmp| + (if m > 0 then m - 1 else 0) else treeBase
  }

  /** Node `m` is stored as the last entry of its list, converted against
      its child base and with its rectangles after those of earlier nodes. */
  lemma LastStored(a: Acc, tree: OldTree, m: int, treeBase: int, asWritten: bool)
    requires 0 <= m < |tree.nodes| && TreeOk(tree)
    ensures Holds(a, AddNodes(a, tree, m + 1, treeBase, asWritten), m)
    ensures StoredAt(a, AddNodes(a, tree, m + 1, treeBase, asWritten), m)
         == NodeOut(tree.nodes[m], tree.alpha, NodeBase(a, treeBase, asWritten, m),
                    |AddNodes(a, tree, m, treeBase, asWritten).features|)
  {
    var prev := AddNodes(a, tree, m, treeBase, asWritten);
    AddNodesShape(a, tree, m, treeBase, asWritten);
    var base := if asWritten then |prev.tmp| else treeBase;
    assert base == NodeBase(a, treeBase, asWritten, m);
    var out := NodeOut(tree.nodes[m], tree.alpha, base, |prev.features|);
    var r := AddNode(prev, tree, m, treeBase, asWritten);
    if m == 0 {
      assert r.roots == prev.roots + [out];
    } else {
      assert r.tmp == prev.tmp + [out];
    }
  }

  /** Node `m` of the tree is stored, converted against its child base and
      with its rectangles starting after those of the nodes before it. */
  lemma AddNodesAt(a: Acc, tree: OldTree, n: int, treeBase: int, asWritten: bool, m: int)
    requires 0 <= m < n <= |tree.nodes| && TreeOk(tree)
    ensures Holds(a, AddNodes(a, tree, n, treeBase, asWritten), m)
    ensures StoredAt(a, AddNodes(a, tree, n, treeBase, asWritten), m)
         == NodeOut(tree.nodes[m], tree.alpha, NodeBase(a, treeBase, asWritten, m),
                    |AddNodes(a, tree, m, treeBase, asWritten).features|)
  {
    LastStored(a, tree, m, treeBase, asWritten);
    AddNodesGrow(a, tree, m + 1, n, treeBase, asWritten);
    AddNodesShape(a, tree, n, treeBase, asWritten);
    var mid := AddNodes(a, tree, m + 1, treeBase, asWritten);
    var r := AddNodes(a, tree, n, treeBase, asWritten);
    assert StoredAt(a, r, m) == StoredAt(a, mid, m);
  }

  /** The root list, the temporary list and the feature array only grow
      along the node loop. */
  lemma {:induction false} AddNodesGrow(a: Acc, tree: OldTree, m: int, n: int, treeBase: int, asWritten: bool)
    requires 0 <= m <= n <= |tree.nodes| && TreeOk(tree)
    ensures var p, r := AddNodes(a, tree, m, treeBase, asWritten), AddNodes(a, tree, n, treeBase, asWritten);
      p.roots <= r.roots && p.tmp <= r.tmp && p.features <= r.features
    decreases n - m
  {
    if m < n {
      AddNodesGrow(a, tree, m, n - 1, treeBase, asWritten);
    }
  }

  /** Descriptor `d` names the range of `features` that holds `rects`. */
  predicate RangeHolds(d: FeatureDesc, features: seq<HaarFeature>, rects: seq<HaarFeature>) {
    0 <= d.first && 0 <= d.count && d.first + d.count <= |features|
    && features[d.first..d.first + d.count] == rects
  }

  /** The rectangles of node `m` are the converted weighted prefix of its
      feature, at the range its descriptor names: `[size - featureId, size)`
      just after they were pushed. */
  lemma AddNodesFeaturesAt(a: Acc, tree: OldTree, n: int, treeBase: int, asWritten: bool, m: int)
    requires 0 <= m < n <= |tree.nodes| && TreeOk(tree)
    ensures Holds(a, AddNodes(a, tree, n, treeBase, asWritten), m)
    ensures var r := AddNodes(a, tree, n, treeBase, asWritten);
      RangeHolds(StoredAt(a, r, m).desc, r.features, Convert(NodeRects(tree.nodes[m].feature)))
  {
    AddNodesAt(a, tree, n, treeBase, asWritten, m);
    AddNodesGrow(a, tree, m + 1, n, treeBase, asWritten);
    var before := AddNodes(a, tree, m, treeBase, asWritten).features;
    var after := AddNodes(a, tree, m + 1, treeBase, asWritten).features;
    var rects := Convert(NodeRects(tree.nodes[m].feature));
    assert after == before + rects;
    assert after[|before|..|before| + |rects|] == rects;
  }

  /** The tree loop appends one root per non-empty tree and the other
      nodes to the temporary list, keeping what was there. */
  lemma {:induction false} AddTreesShape(a: Acc, ts: seq<OldTree>, asWritten: bool)
    requires TreesOk(ts)
    ensures var r := AddTrees(a, ts, asWritten);
      |r.roots| == |a.roots| + RootCount(ts) && |r.tmp| == |a.tmp| + TmpCount(ts)
  {
    if |ts| > 0 {
      var init := ts[..|ts| - 1];
      AddTreesShape(a, init, asWritten);
      var prev := AddTrees(a, init, asWritten);
      AddNodesShape(prev, ts[|ts| - 1], |ts[|ts| - 1].nodes|, |prev.tmp|, asWritten);
    }
  }

  /** The lists only grow along the tree loop: the state after the first
      `k` trees is a prefix of the final one. */
  lemma {:induction false} AddTreesGrow(a: Acc, ts: seq<OldTree>, k: int, asWritten: bool)
    requires TreesOk(ts) && 0 <= k <= |ts|
    ensures var p, r := AddTrees(a, ts[..k], asWritten), AddTrees(a, ts, asWritten);
      p.roots <= r.roots && p.tmp <= r.tmp && p.features <= r.features
    decreases |ts| - k
  {
    if k < |ts| {
      var init := ts[..|ts| - 1];
      assert init[..k] == ts[..k];
      AddTreesGrow(a, init, k, asWritten);
      var prev := AddTrees(a, init, asWritten);
      AddNodesGrow(prev, ts[|ts| - 1], 0, |ts[|ts| - 1].nodes|, |prev.tmp|, asWritten);
    } else {
      assert ts[..k] == ts;
    }
  }

  /** Tree `t` is processed on the state left by the trees before it. */
  lemma TreeStep(a: Acc, ts: seq<OldTree>, t: int, asWritten: bool)
    requires TreesOk(ts) && 0 <= t < |ts|
    ensures TreesOk(ts[..t]) && TreesOk(ts[..t + 1])
    ensures AddTrees(a, ts[..t + 1], asWritten) == AddTree(AddTrees(a, ts[..t], asWritten), ts[t], asWritten)
  {
    assert ts[..t + 1][..t] == ts[..t];
  }

  /** `r` holds node `m` of a tree started in state `p`, converted against
      child base `base`. */
  predicate StoredAs(p: Acc, r: Acc, m: int, node: OldNode, alpha: seq<real>, base: int) {
    Holds(p, r, m) && NodeOk(node, alpha)
    && StoredAt(p, r, m) == NodeOut(node, alpha, base, StoredAt(p, r, m).desc.first)
  }

  /** Node `m` of tree `t` ends up in the final state where the node loop
      of that tree put it. */
  lemma TreesAt(a: Acc, ts: seq<OldTree>, t: int, m: int, asWritten: bool)
    requires TreesOk(ts) && 0 <= t < |ts| && 0 <= m < |ts[t].nodes|
    ensures TreesOk(ts[..t])
    ensures var p := AddTrees(a, ts[..t], asWritten);
      |p.roots| == |a.roots| + RootCount(ts[..t]) && |p.tmp| == |a.tmp| + TmpCount(ts[..t])
    ensures var p := AddTrees(a, ts[..t], asWritten);
      StoredAs(p, AddTrees(a, ts, asWritten), m, ts[t].nodes[m], ts[t].alpha, NodeBase(p, |p.tmp|, asWritten, m))
  {
    TreeStep(a, ts, t, asWritten);
    var p := AddTrees(a, ts[..t], asWritten);
    AddTreesShape(a, ts[..t], asWritten);
    AddNodesAt(p, ts[t], |ts[t].nodes|, |p.tmp|, asWritten, m);
    var mid := AddTrees(a, ts[..t + 1], asWritten);
    AddTreesGrow(a, ts, t + 1, asWritten);
    var r := AddTrees(a, ts, asWritten);
    StoredKept(p, mid, r, m);
  }

  predicate StagesOk(ss: seq<OldStage>) {
    forall s :: 0 <= s < |ss| ==> TreesOk(ss[s].trees)
  }

  /** The trees of all stages, in order. */
  function AllTrees(ss: seq<OldStage>): seq<OldTree> {
    if |ss| == 0 then [] else AllTrees(ss[..|ss| - 1]) + ss[|ss| - 1].trees
  }

  lemma {:induction false} AllTreesOk(ss: seq<OldStage>)
    requires StagesOk(ss)
    ensures TreesOk(AllTrees(ss))
  {
    if |ss| > 0 {
      var init := ss[..|ss| - 1];
      AllTreesOk(init);
      var x, y := AllTrees(init), ss[|ss| - 1].trees;
      assert TreesOk(y);
      forall t | 0 <= t < |x + y|
        ensures TreeOk((x + y)[t])
      {
        if t >= |x| {
          assert (x + y)[t] == y[t - |x|];
        }
      }
    }
  }

  /** The state and the stage list of the stage loop. */
  datatype Build = Build(acc: Acc, stages: seq<HaarStage>)

  /** Nothing loaded yet: empty lists, stumps only, no tilted feature. */
  const Start: Acc := Acc([], [], [], true, false)

  /** One stage: its roots start where the root list stands, it has one
      root per tree, and its trees follow. */
  function AddStage(b: Build, stage: OldStage, asWritten: bool): Build
    requires TreesOk(stage.trees)
  {
    Build(AddTrees(b.acc, stage.trees, asWritten),
          b.stages + [HaarStage(|b.acc.roots|, stage.threshold, |stage.trees|)])
  }

  /** The stage loop over `ss`. */
  function AddStages(ss: seq<OldStage>, asWritten: bool): Build
    requires StagesOk(ss)
  {
    if |ss| == 0 then Build(Start, [])
    else AddStage(AddStages(ss[..|ss| - 1], asWritten), ss[|ss| - 1], asWritten)
  }

  /** Running the tree loop on `x + y` is running it on `x`, then on `y`. */
  lemma {:induction false} AddTreesAppend(a: Acc, x: seq<OldTree>, y: seq<OldTree>, asWritten: bool)
    requires TreesOk(x) && TreesOk(y)
    ensures TreesOk(x + y)
    ensures AddTrees(a, x + y, asWritten) == AddTrees(AddTrees(a, x, asWritten), y, asWritten)
  {
    assert forall t :: 0 <= t < |x + y| ==> (x + y)[t] == if t < |x| then x[t] else y[t - |x|];
    if |y| > 0 {
      var yi := y[..|y| - 1];
      AddTreesAppend(a, x, yi, asWritten);
      assert (x + y)[..|x + y| - 1] == x + yi;
    } else {
      assert x + y == x;
    }
  }

  /** The stage loop is the tree loop over all trees of all stages. */
  lemma {:induction false} AddStagesFlat(ss: seq<OldStage>, asWritten: bool)
    requires StagesOk(ss)
    ensures TreesOk(AllTrees(ss))
    ensures AddStages(ss, asWritten).acc == AddTrees(Start, AllTrees(ss), asWritten)
    ensures |AddStages(ss, asWritten).stages| == |ss|
  {
    AllTreesOk(ss);
    if |ss| > 0 {
      var init := ss[..|ss| - 1];
      AddStagesFlat(init, asWritten);
      AllTreesOk(init);
      AddTreesAppend(Start, AllTrees(init), ss[|ss| - 1].trees, asWritten);
    }
  }

  /** The stage list only grows along the stage loop. */
  lemma {:induction false} AddStagesGrow(ss: seq<OldStage>, asWritten: bool, k: int)
    requires StagesOk(ss) && 0 <= k <= |ss|
    ensures StagesOk(ss[..k])
    ensures AddStages(ss[..k], asWritten).stages <= AddStages(ss, asWritten).stages
    decreases |ss| - k
  {
    if k < |ss| {
      var init := ss[..|ss| - 1];
      assert init[..k] == ss[..k];
      AddStagesGrow(init, asWritten, k);
    } else {
      assert ss[..k] == ss;
    }
  }

  /** The record of the last stage. */
  lemma StageLast(ss: seq<OldStage>, asWritten: bool)
    requires StagesOk(ss) && |ss| > 0
    ensures StagesOk(ss[..|ss| - 1]) && |AddStages(ss, asWritten).stages| == |ss|
    ensures AddStages(ss, asWritten).stages[|ss| - 1]
         == HaarStage(RootCount(AllTrees(ss[..|ss| - 1])), ss[|ss| - 1].threshold, |ss[|ss| - 1].trees|)
  {
    var init := ss[..|ss| - 1];
    AddStagesFlat(init, asWritten);
    AddTreesShape(Start, AllTrees(init), asWritten);
  }

  /** Stage `s` starts at the roots of the trees of the stages before it,
      keeps its threshold, and has one root per tree. */
  lemma AddStagesRecords(ss: seq<OldStage>, asWritten: bool, s: int)
    requires StagesOk(ss) && 0 <= s < |ss|
    ensures StagesOk(ss[..s]) && |AddStages(ss, asWritten).stages| == |ss|
    ensures AddStages(ss, asWritten).stages[s]
         == HaarStage(RootCount(AllTrees(ss[..s])), ss[s].threshold, |ss[s].trees|)
  {
    AddStagesFlat(ss, asWritten);
    AddStagesGrow(ss, asWritten, s + 1);
    var pre := ss[..s + 1];
    StageLast(pre, asWritten);
    assert pre[..s] == ss[..s] && pre[s] == ss[s];
  }

  /** A link to a non-leaf child after the merge: shifted by the number of
      roots unless the descriptor flags that child as a leaf. */
  function ShiftDesc(d: NodeDesc, isLeaf: bool, offsetRoot: int): NodeDesc {
    if isLeaf then d
    else match d
      case Next(o) => Next(o + offsetRoot)
      case Leaf(_) => d
  }

  function Shift(n: HaarNode, offsetRoot: int): HaarNode {
    n.(left := ShiftDesc(n.left, n.desc.leftLeaf, offsetRoot), right := ShiftDesc(n.right, n.desc.rightLeaf, offsetRoot))
  }

  /** The node array: the roots, then the temporary list, every non-leaf
      link shifted by `offsetRoot`, the number of roots. */
  function Merge(roots: seq<HaarNode>, tmp: seq<HaarNode>): (r: seq<HaarNode>)
    ensures |r| == |roots| + |tmp|
  {
    seq(|roots| + |tmp|, i requires 0 <= i < |roots| + |tmp| =>
      Shift(if i < |roots| then roots[i] else tmp[i - |roots|], |roots|))
  }

  /** `loadFromXML` with the child base and the tilted flag either as the
      code has them or corrected. Only a missing cascade fails; the
      descriptor carries the classifier window and the sizes of the three
      arrays it describes. */
  function LoadWith(c: Option<OldCascade>, asWritten: bool): (r: Result<Loaded, LoadError>)
    requires c.Some? ==> StagesOk(c.value.stages)
    ensures r.Failure? <==> c.None?
    ensures r.Success? ==>
      && r.value.haar.width == c.value.windowWidth && r.value.haar.height == c.value.windowHeight
      && r.value.haar.numStages == |r.value.stages|
      && r.value.haar.numTotalNodes == |r.value.nodes|
      && r.value.haar.numFeatures == |r.value.features|
  {
    if c.None? then Failure(XmlLoadingException)
    else
      var b := AddStages(c.value.stages, asWritten);
      var a := b.acc;
      Success(Loaded(
        Descriptor(|b.stages|, |a.roots|, |a.roots| + |a.tmp|, |a.features|,
                   c.value.windowWidth, c.value.windowHeight, a.stumpsOnly, a.tilted),
        b.stages, Merge(a.roots, a.tmp), a.features))
  }

  /** `loadFromXML` as written: one stage per stage of the file, one root
      per non-empty tree, one node per tree node and one feature per used
      rectangle; stumps only when every tree is one node, and the tilted
      flag of the last node alone. */
  function LoadAsWritten(c: Option<OldCascade>): (r: Result<Loaded, LoadError>)
    requires c.Some? ==> StagesOk(c.value.stages)
    ensures r.Failure? <==> c.None?
    ensures c.Some? ==>
      var ts, h := AllTrees(c.value.stages), r.value.haar;
      && h.numStages == |c.value.stages| && h.numRootNodes == RootCount(ts)
      && h.numTotalNodes == NodeTotal(ts) && h.numFeatures == RectTotal(ts)
      && (h.stumpsOnly <==> AllStumps(ts)) && h.needsTilted == LastTilted(false, ts)
  {
    LoadStats(c, true);
    if c.Some? then LoadFlags(c.value, true); LoadWith(c, true) else LoadWith(c, true)
  }

  /** `loadFromXML` with a child's base taken at the start of its tree and
      the tilted flag accumulated over all nodes: the same counts as the
      code, and the tilted flag set exactly when some node is tilted. */
  function Load(c: Option<OldCascade>): (r: Result<Loaded, LoadError>)
    requires c.Some? ==> StagesOk(c.value.stages)
    ensures r.Failure? <==> c.None?
    ensures c.Some? ==>
      var ts, h := AllTrees(c.value.stages), r.value.haar;
      && h.numStages == |c.value.stages| && h.numRootNodes == RootCount(ts)
      && h.numTotalNodes == NodeTotal(ts) && h.numFeatures == RectTotal(ts)
      && (h.stumpsOnly <==> AllStumps(ts)) && (h.needsTilted <==> AnyTilted(ts))
  {
    LoadStats(c, false);
    if c.Some? then LoadFlags(c.value, false); LoadWith(c, false) else LoadWith(c, false)
  }

  /** Where node `m` of tree `t` (counting trees across all stages) lands in
      the node array: roots in tree order, then the other nodes tree by tree. */
  function Slot(ts: seq<OldTree>, t: int, m: int): int
    requires 0 <= t <= |ts|
  {
    if m == 0 then RootCount(ts[..t]) else RootCount(ts) + TmpCount(ts[..t]) + m - 1
  }

  /** How far the code's child link lands past the intended slot: node `m`
      takes the temporary-list size at node `m` instead of at the start of
      its tree, `m - 1` too far for `m >= 2`. */
  function Skew(asWritten: bool, m: int): int {
    if asWritten && m > 0 then m - 1 else 0
  }

  /** `o` is legacy node `node` after conversion and merge: same threshold,
      same feature flags, leaf children as leaf values, and a link to node
      `k` of the tree as index `linkBase + k - 1` of the node array. */
  predicate Converted(o: HaarNode, node: OldNode, alpha: seq<real>, linkBase: int)
    requires NodeOk(node, alpha)
  {
    o.threshold == node.threshold
    && o.desc.tilted == (node.feature.tilted != 0)
    && o.desc.leftLeaf == (node.left <= 0) && o.desc.rightLeaf == (node.right <= 0)
    && (node.left <= 0 ==> o.left == Leaf(alpha[-node.left]))
    && (node.left > 0 ==> o.left == Next(linkBase + node.left - 1))
    && (node.right <= 0 ==> o.right == Leaf(alpha[-node.right]))
    && (node.right > 0 ==> o.right == Next(linkBase + node.right - 1))
  }

  /** A converted node after the merge: its link base moves by the number of
      roots. */
  lemma ShiftedNode(node: OldNode, alpha: seq<real>, base: int, first: int, offsetRoot: int)
    requires NodeOk(node, alpha)
    ensures Converted(Shift(NodeOut(node, alpha, base, first), offsetRoot), node, alpha, offsetRoot + base)
  {
  }

  /** Where a node stored by the node loop lands after the merge. */
  function MergedIndex(p: Acc, f: Acc, m: int): int {
    if m == 0 then |p.roots| else |f.roots| + |p.tmp| + m - 1
  }

  /** A node the loop stored at step `m` is, after the merge, at
      `MergedIndex`, shifted by the number of roots. */
  lemma MergeStored(p: Acc, f: Acc, m: int)
    requires Holds(p, f, m)
    ensures 0 <= MergedIndex(p, f, m) < |Merge(f.roots, f.tmp)|
    ensures Merge(f.roots, f.tmp)[MergedIndex(p, f, m)] == Shift(StoredAt(p, f, m), |f.roots|)
  {
  }

  /** A node stored converted against `base` is, after the merge, converted
      against `base` plus the number of roots. */
  lemma MergeConverted(p: Acc, f: Acc, m: int, node: OldNode, alpha: seq<real>, base: int)
    requires StoredAs(p, f, m, node, alpha, base)
    ensures 0 <= MergedIndex(p, f, m) < |Merge(f.roots, f.tmp)|
    ensures Converted(Merge(f.roots, f.tmp)[MergedIndex(p, f, m)], node, alpha, |f.roots| + base)
  {
    MergeStored(p, f, m);
    ShiftedNode(node, alpha, base, StoredAt(p, f, m).desc.first, |f.roots|);
  }

  /** The slot of node `m` of tree `t` in the merged array holds that node,
      converted with link base `RootCount(ts) + TmpCount(ts[..t])`, moved by
      `Skew` as written. */
  lemma MergedAt(ts: seq<OldTree>, asWritten: bool, t: int, m: int)
    requires TreesOk(ts) && 0 <= t < |ts| && 0 <= m < |ts[t].nodes|
    ensures var f := AddTrees(Start, ts, asWritten);
      0 <= Slot(ts, t, m) < |Merge(f.roots, f.tmp)|
      && Converted(Merge(f.roots, f.tmp)[Slot(ts, t, m)], ts[t].nodes[m], ts[t].alpha,
                   RootCount(ts) + TmpCount(ts[..t]) + Skew(asWritten, m))
  {
    var f := AddTrees(Start, ts, asWritten);
    AddTreesShape(Start, ts, asWritten);
    TreesAt(Start, ts, t, m, asWritten);
    var p := AddTrees(Start, ts[..t], asWritten);
    var base := NodeBase(p, |p.tmp|, asWritten, m);
    MergeConverted(p, f, m, ts[t].nodes[m], ts[t].alpha, base);
    assert MergedIndex(p, f, m) == Slot(ts, t, m);
    assert |f.roots| + base == RootCount(ts) + TmpCount(ts[..t]) + Skew(asWritten, m);
  }

  /** Node `m` of tree `t` (counting trees across all stages) is stored at
      `Slot(ts, t, m)` with its threshold, leaf values and feature flags; a
      link to node `k` of its tree reads `Slot(ts, t, k)` when corrected and
      `Slot(ts, t, k) + Skew` as written. */
  lemma LoadSlot(c: OldCascade, asWritten: bool, t: int, m: int)
    requires StagesOk(c.stages)
    requires TreesOk(AllTrees(c.stages)) && 0 <= t < |AllTrees(c.stages)| && 0 <= m < |AllTrees(c.stages)[t].nodes|
    ensures LoadWith(Some(c), asWritten).Success?
    ensures 0 <= Slot(AllTrees(c.stages), t, m) < |LoadWith(Some(c), asWritten).value.nodes|
    ensures var ts := AllTrees(c.stages);
      Converted(LoadWith(Some(c), asWritten).value.nodes[Slot(ts, t, m)], ts[t].nodes[m], ts[t].alpha,
                RootCount(ts) + TmpCount(ts[..t]) + Skew(asWritten, m))
  {
    var ts := AllTrees(c.stages);
    AddStagesFlat(c.stages, asWritten);
    var f := AddTrees(Start, ts, asWritten);
    MergedAt(ts, asWritten, t, m);
    assert LoadWith(Some(c), asWritten).value.nodes == Merge(f.roots, f.tmp);
  }

  /** The corrected loader links every non-leaf child to the slot that holds
      that child: same threshold, same leaf values. */
  lemma LoadLinks(c: OldCascade, t: int, m: int)
    requires StagesOk(c.stages)
    requires TreesOk(AllTrees(c.stages)) && 0 <= t < |AllTrees(c.stages)| && 0 <= m < |AllTrees(c.stages)[t].nodes|
    requires 0 < AllTrees(c.stages)[t].nodes[m].left < |AllTrees(c.stages)[t].nodes|
    ensures Load(Some(c)).Success?
    ensures var ts := AllTrees(c.stages);
      var k := ts[t].nodes[m].left;
      var nodes := Load(Some(c)).value.nodes;
      0 <= Slot(ts, t, m) < |nodes| && 0 <= Slot(ts, t, k) < |nodes|
      && nodes[Slot(ts, t, m)].left == Next(Slot(ts, t, k))
      && nodes[Slot(ts, t, k)].threshold == ts[t].nodes[k].threshold
  {
    var ts := AllTrees(c.stages);
    var k := ts[t].nodes[m].left;
    LoadSlot(c, false, t, m);
    LoadSlot(c, false, t, k);
    assert Slot(ts, t, k) == RootCount(ts) + TmpCount(ts[..t]) + Skew(false, m) + k - 1;
  }

  /** The same for right children. */
  lemma LoadLinksRight(c: OldCascade, t: int, m: int)
    requires StagesOk(c.stages)
    requires TreesOk(AllTrees(c.stages)) && 0 <= t < |AllTrees(c.stages)| && 0 <= m < |AllTrees(c.stages)[t].nodes|
    requires 0 < AllTrees(c.stages)[t].nodes[m].right < |AllTrees(c.stages)[t].nodes|
    ensures Load(Some(c)).Success?
    ensures var ts := AllTrees(c.stages);
      var k := ts[t].nodes[m].right;
      var nodes := Load(Some(c)).value.nodes;
      0 <= Slot(ts, t, m) < |nodes| && 0 <= Slot(ts, t, k) < |nodes|
      && nodes[Slot(ts, t, m)].right == Next(Slot(ts, t, k))
      && nodes[Slot(ts, t, k)].threshold == ts[t].nodes[k].threshold
  {
    var ts := AllTrees(c.stages);
    var k := ts[t].nodes[m].right;
    LoadSlot(c, false, t, m);
    LoadSlot(c, false, t, k);
    assert Slot(ts, t, k) == RootCount(ts) + TmpCount(ts[..t]) + Skew(false, m) + k - 1;
  }

  /** The rectangles node loop steps `0 .. n - 1` push. */
  function RectCount(tree: OldTree, n: int): nat
    requires 0 <= n <= |tree.nodes|
  {
    if n == 0 then 0 else RectCount(tree, n - 1) + |NodeRects(tree.nodes[n - 1].feature)|
  }

  /** The rectangles all nodes of `ts` push. */
  function RectTotal(ts: seq<OldTree>): nat {
    if |ts| == 0 then 0 else RectTotal(ts[..|ts| - 1]) + RectCount(ts[|ts| - 1], |ts[|ts| - 1].nodes|)
  }

  lemma {:induction false} AddNodesRects(a: Acc, tree: OldTree, n: int, treeBase: int, asWritten: bool)
    requires 0 <= n <= |tree.nodes| && TreeOk(tree)
    ensures |AddNodes(a, tree, n, treeBase, asWritten).features| == |a.features| + RectCount(tree, n)
  {
    if n > 0 {
      AddNodesRects(a, tree, n - 1, treeBase, asWritten);
    }
  }

  lemma {:induction false} AddTreesRects(a: Acc, ts: seq<OldTree>, asWritten: bool)
    requires TreesOk(ts)
    ensures |AddTrees(a, ts, asWritten).features| == |a.features| + RectTotal(ts)
  {
    if |ts| > 0 {
      var init := ts[..|ts| - 1];
      AddTreesRects(a, init, asWritten);
      var prev := AddTrees(a, init, asWritten);
      AddNodesRects(prev, ts[|ts| - 1], |ts[|ts| - 1].nodes|, |prev.tmp|, asWritten);
    }
  }

  /** A missing cascade is the loading exception; otherwise the descriptor
      counts the stages, the roots (one per non-empty tree), all nodes and
      all rectangles, and carries the window size. */
  lemma LoadStats(c: Option<OldCascade>, asWritten: bool)
    requires c.Some? ==> StagesOk(c.value.stages)
    ensures LoadWith(c, asWritten).Failure? <==> c.None?
    ensures c.Some? ==>
      var ts, L := AllTrees(c.value.stages), LoadWith(c, asWritten).value;
      L.haar.numStages == |L.stages| == |c.value.stages|
      && L.haar.numRootNodes == RootCount(ts)
      && L.haar.numTotalNodes == |L.nodes| == NodeTotal(ts)
      && L.haar.numFeatures == |L.features| == RectTotal(ts)
      && L.haar.width == c.value.windowWidth && L.haar.height == c.value.windowHeight
  {
    if c.Some? {
      var ts := AllTrees(c.value.stages);
      AddStagesFlat(c.value.stages, asWritten);
      AddTreesShape(Start, ts, asWritten);
      AddTreesRects(Start, ts, asWritten);
      CountsAddUp(ts);
    }
  }

  /** Stage `s` of the loaded cascade starts at the roots of the trees of
      the stages before it, keeps its threshold, and has one root per tree. */
  lemma LoadStage(c: OldCascade, asWritten: bool, s: int)
    requires StagesOk(c.stages) && 0 <= s < |c.stages|
    ensures LoadWith(Some(c), asWritten).Success? && |LoadWith(Some(c), asWritten).value.stages| == |c.stages|
    ensures LoadWith(Some(c), asWritten).value.stages[s]
         == HaarStage(RootCount(AllTrees(c.stages[..s])), c.stages[s].threshold, |c.stages[s].trees|)
  {
    AddStagesRecords(c.stages, asWritten, s);
  }

  /** A range stays in place when the feature array grows. */
  lemma RangeKept(d: FeatureDesc, x: seq<HaarFeature>, y: seq<HaarFeature>, rects: seq<HaarFeature>)
    requires RangeHolds(d, x, rects) && x <= y
    ensures RangeHolds(d, y, rects)
  {
    assert y[d.first..d.first + d.count] == x[d.first..d.first + d.count];
  }

  /** A stored node stays where it is when the lists grow. */
  lemma StoredKept(p: Acc, mid: Acc, r: Acc, m: int)
    requires Holds(p, mid, m) && mid.roots <= r.roots && mid.tmp <= r.tmp
    ensures Holds(p, r, m) && StoredAt(p, r, m) == StoredAt(p, mid, m)
  {
  }

  /** The rectangles of node `m` of tree `t` are in the final feature array
      at the range its stored descriptor names. */
  lemma TreesFeaturesAt(a: Acc, ts: seq<OldTree>, t: int, m: int, asWritten: bool)
    requires TreesOk(ts) && 0 <= t < |ts| && 0 <= m < |ts[t].nodes|
    ensures TreesOk(ts[..t])
    ensures var p, r := AddTrees(a, ts[..t], asWritten), AddTrees(a, ts, asWritten);
      Holds(p, r, m) && RangeHolds(StoredAt(p, r, m).desc, r.features, Convert(NodeRects(ts[t].nodes[m].feature)))
  {
    TreeStep(a, ts, t, asWritten);
    var p := AddTrees(a, ts[..t], asWritten);
    AddNodesFeaturesAt(p, ts[t], |ts[t].nodes|, |p.tmp|, asWritten, m);
    var mid := AddTrees(a, ts[..t + 1], asWritten);
    AddTreesGrow(a, ts, t + 1, asWritten);
    var r := AddTrees(a, ts, asWritten);
    StoredKept(p, mid, r, m);
    RangeKept(StoredAt(p, mid, m).desc, mid.features, r.features, Convert(NodeRects(ts[t].nodes[m].feature)));
  }

  /** The descriptor of the node at `Slot(ts, t, m)` names the range of the
      feature array that holds that node's weighted rectangles, converted. */
  lemma LoadFeatures(c: OldCascade, asWritten: bool, t: int, m: int)
    requires StagesOk(c.stages)
    requires TreesOk(AllTrees(c.stages)) && 0 <= t < |AllTrees(c.stages)| && 0 <= m < |AllTrees(c.stages)[t].nodes|
    ensures LoadWith(Some(c), asWritten).Success?
    ensures 0 <= Slot(AllTrees(c.stages), t, m) < |LoadWith(Some(c), asWritten).value.nodes|
    ensures var ts, L := AllTrees(c.stages), LoadWith(Some(c), asWritten).value;
      RangeHolds(L.nodes[Slot(ts, t, m)].desc, L.features, Convert(NodeRects(ts[t].nodes[m].feature)))
  {
    var ts := AllTrees(c.stages);
    AddStagesFlat(c.stages, asWritten);
    var f := AddTrees(Start, ts, asWritten);
    TreesFeaturesAt(Start, ts, t, m, asWritten);
    var p := AddTrees(Start, ts[..t], asWritten);
    AddTreesShape(Start, ts[..t], asWritten);
    AddTreesShape(Start, ts, asWritten);
    MergeStored(p, f, m);
    assert MergedIndex(p, f, m) == Slot(ts, t, m);
    assert LoadWith(Some(c), asWritten).value.nodes == Merge(f.roots, f.tmp);
  }

  /** Both children of the node are leaves. */
  predicate IsStump(node: OldNode) {
    node.left <= 0 && node.right <= 0
  }

  predicate IsTilted(node: OldNode) {
    node.feature.tilted != 0
  }

  /** Every node of every tree of `ts` is a stump. */
  predicate AllStumps(ts: seq<OldTree>) {
    forall t, n :: 0 <= t < |ts| && 0 <= n < |ts[t].nodes| ==> IsStump(ts[t].nodes[n])
  }

  /** Some node of some tree of `ts` has a tilted feature. */
  predicate AnyTilted(ts: seq<OldTree>) {
    exists t, n :: 0 <= t < |ts| && 0 <= n < |ts[t].nodes| && IsTilted(ts[t].nodes[n])
  }

  /** The tilted flag of the last node of `ts`, or `d` when `ts` has no node. */
  function LastTilted(d: bool, ts: seq<OldTree>): bool {
    if |ts| == 0 then d
    else if |ts[|ts| - 1].nodes| > 0 then IsTilted(ts[|ts| - 1].nodes[|ts[|ts| - 1].nodes| - 1])
    else LastTilted(d, ts[..|ts| - 1])
  }

  /** Nodes `0 .. n - 1` of `tree` are stumps. */
  predicate StumpsBelow(tree: OldTree, n: int) {
    forall i :: 0 <= i < n && i < |tree.nodes| ==> IsStump(tree.nodes[i])
  }

  /** One of nodes `0 .. n - 1` of `tree` is tilted. */
  predicate TiltedBelow(tree: OldTree, n: int) {
    exists i :: 0 <= i < n && i < |tree.nodes| && IsTilted(tree.nodes[i])
  }

  /** The node loop clears the stumps flag at the first non-leaf child. */
  lemma {:induction false} AddNodesStumps(a: Acc, tree: OldTree, n: int, treeBase: int, asWritten: bool)
    requires 0 <= n <= |tree.nodes| && TreeOk(tree)
    ensures AddNodes(a, tree, n, treeBase, asWritten).stumpsOnly <==> a.stumpsOnly && StumpsBelow(tree, n)
  {
    if n > 0 {
      AddNodesStumps(a, tree, n - 1, treeBase, asWritten);
      var prev := AddNodes(a, tree, n - 1, treeBase, asWritten);
      assert AddNodes(a, tree, n, treeBase, asWritten).stumpsOnly == (prev.stumpsOnly && IsStump(tree.nodes[n - 1]));
    }
  }

  /** The corrected node loop sets the tilted flag once some node is tilted. */
  lemma {:induction false} AddNodesTilted(a: Acc, tree: OldTree, n: int, treeBase: int)
    requires 0 <= n <= |tree.nodes| && TreeOk(tree)
    ensures AddNodes(a, tree, n, treeBase, false).tilted <==> a.tilted || TiltedBelow(tree, n)
  {
    if n > 0 {
      AddNodesTilted(a, tree, n - 1, treeBase);
      var prev := AddNodes(a, tree, n - 1, treeBase, false);
      assert AddNodes(a, tree, n, treeBase, false).tilted == (prev.tilted || IsTilted(tree.nodes[n - 1]));
      assert TiltedBelow(tree, n) <==> TiltedBelow(tree, n - 1) || IsTilted(tree.nodes[n - 1]);
    }
  }

  /** The node loop as written leaves the tilted flag of the last node. */
  lemma AddNodesLastTilted(a: Acc, tree: OldTree, n: int, treeBase: int)
    requires 0 <= n <= |tree.nodes| && TreeOk(tree)
    ensures AddNodes(a, tree, n, treeBase, true).tilted == if n == 0 then a.tilted else IsTilted(tree.nodes[n - 1])
  {
  }

  /** A tree appended to `x`. */
  lemma AllStumpsSnoc(x: seq<OldTree>, y: OldTree)
    ensures AllStumps(x + [y]) <==> AllStumps(x) && StumpsBelow(y, |y.nodes|)
  {
    var z := x + [y];
    assert forall t :: 0 <= t < |x| ==> z[t] == x[t];
    assert z[|x|] == y;
  }

  lemma AnyTiltedSnoc(x: seq<OldTree>, y: OldTree)
    ensures AnyTilted(x + [y]) <==> AnyTilted(x) || TiltedBelow(y, |y.nodes|)
  {
    var z := x + [y];
    assert forall t :: 0 <= t < |x| ==> z[t] == x[t];
    assert z[|x|] == y;
    if AnyTilted(z) {
      var t, n :| 0 <= t < |z| && 0 <= n < |z[t].nodes| && IsTilted(z[t].nodes[n]);
      if t < |x| {
        assert IsTilted(x[t].nodes[n]);
      }
    }
    if AnyTilted(x) {
      var t, n :| 0 <= t < |x| && 0 <= n < |x[t].nodes| && IsTilted(x[t].nodes[n]);
      assert IsTilted(z[t].nodes[n]);
    }
    if TiltedBelow(y, |y.nodes|) {
      var i :| 0 <= i < |y.nodes| && IsTilted(y.nodes[i]);
      assert IsTilted(z[|x|].nodes[i]);
    }
  }

  /** The tree loop keeps the stumps flag exactly when every node is a stump. */
  lemma {:induction false} AddTreesStumps(a: Acc, ts: seq<OldTree>, asWritten: bool)
    requires TreesOk(ts)
    ensures AddTrees(a, ts, asWritten).stumpsOnly <==> a.stumpsOnly && AllStumps(ts)
  {
    if |ts| > 0 {
      var init, last := ts[..|ts| - 1], ts[|ts| - 1];
      AddTreesStumps(a, init, asWritten);
      var prev := AddTrees(a, init, asWritten);
      AddNodesStumps(prev, last, |last.nodes|, |prev.tmp|, asWritten);
      AllStumpsSnoc(init, last);
      assert init + [last] == ts;
    }
  }

  /** The corrected tilted flag is set exactly when some node is tilted. */
  lemma {:induction false} AddTreesTilted(a: Acc, ts: seq<OldTree>)
    requires TreesOk(ts)
    ensures AddTrees(a, ts, false).tilted <==> a.tilted || AnyTilted(ts)
  {
    if |ts| > 0 {
      var init, last := ts[..|ts| - 1], ts[|ts| - 1];
      AddTreesTilted(a, init);
      var prev := AddTrees(a, init, false);
      AddNodesTilted(prev, last, |last.nodes|, |prev.tmp|);
      AnyTiltedSnoc(init, last);
      assert init + [last] == ts;
    }
  }

  /** The tilted flag as written is the last node's flag. */
  lemma {:induction false} AddTreesLastTilted(a: Acc, ts: seq<OldTree>)
    requires TreesOk(ts)
    ensures AddTrees(a, ts, true).tilted == LastTilted(a.tilted, ts)
  {
    if |ts| > 0 {
      var init, last := ts[..|ts| - 1], ts[|ts| - 1];
      AddTreesLastTilted(a, init);
      var prev := AddTrees(a, init, true);
      AddNodesLastTilted(prev, last, |last.nodes|, |prev.tmp|);
    }
  }

  /** The descriptor flags of the loaded cascade: stumps only exactly when
      no node has a non-leaf child (both loaders); needs the tilted integral
      image exactly when some node is tilted (corrected), or just when the
      last node loaded is (as written). */
  lemma LoadFlags(c: OldCascade, asWritten: bool)
    requires StagesOk(c.stages)
    ensures LoadWith(Some(c), asWritten).Success?
    ensures var ts, h := AllTrees(c.stages), LoadWith(Some(c), asWritten).value.haar;
      (h.stumpsOnly <==> AllStumps(ts))
      && (!asWritten ==> (h.needsTilted <==> AnyTilted(ts)))
      && (asWritten ==> h.needsTilted == LastTilted(false, ts))
  {
    AddStagesFlat(c.stages, asWritten);
    AddTreesStumps(Start, AllTrees(c.stages), asWritten);
    if asWritten {
      AddTreesLastTilted(Start, AllTrees(c.stages));
    } else {
      AddTreesTilted(Start, AllTrees(c.stages));
    }
  }

  /** A feature with no rectangles. */
  const Blank: OldFeature := OldFeature(0, [])

  /** One tree of four nodes: 0 -> (1, 2), 1 -> leaves, 2 -> (3, leaf),
      3 -> leaves. */
  const DeepTree: OldTree := OldTree(
    [OldNode(0.0, 1, 2, Blank), OldNode(1.0, 0, -1, Blank), OldNode(2.0, 3, -2, Blank), OldNode(3.0, -3, -4, Blank)],
    [0.5, 0.6, 0.7, 0.8, 0.9])

  const DeepCascade: OldCascade := OldCascade(24, 24, [OldStage(0.0, [DeepTree])])

  lemma DeepTreeShape()
    ensures StagesOk(DeepCascade.stages) && AllTrees(DeepCascade.stages) == [DeepTree]
    ensures TreesOk([DeepTree]) && RootCount([DeepTree]) == 1 && NodeTotal([DeepTree]) == 4
  {
    assert DeepCascade.stages[..0] == [];
  }

  /** As written, the left link of node 2 (whose left child is node 3) is
      index 4 of a four-node array: past the end. */
  lemma LoadAsWrittenOverruns()
    ensures LoadAsWritten(Some(DeepCascade)).Success?
    ensures var L := LoadAsWritten(Some(DeepCascade)).value;
      |L.nodes| == 4 && L.nodes[2].left == Next(4)
  {
    DeepTreeShape();
    var ts := [DeepTree];
    LoadStats(Some(DeepCascade), true);
    LoadSlot(DeepCascade, true, 0, 2);
    assert ts[..0] == [];
    assert Slot(ts, 0, 2) == 2 && Slot(ts, 0, 3) == 3;
  }

  /** Corrected, the same link is index 3, which holds node 3. */
  lemma LoadLinksDeepTree()
    ensures Load(Some(DeepCascade)).Success?
    ensures var L := Load(Some(DeepCascade)).value;
      |L.nodes| == 4 && L.nodes[2].left == Next(3) && L.nodes[3].threshold == 3.0
  {
    DeepTreeShape();
    var ts := [DeepTree];
    LoadStats(Some(DeepCascade), false);
    LoadLinks(DeepCascade, 0, 2);
    assert ts[..0] == [];
    assert Slot(ts, 0, 2) == 2 && Slot(ts, 0, 3) == 3;
  }

  /** Two stumps, the first with a tilted feature, the second without. */
  const TiltedFirst: OldCascade := OldCascade(24, 24, [OldStage(0.0, [
    OldTree([OldNode(0.0, 0, -1, OldFeature(1, []))], [0.5, 0.6]),
    OldTree([OldNode(0.0, 0, -1, Blank)], [0.5, 0.6])])])

  /** As written the tilted integral image is not requested although the
      first node needs it; corrected it is. */
  lemma TiltedFlagLost()
    ensures LoadAsWritten(Some(TiltedFirst)).Success? && !LoadAsWritten(Some(TiltedFirst)).value.haar.needsTilted
    ensures Load(Some(TiltedFirst)).Success? && Load(Some(TiltedFirst)).value.haar.needsTilted
  {
    var ts := TiltedFirst.stages[0].trees;
    assert TiltedFirst.stages[..0] == [];
    assert AllTrees(TiltedFirst.stages) == ts;
    assert StagesOk(TiltedFirst.stages);
    LoadFlags(TiltedFirst, true);
    LoadFlags(TiltedFirst, false);
    assert IsTilted(ts[0].nodes[0]);
  }
}

=== FILE: haar_min_size.dfy ===
/** The minimum search size of the Haar detector's `detectMultiScale`: the
    argument checks and the rule that lets the caller's `minSize` replace
    the classifier window, compared as C `unsigned int`. */
module HaarMinSize {
  import opened Wrappers
  import opened Pyramid

  /** Two to the 32nd: the modulus of `unsigned int`. */
  const U32Modulus: int := 0x1_0000_0000

  /** The C conversion of an `int` to `unsigned int`. */
  function U32(x: int): (r: int)
    ensures 0 <= r < U32Modulus
    ensures 0 <= x < U32Modulus ==> r == x
    ensures -U32Modulus <= x < 0 ==> r == x + U32Modulus
  {
    x % U32Modulus
  }

  /** `NcvSize32u`: an unsigned width and height. */
  datatype NcvSize = NcvSize(width: int, height: int)

  predicate IsU32Size(s: NcvSize) {
    0 <= s.width < U32Modulus && 0 <= s.height < U32Modulus
  }

  /** The minimum search size of the Haar detector: the caller's `minSize`
      replaces the classifier window only when it is larger in BOTH
      dimensions, the comparison being done in `unsigned`. */
  function MinSearchSize(classifier: NcvSize, minSize: Size): (r: NcvSize)
    requires IsU32Size(classifier)
    ensures IsU32Size(r)
    ensures r.width >= classifier.width && r.height >= classifier.height
    ensures r != classifier <==> classifier.width < U32(minSize.width) && classifier.height < U32(minSize.height)
    ensures r != classifier ==> r == NcvSize(U32(minSize.width), U32(minSize.height))
  {
    if classifier.width < U32(minSize.width) && classifier.height < U32(minSize.height)
    then NcvSize(U32(minSize.width), U32(minSize.height))
    else classifier
  }

  /** For non-negative sizes the rule is: the caller's size when it exceeds
      the window in both dimensions, the window otherwise; applying it twice
      changes nothing. */
  lemma MinSearchSizeNonNegative(classifier: NcvSize, minSize: Size)
    requires IsU32Size(classifier)
    requires 0 <= minSize.width < U32Modulus && 0 <= minSize.height < U32Modulus
    ensures var r := MinSearchSize(classifier, minSize);
      (classifier.width < minSize.width && classifier.height < minSize.height ==> r == NcvSize(minSize.width, minSize.height))
      && (minSize.width <= classifier.width || minSize.height <= classifier.height ==> r == classifier)
    ensures MinSearchSize(MinSearchSize(classifier, minSize), minSize) == MinSearchSize(classifier, minSize)
  {
  }

  /** A negative width converts to a huge unsigned one: with a 24x24
      window, `minSize = (-1, 50)` asks for windows 4294967295 wide. */
  lemma MinSearchSizeNegativeWraps()
    ensures MinSearchSize(NcvSize(24, 24), Size(-1, 50)) == NcvSize(4294967295, 50)
  {
  }

  /** `CascadeClassifier_GPU::detectMultiScale` up to `process`: the two
      `CV_Assert`s and the minimum search size handed on. */
  function MultiScaleMinSize(loaded: bool, scaleFactor: real, depth8U: bool, classifier: NcvSize, minSize: Size)
    : (r: Result<NcvSize, DetectError>)
    requires IsU32Size(classifier)
    ensures r.Failure? <==> !(scaleFactor > 1.0 && depth8U && loaded)
    ensures r.Success? ==> r.value == MinSearchSize(classifier, minSize)
  {
    if !(scaleFactor > 1.0 && depth8U) then Failure(AssertionFailed)
    else if !loaded then Failure(AssertionFailed)
    else Success(MinSearchSize(classifier, minSize))
  }
}

=== FILE: lbp_cascade.dfy ===
/** The LBP cascade loader `CascadeClassifier_GPU_LBP::read`: an already
    parsed boosted-stump cascade is flattened into the arrays the detector
    uploads (stages, per-tree node counts, nodes, leaves, category subsets
    and feature rectangles).

    The parsed file is modelled as nested datatypes; a section the file may
    lack is an `Option`, `None` standing for an empty `FileNode`. */
module LbpCascade {
  import opened Wrappers

  /** One weak classifier: its `internalNodes` integers and `leafValues`. */
  datatype WeakTree = WeakTree(internalNodes: Option<seq<int>>, leafValues: Option<seq<real>>)

  /** One stage: `stageThreshold` and its `weakClassifiers`. */
  datatype StageNode = StageNode(stageThreshold: real, weakClassifiers: Option<seq<WeakTree>>)

  /** The four integers of a feature's `rect`. */
  datatype Rect = Rect(x: int, y: int, width: int, height: int)

  /** The top-level cascade node. `maxCatCount` is `None` when the
      `featureParams` section is missing, and holds the category count read
      from it otherwise (a missing count reads as 0). */
  datatype CascadeNode = CascadeNode(
    stageType: string, featureType: string, width: int, height: int, maxDepth: int,
    maxCatCount: Option<int>, stages: Option<seq<StageNode>>, features: Option<seq<Rect>>)

  /** A flattened stage: the index of its first tree, its tree count and the
      stored threshold. */
  datatype Stage = Stage(first: int, ntrees: int, threshold: real)

  /** The tree-derived arrays, in push order. */
  datatype Flat = Flat(trees: seq<int>, nodes: seq<int>, leaves: seq<real>, subsets: seq<int>)

  /** A loaded cascade: window size `NxM`, the category layout and the arrays. */
  datatype LbpCascade = LbpCascade(
    width: int, height: int, ncategories: int, subsetSize: int, nodeStep: int,
    stages: seq<Stage>, trees: seq<int>, nodes: seq<int>, leaves: seq<real>,
    subsets: seq<int>, features: seq<int>)

  /** `CV_Assert` failures (the first four) and the `return false` cases. */
  datatype ReadError = WrongStageType | WrongFeatureType | BadWindowSize | NotStumps | MissingNode

  /** `GPU_THRESHOLD_EPS`, as an exact real. */
  const ThresholdEps: real := 0.00001

  /** C integer division, which truncates toward zero. */
  function TruncDiv(a: int, d: int): (q: int)
    requires d > 0
    ensures a >= 0 ==> d * q <= a < d * q + d
    ensures a < 0 ==> d * q - d < a <= d * q
  {
    if a >= 0 then a / d else -((-a) / d)
  }

  /** `subsetSize`: the number of 32-bit words a category bitset needs. */
  function SubsetSize(ncategories: int): (s: int)
    ensures s > 0 <==> ncategories > 0
    ensures ncategories > 0 ==> 32 * (s - 1) < ncategories <= 32 * s
  {
    TruncDiv(ncategories + 31, 32)
  }

  /** The bitset words a node record carries into `subsets`: the subset size
      when the cascade is categorical, none otherwise. */
  function KeptSubset(ncategories: int): (k: nat)
    ensures k > 0 <==> ncategories > 0
  {
    if ncategories > 0 then SubsetSize(ncategories) else 0
  }

  /** `nodeStep`: the length of one node record in `internalNodes`. A
      non-categorical record holds one threshold slot after its three ints. */
  function NodeStep(ncategories: int): (n: nat)
    ensures n == 3 + KeptSubset(ncategories) || (ncategories <= 0 && n == 4)
    ensures n >= 4
  {
    3 + (if ncategories > 0 then SubsetSize(ncategories) else 1)
  }

  /** `saturate_cast<uchar>` of an int. */
  function SaturateByte(v: int): (r: int)
    ensures 0 <= r <= 255
    ensures 0 <= v <= 255 ==> r == v
    ensures v < 0 ==> r == 0
    ensures v > 255 ==> r == 255
  {
    if v < 0 then 0 else if v > 255 then 255 else v
  }

  function Sum(xs: seq<int>): int {
    if |xs| == 0 then 0 else xs[0] + Sum(xs[1..])
  }

  lemma {:induction false} SumAppend(a: seq<int>, b: seq<int>)
    ensures Sum(a + b) == Sum(a) + Sum(b)
  {
    if |a| == 0 {
      assert a + b == b;
    } else {
      assert (a + b)[1..] == a[1..] + b;
      SumAppend(a[1..], b);
    }
  }

  lemma {:induction false} MulAtLeast(d: int, x: int)
    requires d >= 0 && x >= 1
    ensures d * x >= d
    decreases x
  {
    if x > 1 {
      MulAtLeast(d, x - 1);
      assert d * x == d * (x - 1) + d;
    }
  }

  lemma Distrib(a: int, b: int, c: int)
    ensures a * (b + c) == a * b + a * c
  {
  }

  lemma MulMono(a: int, x: int, y: int)
    requires a >= 0 && x <= y
    ensures a * x <= a * y
  {
    if x < y {
      MulAtLeast(a, y - x);
      assert a * y == a * x + a * (y - x);
    }
  }

  /** Division by a positive divisor is determined by quotient and remainder. */
  lemma DivUnique(a: int, d: int, q: int, r: int)
    requires d > 0 && 0 <= r < d && a == d * q + r
    ensures a / d == q
  {
    var q0 := a / d;
    var r0 := a % d;
    assert a == d * q0 + r0 && 0 <= r0 < d;
    assert d * (q0 - q) == r - r0 by {
      assert d * (q0 - q) == d * q0 - d * q;
    }
    if q0 > q {
      MulAtLeast(d, q0 - q);
      assert false;
    } else if q0 < q {
      MulAtLeast(d, q - q0);
      assert false;
    }
  }

  lemma DivStep(m: int, step: int)
    requires step > 0 && m >= step
    ensures (m - step) / step == m / step - 1
    ensures m / step >= 1
  {
    var q := (m - step) / step;
    var r := (m - step) % step;
    assert m - step == step * q + r && 0 <= r < step;
    assert m == step * (q + 1) + r;
    DivUnique(m, step, q + 1, r);
  }

  /** Number of whole records of `step` values in a node list. */
  function NodeCount(vals: seq<int>, step: nat): nat
    requires step > 0
    decreases |vals|
  {
    if |vals| < step then 0 else 1 + NodeCount(vals[step..], step)
  }

  /** `NodeCount` is the C quotient `internalNodes.size() / nodeStep`. */
  lemma {:induction false} NodeCountIsQuotient(vals: seq<int>, step: nat)
    requires step > 0
    ensures NodeCount(vals, step) == |vals| / step
    ensures NodeCount(vals, step) == TruncDiv(|vals|, step)
    decreases |vals|
  {
    if |vals| < step {
      DivUnique(|vals|, step, 0, |vals|);
    } else {
      DivStep(|vals|, step);
      NodeCountIsQuotient(vals[step..], step);
    }
  }

  /** The node loop with records kept aligned: each record of `step` values
      gives its first three to `nodes` and the `keep` values after them to
      `subsets`; a trailing partial record is ignored, as `nodeCount` does. */
  function NodeRecords(vals: seq<int>, step: nat, keep: nat): (r: (seq<int>, seq<int>))
    requires 3 + keep <= step
    ensures |r.0| == 3 * NodeCount(vals, step)
    decreases |vals|
  {
    if |vals| < step then ([], [])
    else
      var rest := NodeRecords(vals[step..], step, keep);
      (vals[..3] + rest.0, vals[3..3 + keep] + rest.1)
  }

  /** `keep` subset words per record. */
  lemma {:induction false} NodeRecordsSubsetLength(vals: seq<int>, step: nat, keep: nat)
    requires 3 + keep <= step
    ensures |NodeRecords(vals, step, keep).1| == keep * NodeCount(vals, step)
    decreases |vals|
  {
    if |vals| >= step {
      NodeRecordsSubsetLength(vals[step..], step, keep);
      Distrib(keep, 1, NodeCount(vals[step..], step));
    }
  }

  /** Every counted record lies inside the node list. */
  lemma {:induction false} RecordInside(vals: seq<int>, step: nat, n: int)
    requires step > 0 && 0 <= n < NodeCount(vals, step)
    ensures 0 <= step * n && step * n + step <= |vals|
    decreases n
  {
    if n > 0 {
      RecordInside(vals[step..], step, n - 1);
      Distrib(step, n - 1, 1);
    }
  }

  /** Record `n` gives its first three ints to the node part, at `3 * n`. */
  lemma {:induction false} NodeRecordsNodeAt(vals: seq<int>, step: nat, keep: nat, n: int, k: int)
    requires 3 + keep <= step && 0 <= n < NodeCount(vals, step) && 0 <= k < 3
    ensures 0 <= step * n && step * n + step <= |vals|
    ensures 3 * n + k < |NodeRecords(vals, step, keep).0|
    ensures NodeRecords(vals, step, keep).0[3 * n + k] == vals[step * n + k]
    decreases n
  {
    var rest := NodeRecords(vals[step..], step, keep);
    assert NodeRecords(vals, step, keep).0 == vals[..3] + rest.0;
    if n > 0 {
      NodeRecordsNodeAt(vals[step..], step, keep, n - 1, k);
      Distrib(step, n - 1, 1);
      assert 3 * n + k == 3 + (3 * (n - 1) + k);
      assert vals[step..][step * (n - 1) + k] == vals[step * n + k];
    }
  }

  /** Record `n` gives the `keep` values after its three ints to the subset
      part, at `keep * n`. */
  lemma {:induction false} NodeRecordsSubsetAt(vals: seq<int>, step: nat, keep: nat, n: int, k: int)
    requires 3 + keep <= step && 0 <= n < NodeCount(vals, step) && 0 <= k < keep
    ensures 0 <= step * n && step * n + step <= |vals|
    ensures 0 <= keep * n + k < |NodeRecords(vals, step, keep).1|
    ensures NodeRecords(vals, step, keep).1[keep * n + k] == vals[step * n + 3 + k]
    decreases n
  {
    var rest := NodeRecords(vals[step..], step, keep);
    assert NodeRecords(vals, step, keep).1 == vals[3..3 + keep] + rest.1;
    if n > 0 {
      NodeRecordsSubsetAt(vals[step..], step, keep, n - 1, k);
      assert keep * n + k == keep + (keep * (n - 1) + k) by {
        Distrib(keep, n - 1, 1);
      }
      Distrib(step, n - 1, 1);
      assert vals[step..][step * (n - 1) + 3 + k] == vals[step * n + 3 + k];
    } else {
      NodeRecordsSubsetLength(vals, step, keep);
      MulAtLeast(keep, NodeCount(vals, step));
    }
  }

  /** The node loop as written: three ints, then `subsetSize` words when it
      is positive, repeated until the list ends. `None` is a read past the
      end of the list. */
  function NodesAsWritten(vals: seq<int>, subsetSize: int): (r: Option<(seq<int>, seq<int>)>)
    ensures r.Some? ==> |r.value.0| % 3 == 0
    decreases |vals|
  {
    var take := 3 + (if subsetSize > 0 then subsetSize else 0);
    if |vals| == 0 then Some(([], []))
    else if |vals| < take then None
    else
      var rest := NodesAsWritten(vals[take..], subsetSize);
      if rest.None? then None else Some((vals[..3] + rest.value.0, vals[3..take] + rest.value.1))
  }

  /** For a categorical cascade whose node list is whole records, the loop
      as written reads exactly the aligned records. */
  lemma {:induction false} NodesAsWrittenCategorical(vals: seq<int>, ncategories: int)
    requires ncategories > 0 && |vals| % NodeStep(ncategories) == 0
    ensures NodesAsWritten(vals, SubsetSize(ncategories))
         == Some(NodeRecords(vals, NodeStep(ncategories), KeptSubset(ncategories)))
    decreases |vals|
  {
    var step := NodeStep(ncategories);
    if |vals| > 0 {
      assert |vals| >= step;
      DivStep(|vals|, step);
      assert |vals[step..]| % step == 0 by {
        assert |vals| == step * (|vals| / step);
        assert |vals[step..]| == step * (|vals| / step - 1);
      }
      NodesAsWrittenCategorical(vals[step..], ncategories);
    }
  }

  /** A categorical node list with a partial trailing record: with one
      category a record is four ints, and five ints make the code's loop
      read past the end of the list for its second node, while the aligned
      reading keeps the one whole record and drops the partial one, as
      `nodeCount` does. */
  lemma PartialRecordOverreads()
    ensures NodesAsWritten([1, 2, 3, 4, 5], SubsetSize(1)) == None
    ensures NodeRecords([1, 2, 3, 4, 5], NodeStep(1), KeptSubset(1)) == ([1, 2, 3], [4])
  {
    assert SubsetSize(1) == 1 && KeptSubset(1) == 1 && NodeStep(1) == 4;
    var vals := [1, 2, 3, 4, 5];
    assert vals[4..] == [5];
    assert NodeRecords(vals[4..], 4, 1) == ([], []);
    assert vals[..3] == [1, 2, 3] && vals[3..4] == [4];
    assert NodeRecords(vals, 4, 1) == (vals[..3] + [], vals[3..4] + []);
    assert NodeRecords(vals, 4, 1).0 == [1, 2, 3];
    assert NodeRecords(vals, 4, 1).1 == [4];
  }

  /** With `maxCatCount` 0 the record length is 4 but the loop as written
      consumes 3 ints per node: twelve ints, three records by `nodeCount`,
      are read as four nodes, the second of them starting at the first
      record's threshold slot. */
  lemma NonCategoricalMisaligned()
    ensures NodeStep(0) == 4 && SubsetSize(0) == 0
    ensures NodesAsWritten([1, 2, 3, 4, 5, 6, 7, 8, 9, 10, 11, 12], SubsetSize(0))
         == Some(([1, 2, 3, 4, 5, 6, 7, 8, 9, 10, 11, 12], []))
  {
    var v := [1, 2, 3, 4, 5, 6, 7, 8, 9, 10, 11, 12];
    var v3 := [4, 5, 6, 7, 8, 9, 10, 11, 12];
    var v6 := [7, 8, 9, 10, 11, 12];
    var v9 := [10, 11, 12];
    assert v[3..] == v3 && v3[3..] == v6 && v6[3..] == v9 && v9[3..] == [];
    assert v[..3] == [1, 2, 3] && v3[..3] == [4, 5, 6] && v6[..3] == [7, 8, 9] && v9[..3] == v9;
    assert NodesAsWritten([], 0) == Some(([], []));
    assert NodesAsWritten(v9, 0).value.0 == v9 && NodesAsWritten(v9, 0).value.1 == [];
    assert NodesAsWritten(v6, 0).value.0 == v6 && NodesAsWritten(v6, 0).value.1 == [];
    assert NodesAsWritten(v3, 0).value.0 == v3 && NodesAsWritten(v3, 0).value.1 == [];
    assert NodesAsWritten(v, 0).value.0 == v && NodesAsWritten(v, 0).value.1 == [];
  }

  /** The same twelve ints read as aligned records: three nodes, each the
      first three ints of its record, the threshold slot skipped. */
  lemma NonCategoricalAligned()
    ensures NodeRecords([1, 2, 3, 4, 5, 6, 7, 8, 9, 10, 11, 12], NodeStep(0), KeptSubset(0))
         == ([1, 2, 3, 5, 6, 7, 9, 10, 11], [])
  {
    var v := [1, 2, 3, 4, 5, 6, 7, 8, 9, 10, 11, 12];
    var w4 := [5, 6, 7, 8, 9, 10, 11, 12];
    var w8 := [9, 10, 11, 12];
    assert v[4..] == w4 && w4[4..] == w8 && w8[4..] == [];
    assert v[..3] == [1, 2, 3] && w8[..3] == [9, 10, 11] && w4[..3] == [5, 6, 7];
    assert NodeRecords([], 4, 0) == ([], []);
    assert NodeRecords(w8, 4, 0).0 == [9, 10, 11] && NodeRecords(w8, 4, 0).1 == [];
    assert NodeRecords(w4, 4, 0).0 == [5, 6, 7, 9, 10, 11] && NodeRecords(w4, 4, 0).1 == [];
    assert NodeRecords(v, 4, 0).0 == [1, 2, 3, 5, 6, 7, 9, 10, 11] && NodeRecords(v, 4, 0).1 == [];
  }

  predicate TreePresent(t: WeakTree) {
    t.internalNodes.Some? && t.leafValues.Some?
  }

  function Join(a: Flat, b: Flat): Flat {
    Flat(a.trees + b.trees, a.nodes + b.nodes, a.leaves + b.leaves, a.subsets + b.subsets)
  }

  lemma JoinAssoc(a: Flat, b: Flat, c: Flat)
    ensures Join(Join(a, b), c) == Join(a, Join(b, c))
  {
    assert (a.trees + b.trees) + c.trees == a.trees + (b.trees + c.trees);
    assert (a.nodes + b.nodes) + c.nodes == a.nodes + (b.nodes + c.nodes);
    assert (a.leaves + b.leaves) + c.leaves == a.leaves + (b.leaves + c.leaves);
    assert (a.subsets + b.subsets) + c.subsets == a.subsets + (b.subsets + c.subsets);
  }

  /** Total number of leaf values of the trees `ts`. */
  function LeafTotal(ts: seq<WeakTree>): nat
    requires forall j :: 0 <= j < |ts| ==> TreePresent(ts[j])
  {
    if |ts| == 0 then 0
    else
      assert TreePresent(ts[0]);
      |ts[0].leafValues.value| + LeafTotal(ts[1..])
  }

  /** What one weak tree adds to the four arrays: its node count, the
      three ints and the bitset of each whole record, and its leaves. */
  function TreeArrays(w: WeakTree, step: nat, keep: nat): Flat
    requires 3 + keep <= step && TreePresent(w)
  {
    var recs := NodeRecords(w.internalNodes.value, step, keep);
    Flat([NodeCount(w.internalNodes.value, step)], recs.0, w.leafValues.value, recs.1)
  }

  /** The four arrays a list of complete trees fills, in push order. */
  function Arrays(ts: seq<WeakTree>, step: nat, keep: nat): Flat
    requires 3 + keep <= step && forall j :: 0 <= j < |ts| ==> TreePresent(ts[j])
  {
    if |ts| == 0 then Flat([], [], [], [])
    else
      assert TreePresent(ts[0]);
      Join(TreeArrays(ts[0], step, keep), Arrays(ts[1..], step, keep))
  }

  /** The weak-tree loop of one stage, in push order. It fails exactly when
      some tree lacks its node or leaf list, and otherwise fills the arrays
      of its trees. */
  function FlattenTrees(ts: seq<WeakTree>, step: nat, keep: nat): (r: Result<Flat, ReadError>)
    requires 3 + keep <= step
    ensures r.Success? <==> forall j :: 0 <= j < |ts| ==> TreePresent(ts[j])
    ensures r.Failure? ==> r.error == MissingNode
    ensures r.Success? ==> r.value == Arrays(ts, step, keep)
  {
    if |ts| == 0 then Success(Flat([], [], [], []))
    else if !TreePresent(ts[0]) then Failure(MissingNode)
    else
      var rest :- FlattenTrees(ts[1..], step, keep);
      Success(Join(TreeArrays(ts[0], step, keep), rest))
  }

  /** One node count per tree, three ints per counted node, and every leaf
      of every tree. */
  lemma {:induction false} ArraysShape(ts: seq<WeakTree>, step: nat, keep: nat)
    requires 3 + keep <= step && forall j :: 0 <= j < |ts| ==> TreePresent(ts[j])
    ensures |Arrays(ts, step, keep).trees| == |ts|
    ensures forall t :: 0 <= t < |ts| ==> Arrays(ts, step, keep).trees[t] == NodeCount(ts[t].internalNodes.value, step)
    ensures |Arrays(ts, step, keep).nodes| == 3 * Sum(Arrays(ts, step, keep).trees)
    ensures |Arrays(ts, step, keep).leaves| == LeafTotal(ts)
    decreases |ts|
  {
    if |ts| > 0 {
      var rest := Arrays(ts[1..], step, keep);
      ArraysShape(ts[1..], step, keep);
      var q := NodeCount(ts[0].internalNodes.value, step);
      assert Arrays(ts, step, keep).trees == [q] + rest.trees;
      forall t | 0 <= t < |ts| ensures Arrays(ts, step, keep).trees[t] == NodeCount(ts[t].internalNodes.value, step) {
        if t > 0 {
          assert ts[1..][t - 1] == ts[t];
        }
      }
    }
  }

  /** One subset bitset of `keep` words per counted node. */
  lemma {:induction false} ArraysSubsets(ts: seq<WeakTree>, step: nat, keep: nat)
    requires 3 + keep <= step && forall j :: 0 <= j < |ts| ==> TreePresent(ts[j])
    ensures |Arrays(ts, step, keep).subsets| == keep * Sum(Arrays(ts, step, keep).trees)
    decreases |ts|
  {
    if |ts| > 0 {
      var rest := Arrays(ts[1..], step, keep);
      ArraysSubsets(ts[1..], step, keep);
      var q := NodeCount(ts[0].internalNodes.value, step);
      assert Arrays(ts, step, keep).trees == [q] + rest.trees;
      NodeRecordsSubsetLength(ts[0].internalNodes.value, step, keep);
      Distrib(keep, q, Sum(rest.trees));
    }
  }

  /** Filling the arrays distributes over concatenation of tree lists. */
  lemma {:induction false} ArraysAppend(a: seq<WeakTree>, b: seq<WeakTree>, step: nat, keep: nat)
    requires 3 + keep <= step
    requires forall j :: 0 <= j < |a| ==> TreePresent(a[j])
    requires forall j :: 0 <= j < |b| ==> TreePresent(b[j])
    ensures forall j :: 0 <= j < |a + b| ==> TreePresent((a + b)[j])
    ensures Arrays(a + b, step, keep) == Join(Arrays(a, step, keep), Arrays(b, step, keep))
    decreases |a|
  {
    if |a| == 0 {
      assert a + b == b;
      assert Join(Flat([], [], [], []), Arrays(b, step, keep)) == Arrays(b, step, keep);
    } else {
      assert (a + b)[1..] == a[1..] + b;
      assert (a + b)[0] == a[0];
      ArraysAppend(a[1..], b, step, keep);
      JoinAssoc(TreeArrays(a[0], step, keep), Arrays(a[1..], step, keep), Arrays(b, step, keep));
    }
  }

  /** Number of counted nodes in the first `t` trees. */
  function NodesBefore(ts: seq<WeakTree>, step: nat, t: int): nat
    requires step > 0 && 0 <= t <= |ts|
    requires forall j :: 0 <= j < |ts| ==> TreePresent(ts[j])
    decreases t
  {
    if t == 0 then 0
    else
      assert TreePresent(ts[0]);
      NodeCount(ts[0].internalNodes.value, step) + NodesBefore(ts[1..], step, t - 1)
  }

  /** The nodes before tree `t` are the node counts of `trees[..t]`. */
  lemma {:induction false} NodesBeforeSum(ts: seq<WeakTree>, step: nat, keep: nat, t: int)
    requires 3 + keep <= step && 0 <= t <= |ts|
    requires forall j :: 0 <= j < |ts| ==> TreePresent(ts[j])
    ensures |Arrays(ts, step, keep).trees| == |ts|
    ensures NodesBefore(ts, step, t) == Sum(Arrays(ts, step, keep).trees[..t])
    decreases t
  {
    ArraysShape(ts, step, keep);
    var f := Arrays(ts, step, keep);
    if t == 0 {
      assert f.trees[..0] == [];
    } else {
      var rest := Arrays(ts[1..], step, keep);
      NodesBeforeSum(ts[1..], step, keep, t - 1);
      assert f.trees[..t] == [f.trees[0]] + rest.trees[..t - 1];
      SumAppend([f.trees[0]], rest.trees[..t - 1]);
    }
  }

  /** The node part of tree `t` is stored after the nodes of the earlier
      trees, three ints per node. */
  lemma {:induction false} ArraysNodesAt(ts: seq<WeakTree>, step: nat, keep: nat, t: int, i: int)
    requires 3 + keep <= step && forall j :: 0 <= j < |ts| ==> TreePresent(ts[j])
    requires 0 <= t < |ts| && TreePresent(ts[t]) && 0 <= i < |NodeRecords(ts[t].internalNodes.value, step, keep).0|
    ensures 3 * NodesBefore(ts, step, t) + i < |Arrays(ts, step, keep).nodes|
    ensures Arrays(ts, step, keep).nodes[3 * NodesBefore(ts, step, t) + i]
         == NodeRecords(ts[t].internalNodes.value, step, keep).0[i]
    decreases t
  {
    if t > 0 {
      assert ts[1..][t - 1] == ts[t];
      ArraysNodesAt(ts[1..], step, keep, t - 1, i);
    }
  }

  /** Number of subset words of the first `t` trees. */
  function SubsetsBefore(ts: seq<WeakTree>, step: nat, keep: nat, t: int): nat
    requires 3 + keep <= step && 0 <= t <= |ts|
    requires forall j :: 0 <= j < |ts| ==> TreePresent(ts[j])
    decreases t
  {
    if t == 0 then 0
    else
      assert TreePresent(ts[0]);
      |NodeRecords(ts[0].internalNodes.value, step, keep).1| + SubsetsBefore(ts[1..], step, keep, t - 1)
  }

  /** The trees before `t` hold `keep` words per counted node. */
  lemma {:induction false} SubsetsBeforeNodes(ts: seq<WeakTree>, step: nat, keep: nat, t: int)
    requires 3 + keep <= step && 0 <= t <= |ts|
    requires forall j :: 0 <= j < |ts| ==> TreePresent(ts[j])
    ensures SubsetsBefore(ts, step, keep, t) == keep * NodesBefore(ts, step, t)
    decreases t
  {
    if t > 0 {
      assert TreePresent(ts[0]);
      SubsetsBeforeNodes(ts[1..], step, keep, t - 1);
      NodeRecordsSubsetLength(ts[0].internalNodes.value, step, keep);
      Distrib(keep, NodeCount(ts[0].internalNodes.value, step), NodesBefore(ts[1..], step, t - 1));
    }
  }

  /** The subset part of tree `t` is stored after the subset words of the
      earlier trees. */
  lemma {:induction false} ArraysSubsetsAt(ts: seq<WeakTree>, step: nat, keep: nat, t: int, i: int)
    requires 3 + keep <= step && forall j :: 0 <= j < |ts| ==> TreePresent(ts[j])
    requires 0 <= t < |ts| && TreePresent(ts[t]) && 0 <= i < |NodeRecords(ts[t].internalNodes.value, step, keep).1|
    ensures SubsetsBefore(ts, step, keep, t) + i < |Arrays(ts, step, keep).subsets|
    ensures Arrays(ts, step, keep).subsets[SubsetsBefore(ts, step, keep, t) + i]
         == NodeRecords(ts[t].internalNodes.value, step, keep).1[i]
    decreases t
  {
    if t > 0 {
      assert ts[1..][t - 1] == ts[t];
      ArraysSubsetsAt(ts[1..], step, keep, t - 1, i);
    }
  }

  /** Leaf `i` of tree `t` follows the leaves of the earlier trees. */
  lemma {:induction false} ArraysLeavesAt(ts: seq<WeakTree>, step: nat, keep: nat, t: int, i: int)
    requires 3 + keep <= step && forall j :: 0 <= j < |ts| ==> TreePresent(ts[j])
    requires 0 <= t < |ts| && TreePresent(ts[t]) && 0 <= i < |ts[t].leafValues.value|
    ensures LeafTotal(ts[..t]) + i < |Arrays(ts, step, keep).leaves|
    ensures Arrays(ts, step, keep).leaves[LeafTotal(ts[..t]) + i] == ts[t].leafValues.value[i]
    decreases t
  {
    var rest := Arrays(ts[1..], step, keep);
    assert Arrays(ts, step, keep).leaves == ts[0].leafValues.value + rest.leaves;
    if t > 0 {
      ArraysLeavesAt(ts[1..], step, keep, t - 1, i);
      assert ts[..t][1..] == ts[1..][..t - 1];
    } else {
      assert ts[..0] == [];
    }
  }

  predicate StagesPresent(ss: seq<StageNode>) {
    forall s :: 0 <= s < |ss| ==> ss[s].weakClassifiers.Some?
  }

  /** Every tree of every stage, in stage order. */
  function AllTrees(ss: seq<StageNode>): seq<WeakTree>
    requires StagesPresent(ss)
  {
    if |ss| == 0 then [] else ss[0].weakClassifiers.value + AllTrees(ss[1..])
  }

  /** Number of trees in the stages `ss`. */
  function TreeTotal(ss: seq<StageNode>): nat
    requires StagesPresent(ss)
  {
    if |ss| == 0 then 0 else |ss[0].weakClassifiers.value| + TreeTotal(ss[1..])
  }

  /** Every stage has its weak classifiers and every tree its nodes and leaves. */
  predicate StagesComplete(ss: seq<StageNode>) {
    StagesPresent(ss) && forall t :: 0 <= t < |AllTrees(ss)| ==> TreePresent(AllTrees(ss)[t])
  }

  /** The stage loop: each stage records where its trees start in `cl_trees`
      (`first` counts the trees of earlier stages) and how many it has. */
  function FlattenStages(ss: seq<StageNode>, first: int, step: nat, keep: nat): (r: Result<(seq<Stage>, Flat), ReadError>)
    requires 3 + keep <= step
    ensures r.Failure? ==> r.error == MissingNode
    ensures r.Success? ==> |r.value.0| == |ss|
  {
    if |ss| == 0 then Success(([], Flat([], [], [], [])))
    else if ss[0].weakClassifiers.None? then Failure(MissingNode)
    else
      var ts := ss[0].weakClassifiers.value;
      var head :- FlattenTrees(ts, step, keep);
      var rest :- FlattenStages(ss[1..], first + |ts|, step, keep);
      Success(([Stage(first, |ts|, ss[0].stageThreshold - ThresholdEps)] + rest.0, Join(head, rest.1)))
  }

  lemma {:induction false} AllTreesSplit(ss: seq<StageNode>, t: int)
    requires StagesPresent(ss) && |ss| > 0 && 0 <= t < |AllTrees(ss)|
    ensures t < |ss[0].weakClassifiers.value| ==> AllTrees(ss)[t] == ss[0].weakClassifiers.value[t]
    ensures t >= |ss[0].weakClassifiers.value| ==> AllTrees(ss)[t] == AllTrees(ss[1..])[t - |ss[0].weakClassifiers.value|]
  {
  }

  /** The stage loop succeeds exactly when every section it visits is
      present, and its tree arrays are those of all trees in stage order. */
  lemma {:induction false} FlattenStagesTrees(ss: seq<StageNode>, first: int, step: nat, keep: nat)
    requires 3 + keep <= step
    ensures FlattenStages(ss, first, step, keep).Success? <==> StagesComplete(ss)
    ensures FlattenStages(ss, first, step, keep).Success?
        ==> FlattenStages(ss, first, step, keep).value.1 == Arrays(AllTrees(ss), step, keep)
    decreases |ss|
  {
    if |ss| > 0 && ss[0].weakClassifiers.Some? {
      var ts := ss[0].weakClassifiers.value;
      FlattenStagesTrees(ss[1..], first + |ts|, step, keep);
      var headOk := forall t :: 0 <= t < |ts| ==> TreePresent(ts[t]);
      if StagesPresent(ss) {
        assert StagesPresent(ss[1..]) by {
          forall s | 0 <= s < |ss[1..]| ensures ss[1..][s].weakClassifiers.Some? {
            assert ss[1..][s] == ss[s + 1];
          }
        }
        forall t | 0 <= t < |AllTrees(ss)|
          ensures AllTrees(ss)[t] == (if t < |ts| then ts[t] else AllTrees(ss[1..])[t - |ts|])
        {
          AllTreesSplit(ss, t);
        }
        if StagesComplete(ss) {
          assert headOk && StagesComplete(ss[1..]) by {
            forall t | 0 <= t < |ts| ensures TreePresent(ts[t]) {
              AllTreesSplit(ss, t);
            }
            forall t | 0 <= t < |AllTrees(ss[1..])| ensures TreePresent(AllTrees(ss[1..])[t]) {
              AllTreesSplit(ss, t + |ts|);
            }
          }
          ArraysAppend(ts, AllTrees(ss[1..]), step, keep);
        }
      } else {
        var s :| 0 <= s < |ss| && ss[s].weakClassifiers.None?;
        assert s > 0 && ss[1..][s - 1] == ss[s];
      }
    } else if |ss| > 0 {
      assert !StagesPresent(ss);
    }
  }

  lemma {:induction false} FlattenStagesPresent(ss: seq<StageNode>, first: int, step: nat, keep: nat)
    requires 3 + keep <= step && FlattenStages(ss, first, step, keep).Success?
    ensures StagesPresent(ss)
    decreases |ss|
  {
    if |ss| > 0 {
      FlattenStagesPresent(ss[1..], first + |ss[0].weakClassifiers.value|, step, keep);
      forall s | 0 <= s < |ss| ensures ss[s].weakClassifiers.Some? {
        if s > 0 {
          assert ss[1..][s - 1] == ss[s];
        }
      }
    }
  }

  lemma PresentPrefix(ss: seq<StageNode>, i: int)
    requires StagesPresent(ss) && 0 <= i <= |ss|
    ensures StagesPresent(ss[..i])
  {
    var pre := ss[..i];
    forall s | 0 <= s < |pre| ensures pre[s].weakClassifiers.Some? {
      assert pre[s] == ss[s];
    }
  }

  /** Stage `i` starts after the trees of the first `i` stages. */
  lemma {:induction false} StageFirst(ss: seq<StageNode>, first: int, step: nat, keep: nat, i: int)
    requires 3 + keep <= step && FlattenStages(ss, first, step, keep).Success? && 0 <= i < |ss|
    ensures StagesPresent(ss) && StagesPresent(ss[..i])
    ensures FlattenStages(ss, first, step, keep).value.0[i]
         == Stage(first + TreeTotal(ss[..i]), |ss[i].weakClassifiers.value|, ss[i].stageThreshold - ThresholdEps)
    decreases i
  {
    FlattenStagesPresent(ss, first, step, keep);
    PresentPrefix(ss, i);
    var ts := ss[0].weakClassifiers.value;
    var rest := FlattenStages(ss[1..], first + |ts|, step, keep);
    assert rest.Success?;
    assert FlattenStages(ss, first, step, keep).value.0 == [Stage(first, |ts|, ss[0].stageThreshold - ThresholdEps)] + rest.value.0;
    if i == 0 {
      assert ss[..0] == [];
    } else {
      StageFirst(ss[1..], first + |ts|, step, keep, i - 1);
      assert ss[..i][1..] == ss[1..][..i - 1];
      assert ss[1..][i - 1] == ss[i];
    }
  }

  /** Stage `i + 1` starts where stage `i` ends, and the last stage ends at
      the number of trees: the stages partition the tree list in order. */
  lemma {:induction false} StagesPartitionTrees(ss: seq<StageNode>, step: nat, keep: nat)
    requires 3 + keep <= step && FlattenStages(ss, 0, step, keep).Success?
    ensures StagesPresent(ss)
    ensures |ss| > 0 ==> FlattenStages(ss, 0, step, keep).value.0[0].first == 0
    ensures forall i :: 0 <= i < |ss| - 1 ==>
      FlattenStages(ss, 0, step, keep).value.0[i + 1].first
        == FlattenStages(ss, 0, step, keep).value.0[i].first + FlattenStages(ss, 0, step, keep).value.0[i].ntrees
    ensures |ss| > 0 ==>
      FlattenStages(ss, 0, step, keep).value.0[|ss| - 1].first + FlattenStages(ss, 0, step, keep).value.0[|ss| - 1].ntrees
        == |FlattenStages(ss, 0, step, keep).value.1.trees|
  {
    var st := FlattenStages(ss, 0, step, keep).value.0;
    FlattenStagesTrees(ss, 0, step, keep);
    forall i | 0 <= i < |ss| - 1
      ensures st[i + 1].first == st[i].first + st[i].ntrees
    {
      StageFirst(ss, 0, step, keep, i);
      StageFirst(ss, 0, step, keep, i + 1);
      TreeTotalSnoc(ss, i);
    }
    if |ss| > 0 {
      StageFirst(ss, 0, step, keep, 0);
      StageFirst(ss, 0, step, keep, |ss| - 1);
      TreeTotalSnoc(ss, |ss| - 1);
      assert ss[..|ss|] == ss;
      AllTreesCount(ss);
      ArraysShape(AllTrees(ss), step, keep);
    }
  }

  lemma {:induction false} TreeTotalSnoc(ss: seq<StageNode>, i: int)
    requires StagesPresent(ss) && 0 <= i < |ss|
    ensures StagesPresent(ss[..i]) && StagesPresent(ss[..i + 1])
    ensures TreeTotal(ss[..i + 1]) == TreeTotal(ss[..i]) + |ss[i].weakClassifiers.value|
    decreases i
  {
    var pre := ss[..i + 1];
    assert StagesPresent(pre) by {
      forall s | 0 <= s < |pre| ensures pre[s].weakClassifiers.Some? {
        assert pre[s] == ss[s];
      }
    }
    assert StagesPresent(ss[..i]) by {
      forall s | 0 <= s < i ensures ss[..i][s].weakClassifiers.Some? {
        assert ss[..i][s] == ss[s];
      }
    }
    if i > 0 {
      TreeTotalSnoc(ss[1..], i - 1);
      assert ss[..i + 1][1..] == ss[1..][..i];
      assert ss[..i][1..] == ss[1..][..i - 1];
      assert ss[1..][i - 1] == ss[i];
    }
  }

  lemma {:induction false} AllTreesCount(ss: seq<StageNode>)
    requires StagesPresent(ss)
    ensures |AllTrees(ss)| == TreeTotal(ss)
  {
    if |ss| > 0 {
      assert StagesPresent(ss[1..]) by {
        forall s | 0 <= s < |ss[1..]| ensures ss[1..][s].weakClassifiers.Some? {
          assert ss[1..][s] == ss[s + 1];
        }
      }
      AllTreesCount(ss[1..]);
    }
  }

  /** The feature loop: four saturated bytes per rectangle. */
  function FeatureBytes(rs: seq<Rect>): (r: seq<int>)
    ensures |r| == 4 * |rs|
    ensures forall i :: 0 <= i < |r| ==> 0 <= r[i] <= 255
  {
    if |rs| == 0 then []
    else [SaturateByte(rs[0].x), SaturateByte(rs[0].y), SaturateByte(rs[0].width), SaturateByte(rs[0].height)]
         + FeatureBytes(rs[1..])
  }

  /** Rectangle `i` is bytes `4i .. 4i+3`, in field order. */
  lemma {:induction false} FeatureBytesAt(rs: seq<Rect>, i: int)
    requires 0 <= i < |rs|
    ensures FeatureBytes(rs)[4 * i] == SaturateByte(rs[i].x)
    ensures FeatureBytes(rs)[4 * i + 1] == SaturateByte(rs[i].y)
    ensures FeatureBytes(rs)[4 * i + 2] == SaturateByte(rs[i].width)
    ensures FeatureBytes(rs)[4 * i + 3] == SaturateByte(rs[i].height)
  {
    if i > 0 {
      FeatureBytesAt(rs[1..], i - 1);
    }
  }

  /** `CascadeClassifier_GPU_LBP::read`. Checks come in the source's order:
      the asserted header fields, then the sections, the stages and trees in
      file order, and the features last. */
  function Read(root: CascadeNode): (r: Result<LbpCascade, ReadError>)
    ensures r.Success? ==> r.value.width > 0 && r.value.height > 0
    ensures r.Success? ==> root.features.Some? && |r.value.features| == 4 * |root.features.value|
  {
    if root.stageType != "BOOST" then Failure(WrongStageType)
    else if root.featureType != "LBP" then Failure(WrongFeatureType)
    else if !(root.height > 0 && root.width > 0) then Failure(BadWindowSize)
    else if root.maxDepth != 1 then Failure(NotStumps)
    else if root.maxCatCount.None? || root.stages.None? then Failure(MissingNode)
    else
      var ncat := root.maxCatCount.value;
      var staged :- FlattenStages(root.stages.value, 0, NodeStep(ncat), KeptSubset(ncat));
      if root.features.None? then Failure(MissingNode)
      else
        Success(LbpCascade(root.width, root.height, ncat, SubsetSize(ncat), NodeStep(ncat),
                           staged.0, staged.1.trees, staged.1.nodes, staged.1.leaves, staged.1.subsets,
                           FeatureBytes(root.features.value)))
  }

  /** The header checks `read` asserts. */
  predicate HeaderValid(root: CascadeNode) {
    root.stageType == "BOOST" && root.featureType == "LBP"
    && root.width > 0 && root.height > 0 && root.maxDepth == 1
  }

  /** `read` loads a cascade exactly when the header is valid and no section
      it visits is missing; a bad header is reported as its own assertion,
      the first failing one in source order. */
  lemma ReadSucceedsIff(root: CascadeNode)
    ensures Read(root).Success? <==>
      HeaderValid(root) && root.maxCatCount.Some? && root.stages.Some?
      && StagesComplete(root.stages.value) && root.features.Some?
    ensures Read(root) == Failure(WrongStageType) <==> root.stageType != "BOOST"
    ensures Read(root) == Failure(NotStumps) <==>
      root.stageType == "BOOST" && root.featureType == "LBP"
      && root.width > 0 && root.height > 0 && root.maxDepth != 1
    ensures Read(root).Failure? && !HeaderValid(root) ==> Read(root).error != MissingNode
  {
    if HeaderValid(root) && root.maxCatCount.Some? && root.stages.Some? {
      var ncat := root.maxCatCount.value;
      FlattenStagesTrees(root.stages.value, 0, NodeStep(ncat), KeptSubset(ncat));
    }
  }

  /** What a loaded cascade is made of: the stage loop's stages, the tree
      arrays of all trees in stage order, and the feature bytes. */
  lemma ReadParts(root: CascadeNode, c: LbpCascade)
    requires Read(root) == Success(c)
    ensures HeaderValid(root) && root.maxCatCount.Some? && root.stages.Some? && root.features.Some?
    ensures StagesComplete(root.stages.value)
    ensures c.ncategories == root.maxCatCount.value && c.nodeStep == NodeStep(c.ncategories)
    ensures c.subsetSize == SubsetSize(c.ncategories)
    ensures FlattenStages(root.stages.value, 0, c.nodeStep, KeptSubset(c.ncategories)).Success?
    ensures c.stages == FlattenStages(root.stages.value, 0, c.nodeStep, KeptSubset(c.ncategories)).value.0
    ensures Flat(c.trees, c.nodes, c.leaves, c.subsets)
         == Arrays(AllTrees(root.stages.value), c.nodeStep, KeptSubset(c.ncategories))
    ensures c.features == FeatureBytes(root.features.value)
  {
    var ncat := root.maxCatCount.value;
    FlattenStagesTrees(root.stages.value, 0, NodeStep(ncat), KeptSubset(ncat));
  }

  /** The tree arrays of a loaded cascade are those of all trees of the
      file in stage order. */
  lemma ReadTrees(root: CascadeNode, c: LbpCascade)
    requires Read(root) == Success(c)
    ensures root.stages.Some? && StagesComplete(root.stages.value)
    ensures c.nodeStep == NodeStep(c.ncategories)
    ensures c.subsetSize > 0 ==> KeptSubset(c.ncategories) == c.subsetSize
    ensures Flat(c.trees, c.nodes, c.leaves, c.subsets)
         == Arrays(AllTrees(root.stages.value), c.nodeStep, KeptSubset(c.ncategories))
  {
    ReadParts(root, c);
  }

  /** The tree arrays of a loaded cascade: one node count per tree of the
      file, `internalNodes.size() / nodeStep` in C division, and three ints
      and one bitset per counted node. */
  lemma ReadTreeCounts(root: CascadeNode, c: LbpCascade)
    requires Read(root) == Success(c)
    ensures root.stages.Some? && StagesComplete(root.stages.value)
    ensures |c.trees| == |AllTrees(root.stages.value)| && c.nodeStep > 0
    ensures forall t :: 0 <= t < |c.trees| ==>
      c.trees[t] == TruncDiv(|AllTrees(root.stages.value)[t].internalNodes.value|, c.nodeStep)
    ensures |c.nodes| == 3 * Sum(c.trees)
    ensures |c.subsets| == KeptSubset(c.ncategories) * Sum(c.trees)
  {
    ReadTrees(root, c);
    var ts := AllTrees(root.stages.value);
    ArraysShape(ts, c.nodeStep, KeptSubset(c.ncategories));
    ArraysSubsets(ts, c.nodeStep, KeptSubset(c.ncategories));
    forall t | 0 <= t < |c.trees|
      ensures c.trees[t] == TruncDiv(|ts[t].internalNodes.value|, c.nodeStep)
    {
      NodeCountIsQuotient(ts[t].internalNodes.value, c.nodeStep);
    }
  }

  /** The stages of a loaded cascade: one per stage of the file, each with
      its tree count and its threshold less the epsilon, partitioning the
      tree list in order. */
  lemma ReadStages(root: CascadeNode, c: LbpCascade)
    requires Read(root) == Success(c)
    ensures root.stages.Some? && StagesPresent(root.stages.value)
    ensures |c.stages| == |root.stages.value|
    ensures forall i :: 0 <= i < |c.stages| ==>
      c.stages[i].ntrees == |root.stages.value[i].weakClassifiers.value|
      && c.stages[i].threshold == root.stages.value[i].stageThreshold - ThresholdEps
    ensures |c.stages| > 0 ==> c.stages[0].first == 0
    ensures |c.stages| > 0 ==> c.stages[|c.stages| - 1].first + c.stages[|c.stages| - 1].ntrees == |c.trees|
    ensures forall i :: 0 <= i < |c.stages| - 1 ==> c.stages[i + 1].first == c.stages[i].first + c.stages[i].ntrees
  {
    ReadParts(root, c);
    var ss := root.stages.value;
    var step := c.nodeStep;
    var keep := KeptSubset(c.ncategories);
    StagesPartitionTrees(ss, step, keep);
    forall i | 0 <= i < |ss|
      ensures c.stages[i].ntrees == |ss[i].weakClassifiers.value|
      ensures c.stages[i].threshold == ss[i].stageThreshold - ThresholdEps
    {
      StageFirst(ss, 0, step, keep, i);
    }
  }

  /** Node `n` of tree `t` of a list of complete trees has its three ints
      at node index `Sum(trees[..t]) + n`. */
  lemma ArraysNodeAt(ts: seq<WeakTree>, step: nat, keep: nat, t: int, n: int, k: int)
    requires 3 + keep <= step && forall j :: 0 <= j < |ts| ==> TreePresent(ts[j])
    requires 0 <= t < |ts| && TreePresent(ts[t]) && 0 <= n < NodeCount(ts[t].internalNodes.value, step) && 0 <= k < 3
    ensures |Arrays(ts, step, keep).trees| == |ts|
    ensures 0 <= step * n && step * n + step <= |ts[t].internalNodes.value|
    ensures 0 <= 3 * (Sum(Arrays(ts, step, keep).trees[..t]) + n) + k < |Arrays(ts, step, keep).nodes|
    ensures Arrays(ts, step, keep).nodes[3 * (Sum(Arrays(ts, step, keep).trees[..t]) + n) + k]
         == ts[t].internalNodes.value[step * n + k]
  {
    NodesBeforeSum(ts, step, keep, t);
    NodeRecordsNodeAt(ts[t].internalNodes.value, step, keep, n, k);
    ArraysNodesAt(ts, step, keep, t, 3 * n + k);
  }

  /** Word `k` of the bitset of node `n` of tree `t` of a list of complete
      trees is at subset index `keep * (Sum(trees[..t]) + n) + k`. */
  lemma ArraysSubsetAt(ts: seq<WeakTree>, step: nat, keep: nat, t: int, n: int, k: int)
    requires 3 + keep <= step && forall j :: 0 <= j < |ts| ==> TreePresent(ts[j])
    requires 0 <= t < |ts| && TreePresent(ts[t]) && 0 <= n < NodeCount(ts[t].internalNodes.value, step) && 0 <= k < keep
    ensures |Arrays(ts, step, keep).trees| == |ts|
    ensures 0 <= step * n && step * n + step <= |ts[t].internalNodes.value|
    ensures 0 <= keep * (Sum(Arrays(ts, step, keep).trees[..t]) + n) + k < |Arrays(ts, step, keep).subsets|
    ensures Arrays(ts, step, keep).subsets[keep * (Sum(Arrays(ts, step, keep).trees[..t]) + n) + k]
         == ts[t].internalNodes.value[step * n + 3 + k]
  {
    NodesBeforeSum(ts, step, keep, t);
    SubsetsBeforeNodes(ts, step, keep, t);
    NodeRecordsSubsetAt(ts[t].internalNodes.value, step, keep, n, k);
    ArraysSubsetsAt(ts, step, keep, t, keep * n + k);
    Distrib(keep, NodesBefore(ts, step, t), n);
  }

  /** Node `n` of tree `t` (counting trees over all stages) is the `n`-th
      record of that tree's node list: its first three ints are stored at
      node index `Sum(trees[..t]) + n`. */
  lemma ReadNodeAt(root: CascadeNode, c: LbpCascade, t: int, n: int, k: int)
    requires Read(root) == Success(c) && 0 <= t < |c.trees| && 0 <= n < c.trees[t] && 0 <= k < 3
    ensures root.stages.Some? && StagesComplete(root.stages.value)
    ensures |c.trees| == |AllTrees(root.stages.value)| && c.nodeStep > 0
    ensures 0 <= c.nodeStep * n && c.nodeStep * n + c.nodeStep <= |AllTrees(root.stages.value)[t].internalNodes.value|
    ensures 0 <= 3 * (Sum(c.trees[..t]) + n) + k < |c.nodes|
    ensures c.nodes[3 * (Sum(c.trees[..t]) + n) + k]
         == AllTrees(root.stages.value)[t].internalNodes.value[c.nodeStep * n + k]
  {
    ReadTrees(root, c);
    var ts := AllTrees(root.stages.value);
    ArraysShape(ts, c.nodeStep, KeptSubset(c.ncategories));
    ArraysNodeAt(ts, c.nodeStep, KeptSubset(c.ncategories), t, n, k);
  }

  /** `ArraysSubsetAt` for arrays already known to be `Arrays(ts, step, keep)`,
      indexed by the stored node count of tree `t`. */
  lemma FlatSubsetAt(ts: seq<WeakTree>, step: nat, keep: nat, f: Flat, t: int, n: int, k: int)
    requires 3 + keep <= step && forall j :: 0 <= j < |ts| ==> TreePresent(ts[j])
    requires f == Arrays(ts, step, keep)
    requires 0 <= t < |f.trees| && 0 <= n < f.trees[t] && 0 <= k < keep
    ensures |f.trees| == |ts| && TreePresent(ts[t])
    ensures 0 <= step * n && step * n + step <= |ts[t].internalNodes.value|
    ensures 0 <= keep * (Sum(f.trees[..t]) + n) + k < |f.subsets|
    ensures f.subsets[keep * (Sum(f.trees[..t]) + n) + k] == ts[t].internalNodes.value[step * n + 3 + k]
  {
    ArraysShape(ts, step, keep);
    ArraysSubsetAt(ts, step, keep, t, n, k);
  }

  /** The bitset of node `n` of tree `t` follows the node's three ints in
      its record and is stored at word `subsetSize * (Sum(trees[..t]) + n)`
      of `subsets`. */
  lemma ReadSubsetAt(root: CascadeNode, c: LbpCascade, t: int, n: int, k: int)
    requires Read(root) == Success(c) && 0 <= t < |c.trees| && 0 <= n < c.trees[t]
    requires 0 <= k < c.subsetSize
    ensures root.stages.Some? && StagesComplete(root.stages.value)
    ensures |c.trees| == |AllTrees(root.stages.value)| && c.nodeStep > 0
    ensures 0 <= c.nodeStep * n && c.nodeStep * n + c.nodeStep <= |AllTrees(root.stages.value)[t].internalNodes.value|
    ensures 0 <= c.subsetSize * (Sum(c.trees[..t]) + n) + k < |c.subsets|
    ensures c.subsets[c.subsetSize * (Sum(c.trees[..t]) + n) + k]
         == AllTrees(root.stages.value)[t].internalNodes.value[c.nodeStep * n + 3 + k]
  {
    ReadTrees(root, c);
    var ts := AllTrees(root.stages.value);
    FlatSubsetAt(ts, c.nodeStep, c.subsetSize, Flat(c.trees, c.nodes, c.leaves, c.subsets), t, n, k);
  }

  /** Leaf `i` of tree `t` is stored after the leaves of all earlier trees. */
  lemma ReadLeafAt(root: CascadeNode, c: LbpCascade, t: int, i: int)
    requires Read(root) == Success(c)
    requires root.stages.Some? && StagesComplete(root.stages.value)
    requires 0 <= t < |AllTrees(root.stages.value)| && 0 <= i < |AllTrees(root.stages.value)[t].leafValues.value|
    ensures LeafTotal(AllTrees(root.stages.value)[..t]) + i < |c.leaves|
    ensures c.leaves[LeafTotal(AllTrees(root.stages.value)[..t]) + i] == AllTrees(root.stages.value)[t].leafValues.value[i]
  {
    ReadTrees(root, c);
    ArraysLeavesAt(AllTrees(root.stages.value), c.nodeStep, KeptSubset(c.ncategories), t, i);
  }

  /** Feature `i` of the file is bytes `4i .. 4i+3` of the loaded cascade. */
  lemma ReadFeatureAt(root: CascadeNode, c: LbpCascade, i: int)
    requires Read(root) == Success(c) && root.features.Some? && 0 <= i < |root.features.value|
    ensures 4 * i + 3 < |c.features|
    ensures c.features[4 * i] == SaturateByte(root.features.value[i].x)
    ensures c.features[4 * i + 1] == SaturateByte(root.features.value[i].y)
    ensures c.features[4 * i + 2] == SaturateByte(root.features.value[i].width)
    ensures c.features[4 * i + 3] == SaturateByte(root.features.value[i].height)
  {
    ReadParts(root, c);
    FeatureBytesAt(root.features.value, i);
  }
}

=== FILE: pyramid.dfy ===
/** Pyramid planning for the LBP cascade detector: the integer `Size`
    operators, the geometry of one pyramid level (`PyrLavel`), the loop that
    packs consecutive levels side by side into one integral-image buffer.

    The scale of a level is `pow(scaleFactor, order)` and the scaled sizes
    are rounded with `cvRound`; that floating-point part is abstracted: each
    level is given by its already rounded frame and window sizes and by
    whether its scale is at most 2. */
module Pyramid {
  import opened Wrappers

  /** `cv::Size`: a width and a height, both C `int`. */
  datatype Size = Size(width: int, height: int)

  /** `operator -` on two sizes: componentwise difference. */
  function Sub(a: Size, b: Size): (r: Size)
    ensures Size(r.width + b.width, r.height + b.height) == a
  {
    Size(a.width - b.width, a.height - b.height)
  }

  /** `operator +` of a size and an int: adds the int to both components. */
  function AddScalar(a: Size, i: int): (r: Size)
    ensures Sub(r, Size(i, i)) == a
  {
    Size(a.width + i, a.height + i)
  }

  /** `operator <=` as the code has it: the height of `a` is compared with
      the WIDTH of `b`. */
  predicate LeAsWritten(a: Size, b: Size) {
    a.width <= b.width && a.height <= b.width
  }

  /** The evidently intended `operator <=`: `a` fits inside `b`. */
  predicate Le(a: Size, b: Size) {
    a.width <= b.width && a.height <= b.height
  }

  /** The corrected comparison is a partial order on sizes, and says exactly
      that the difference `b - a` has no negative component. */
  lemma LeIsPartialOrder(a: Size, b: Size, c: Size)
    ensures Le(a, a)
    ensures Le(a, b) && Le(b, a) ==> a == b
    ensures Le(a, b) && Le(b, c) ==> Le(a, c)
    ensures Le(a, b) <==> Sub(b, a).width >= 0 && Sub(b, a).height >= 0
  {
  }

  /** The comparison as written is not even reflexive, and it lets a window
      30 pixels tall pass a maximum object size only 20 pixels tall. */
  lemma LeAsWrittenCounterexample()
    ensures !LeAsWritten(Size(10, 30), Size(10, 30)) && Le(Size(10, 30), Size(10, 30))
    ensures LeAsWritten(Size(10, 30), Size(40, 20)) && !Le(Size(10, 30), Size(40, 20))
  {
  }

  /** The two comparisons agree whenever the bound is square. */
  lemma LeAgreesOnSquareBound(a: Size, b: Size)
    requires b.width == b.height
    ensures LeAsWritten(a, b) <==> Le(a, b)
  {
  }

  /** One pyramid level: the scaled frame `sFrame = frame / scale`, the
      scaled window `sWindow = window * scale`, and whether `scale <= 2`. */
  datatype Level = Level(sFrame: Size, sWindow: Size, smallScale: bool)

  /** `workArea = sFrame - window + 1`: the number of window origins per
      axis at which the unscaled window fits inside the scaled frame. */
  function WorkArea(sFrame: Size, window: Size): Size {
    AddScalar(Sub(sFrame, window), 1)
  }

  /** An x (or y) is a window origin inside the scaled frame exactly when it
      lies in `[0, workArea)`. */
  lemma WorkAreaCountsOrigins(sFrame: Size, window: Size, x: int, y: int)
    ensures 0 <= x < WorkArea(sFrame, window).width <==> 0 <= x && x + window.width <= sFrame.width
    ensures 0 <= y < WorkArea(sFrame, window).height <==> 0 <= y && y + window.height <= sFrame.height
  {
  }

  /** `isFeasible` with the corrected comparison: the work area is not empty
      and the scaled window does not exceed the largest object sought. */
  predicate Feasible(l: Level, window: Size, maxObj: Size) {
    WorkArea(l.sFrame, window).width > 0 && WorkArea(l.sFrame, window).height > 0 && Le(l.sWindow, maxObj)
  }

  /** `isFeasible` as written, with `LeAsWritten`. */
  predicate FeasibleAsWritten(l: Level, window: Size, maxObj: Size) {
    WorkArea(l.sFrame, window).width > 0 && WorkArea(l.sFrame, window).height > 0 && LeAsWritten(l.sWindow, maxObj)
  }

  /** A level is feasible exactly when the window fits in the scaled frame
      and the scaled window fits in the largest object size. */
  lemma FeasibleIff(l: Level, window: Size, maxObj: Size)
    ensures Feasible(l, window, maxObj) <==> Le(window, l.sFrame) && Le(l.sWindow, maxObj)
  {
  }

  /** As written, a level whose scaled window is taller than the largest
      object size is still scanned. */
  lemma FeasibleAsWrittenScansTallWindow()
    ensures FeasibleAsWritten(Level(Size(100, 100), Size(10, 30), true), Size(5, 15), Size(40, 20))
    ensures !Feasible(Level(Size(100, 100), Size(10, 30), true), Size(5, 15), Size(40, 20))
  {
  }

  /** The test the detector's loops apply: `isFeasible` as written when
      `asWritten`, the corrected one otherwise. */
  predicate IsFeasible(l: Level, window: Size, maxObj: Size, asWritten: bool) {
    if asWritten then FeasibleAsWritten(l, window, maxObj) else Feasible(l, window, maxObj)
  }

  /** Either test needs a non-empty work area, and the two agree whenever
      the largest object size is square. */
  lemma IsFeasibleWorkArea(l: Level, window: Size, maxObj: Size, asWritten: bool)
    ensures IsFeasible(l, window, maxObj, asWritten) ==>
      WorkArea(l.sFrame, window).width > 0 && WorkArea(l.sFrame, window).height > 0
    ensures maxObj.width == maxObj.height ==>
      (IsFeasible(l, window, maxObj, true) <==> IsFeasible(l, window, maxObj, false))
  {
    if maxObj.width == maxObj.height {
      LeAgreesOnSquareBound(l.sWindow, maxObj);
    }
  }

  /** An empty `maxObjectSize` (the default `cv::Size()`) stands for the
      whole image. */
  function DefaultMaxObject(maxObjectSize: Size, image: Size): (r: Size)
    ensures maxObjectSize != Size(0, 0) ==> r == maxObjectSize
    ensures maxObjectSize == Size(0, 0) ==> Le(r, image) && Le(image, r)
  {
    if maxObjectSize == Size(0, 0) then image else maxObjectSize
  }

  /** The scan step of a level: `1 + (scale <= 2)` pixels. */
  function Step(l: Level): (r: int)
    ensures r == 1 || r == 2
    ensures r == 2 <==> l.smallScale
  {
    if l.smallScale then 2 else 1
  }

  /** `cvCeil(a / s)` for the steps 1 and 2 that occur. */
  function CeilDiv(a: int, s: int): (r: int)
    requires s == 1 || s == 2
    ensures s * (r - 1) < a <= s * r
  {
    (a + s - 1) / s
  }

  /** The number of windows one level adds to `total`:
      `cvCeil(area.width / step) * cvCeil(area.height / step)`. */
  function Windows(l: Level, window: Size): (r: int)
    ensures WorkArea(l.sFrame, window).width > 0 && WorkArea(l.sFrame, window).height > 0 ==> r > 0
  {
    var area := WorkArea(l.sFrame, window);
    var s := Step(l);
    var cw, ch := CeilDiv(area.width, s), CeilDiv(area.height, s);
    if cw > 0 && ch > 0 then MulPositive(cw, ch); cw * ch else cw * ch
  }

  /** A product of two positive integers is positive. */
  lemma MulPositive(a: int, b: int)
    requires a > 0 && b > 0
    ensures a * b > 0
  {
  }

  /** The windows of levels `lo .. hi - 1`. */
  function SumWindows(levels: seq<Level>, window: Size, lo: int, hi: int): int
    requires 0 <= lo <= hi <= |levels|
    decreases hi - lo
  {
    if lo == hi then 0 else SumWindows(levels, window, lo, hi - 1) + Windows(levels[hi - 1], window)
  }

  /** The levels of a range of feasible levels scan at least one window each. */
  lemma SumWindowsAtLeast(levels: seq<Level>, window: Size, maxObj: Size, asWritten: bool, lo: int, hi: int)
    requires 0 <= lo <= hi <= |levels|
    requires forall j :: lo <= j < hi ==> IsFeasible(levels[j], window, maxObj, asWritten)
    ensures SumWindows(levels, window, lo, hi) >= hi - lo
    decreases hi - lo
  {
    if lo < hi {
      IsFeasibleWorkArea(levels[hi - 1], window, maxObj, asWritten);
      SumWindowsAtLeast(levels, window, maxObj, asWritten, lo, hi - 1);
    }
  }

  /** The integral image of one level, `sFrame.width + 1` columns wide,
      placed at column `x` of the shared buffer. */
  datatype Slice = Slice(order: nat, x: int, width: int)

  /** One outer pass: the levels whose integrals share the buffer, and the
      `total` number of windows handed to the classifier for them. */
  datatype Batch = Batch(slices: seq<Slice>, total: int)

  /** The column just past the last slice. */
  function End(s: seq<Slice>): int {
    if |s| == 0 then 0 else s[|s| - 1].x + s[|s| - 1].width
  }

  /** Slices laid out side by side from column 0. */
  predicate Contiguous(s: seq<Slice>) {
    (|s| > 0 ==> s[0].x == 0) && forall j :: 0 < j < |s| ==> s[j].x == s[j - 1].x + s[j - 1].width
  }

  /** The level orders of a list of slices. */
  function SliceOrders(s: seq<Slice>): seq<int> {
    seq(|s|, j requires 0 <= j < |s| => s[j].order)
  }

  /** The level orders of all passes, in order. */
  function Orders(bs: seq<Batch>): seq<int> {
    if |bs| == 0 then [] else Orders(bs[..|bs| - 1]) + SliceOrders(bs[|bs| - 1].slices)
  }

  /** `lo, lo + 1, .., hi - 1`. */
  function Range(lo: int, hi: int): (r: seq<int>)
    requires lo <= hi
    ensures |r| == hi - lo && forall j :: 0 <= j < |r| ==> r[j] == lo + j
  {
    seq(hi - lo, j requires 0 <= j < hi - lo => lo + j)
  }

  /** One pass is well formed: a non-empty run of consecutive feasible
      levels, each given `sFrame.width + 1` columns side by side from 0 and
      all inside the buffer, with `total` their window count, which is at
      least one window per level. */
  predicate BatchOk(b: Batch, levels: seq<Level>, window: Size, maxObj: Size, asWritten: bool, cap: int) {
    var s := b.slices;
    |s| > 0 && Contiguous(s) && s[0].order + |s| <= |levels|
    && (forall j :: 0 <= j < |s| ==>
          s[j].order == s[0].order + j && s[j].order < |levels|
          && s[j].width == levels[s[j].order].sFrame.width + 1
          && s[j].x + s[j].width <= cap
          && IsFeasible(levels[s[j].order], window, maxObj, asWritten))
    && b.total == SumWindows(levels, window, s[0].order, s[0].order + |s|)
    && b.total >= |s|
  }

  /** A pass `k` is closed only because the next level does not fit. */
  predicate Maximal(bs: seq<Batch>, k: int, levels: seq<Level>, cap: int)
    requires 0 <= k < |bs| - 1
  {
    var next := bs[k + 1].slices;
    |next| > 0 && 0 <= next[0].order < |levels|
    ==> End(bs[k].slices) + levels[next[0].order].sFrame.width + 1 > cap
  }

  /** What the packing loop achieves: its passes cover the feasible prefix
      of the levels, each exactly once and in order; every pass is well
      formed, and every pass but the last was closed because the next level
      did not fit in the buffer. */
  predicate Packed(bs: seq<Batch>, levels: seq<Level>, window: Size, maxObj: Size, asWritten: bool, cap: int) {
    var n := |Orders(bs)|;
    n < |levels| && !IsFeasible(levels[n], window, maxObj, asWritten)
    && (forall j :: 0 <= j < n ==> IsFeasible(levels[j], window, maxObj, asWritten))
    && Orders(bs) == Range(0, n)
    && (forall k :: 0 <= k < |bs| ==> BatchOk(bs[k], levels, window, maxObj, asWritten, cap))
    && (forall k :: 0 <= k < |bs| - 1 ==> Maximal(bs, k, levels, cap))
  }

  /** Appending a pass appends its orders. */
  lemma OrdersSnoc(bs: seq<Batch>, b: Batch)
    ensures Orders(bs + [b]) == Orders(bs) + SliceOrders(b.slices)
  {
    assert (bs + [b])[..|bs|] == bs;
  }

  /** Slice `j` holds level `start + j`, is `sFrame.width + 1` columns
      wide, and ends inside the buffer. */
  predicate SlicesFit(s: seq<Slice>, levels: seq<Level>, start: int, cap: int) {
    forall j :: 0 <= j < |s| ==>
      s[j].order == start + j && s[j].order < |levels|
      && s[j].width == levels[s[j].order].sFrame.width + 1
      && s[j].x + s[j].width <= cap
  }

  /** Appending the next level's slice at the end keeps the layout. */
  lemma SliceSnoc(s: seq<Slice>, levels: seq<Level>, start: int, cap: int, x: Slice)
    requires Contiguous(s) && SlicesFit(s, levels, start, cap)
    requires x.order == start + |s| < |levels| && x.width == levels[x.order].sFrame.width + 1
    requires x.x == End(s) && x.x + x.width <= cap
    ensures Contiguous(s + [x]) && SlicesFit(s + [x], levels, start, cap)
    ensures End(s + [x]) == x.x + x.width
  {
  }

  /** One outer pass of the packing loop of `detectMultiScale`, from level
      `start` on: the inner loop adds levels while the next one is feasible
      and its integral still fits within `cap` columns, summing their window
      counts. It returns the pass and the first level it did not take. */
  method PackPass(levels: seq<Level>, window: Size, maxObj: Size, asWritten: bool, cap: int, start: int)
    returns (b: Batch, next: int)
    requires 0 <= start < |levels| && !IsFeasible(levels[|levels| - 1], window, maxObj, asWritten)
    requires forall j :: 0 <= j <= start ==> IsFeasible(levels[j], window, maxObj, asWritten)
    requires levels[start].sFrame.width + 1 <= cap
    ensures start < next < |levels| && |b.slices| == next - start
    ensures forall j :: 0 <= j < next ==> IsFeasible(levels[j], window, maxObj, asWritten)
    ensures BatchOk(b, levels, window, maxObj, asWritten, cap) && b.slices[0].order == start
    ensures SliceOrders(b.slices) == Range(start, next)
    ensures End(b.slices) + levels[next].sFrame.width + 1 > cap || !IsFeasible(levels[next], window, maxObj, asWritten)
  {
    var i := start;
    var acc := levels[i].sFrame.width + 1;
    var total, prev := 0, 0;
    var slices: seq<Slice> := [];
    while acc <= cap && IsFeasible(levels[i], window, maxObj, asWritten)
      invariant start <= i < |levels|
      invariant forall j :: 0 <= j < i ==> IsFeasible(levels[j], window, maxObj, asWritten)
      invariant |slices| == i - start
      invariant Contiguous(slices) && prev == End(slices)
      invariant SlicesFit(slices, levels, start, cap)
      invariant acc == prev + levels[i].sFrame.width + 1
      invariant total == SumWindows(levels, window, start, i)
      invariant i == start ==> acc <= cap && IsFeasible(levels[i], window, maxObj, asWritten)
      decreases |levels| - i
    {
      SliceSnoc(slices, levels, start, cap, Slice(i, prev, levels[i].sFrame.width + 1));
      slices := slices + [Slice(i, prev, levels[i].sFrame.width + 1)];
      total := total + Windows(levels[i], window);
      i := i + 1;
      prev := acc;
      acc := acc + levels[i].sFrame.width + 1;
    }
    b, next := Batch(slices, total), i;
    PassOk(levels, window, maxObj, asWritten, cap, start, next, b);
  }

  /** The facts the inner loop keeps make a well-formed pass. */
  lemma PassOk(levels: seq<Level>, window: Size, maxObj: Size, asWritten: bool, cap: int, start: int, next: int, b: Batch)
    requires 0 <= start < next < |levels| && |b.slices| == next - start
    requires forall j :: 0 <= j < next ==> IsFeasible(levels[j], window, maxObj, asWritten)
    requires Contiguous(b.slices) && SlicesFit(b.slices, levels, start, cap)
    requires b.total == SumWindows(levels, window, start, next)
    ensures BatchOk(b, levels, window, maxObj, asWritten, cap) && b.slices[0].order == start
    ensures SliceOrders(b.slices) == Range(start, next)
  {
    assert b.slices[0].order == start;
    SumWindowsAtLeast(levels, window, maxObj, asWritten, start, next);
  }

  /** A pass starting at a level that did not fit after the previous pass
      keeps every closed pass maximal. */
  lemma MaximalSnoc(bs: seq<Batch>, b: Batch, levels: seq<Level>, cap: int)
    requires forall k :: 0 <= k < |bs| - 1 ==> Maximal(bs, k, levels, cap)
    requires |b.slices| > 0 && 0 <= b.slices[0].order < |levels|
    requires |bs| > 0 ==> End(bs[|bs| - 1].slices) + levels[b.slices[0].order].sFrame.width + 1 > cap
    ensures forall k :: 0 <= k < |bs| ==> Maximal(bs + [b], k, levels, cap)
  {
    forall k | 0 <= k < |bs|
      ensures Maximal(bs + [b], k, levels, cap)
    {
      if k < |bs| - 1 {
        assert Maximal(bs, k, levels, cap);
        assert (bs + [b])[k] == bs[k] && (bs + [b])[k + 1] == bs[k + 1];
      }
    }
  }

  /** The packing loop of `detectMultiScale`: each outer pass starts a new
      buffer at column 0 with the first level not yet scanned, and the loop
      stops at the first infeasible level. */
  method PackLevels(levels: seq<Level>, window: Size, maxObj: Size, asWritten: bool, integralFactor: int, cols: int)
    returns (batches: seq<Batch>)
    requires |levels| > 0 && !IsFeasible(levels[|levels| - 1], window, maxObj, asWritten)
    requires integralFactor >= 1 && cols >= 0
    requires forall j :: 0 <= j < |levels| ==> levels[j].sFrame.width <= cols
    ensures Packed(batches, levels, window, maxObj, asWritten, integralFactor * (cols + 1))
  {
    var cap := integralFactor * (cols + 1);
    MulAtLeastOne(integralFactor, cols + 1);
    var i := 0;
    batches := [];
    while IsFeasible(levels[i], window, maxObj, asWritten)
      invariant 0 <= i < |levels|
      invariant forall j :: 0 <= j < i ==> IsFeasible(levels[j], window, maxObj, asWritten)
      invariant Orders(batches) == Range(0, i)
      invariant forall k :: 0 <= k < |batches| ==> BatchOk(batches[k], levels, window, maxObj, asWritten, cap)
      invariant forall k :: 0 <= k < |batches| - 1 ==> Maximal(batches, k, levels, cap)
      invariant |batches| > 0 ==>
        End(batches[|batches| - 1].slices) + levels[i].sFrame.width + 1 > cap || !IsFeasible(levels[i], window, maxObj, asWritten)
      decreases |levels| - i
    {
      var b, next := PackPass(levels, window, maxObj, asWritten, cap, i);
      OrdersSnoc(batches, b);
      assert Range(0, i) + Range(i, next) == Range(0, next);
      MaximalSnoc(batches, b, levels, cap);
      batches := batches + [b];
      i := next;
    }
  }

  /** `integralFactor * (cols + 1)` is at least `cols + 1`. */
  lemma MulAtLeastOne(f: int, c: int)
    requires f >= 1 && c >= 0
    ensures f * c >= c
  {
  }

  /** The failed `CV_Assert` of a detector entry point. */
  datatype DetectError = AssertionFailed

  /** `CascadeClassifier_GPU_LBP::detectMultiScale` up to the device calls:
      the argument check, the default for `maxObjectSize`, and the level
      packing, with `isFeasible` as written when `asWritten`. The first
      level has scale 1, so its frame is the image and its window the
      classifier window; later levels shrink the frame. */
  method PlanDetection(loaded: bool, scaleFactor: real, depth8U: bool, image: Size, window: Size,
                       maxObjectSize: Size, asWritten: bool, integralFactor: int, levels: seq<Level>)
    returns (r: Result<seq<Batch>, DetectError>)
    requires window.width > 0 && window.height > 0 && image.width >= 0
    requires |levels| > 0 && levels[0] == Level(image, window, true)
    requires !IsFeasible(levels[|levels| - 1], window, DefaultMaxObject(maxObjectSize, image), asWritten)
    requires integralFactor >= 1
    requires forall j :: 0 <= j < |levels| ==> levels[j].sFrame.width <= image.width
    ensures r.Failure? <==> !(loaded && scaleFactor > 1.0 && depth8U)
    ensures r.Success? ==> Packed(r.value, levels, window, DefaultMaxObject(maxObjectSize, image),
                                  asWritten, integralFactor * (image.width + 1))
  {
    if !(loaded && scaleFactor > 1.0 && depth8U) {
      return Failure(AssertionFailed);
    }
    var maxObj := DefaultMaxObject(maxObjectSize, image);
    var batches := PackLevels(levels, window, maxObj, asWritten, integralFactor, image.width);
    return Success(batches);
  }

  /** With the default object size, the first level is feasible exactly
      when the classifier window fits in the image; as written it must
      also be no taller than the image is wide. */
  lemma FirstLevelFeasible(image: Size, window: Size, asWritten: bool)
    ensures IsFeasible(Level(image, window, true), window, DefaultMaxObject(Size(0, 0), image), asWritten)
        <==> Le(window, image) && (asWritten ==> window.height <= image.width)
  {
  }

  /** A 100x300 image, a 20x60 window and the default object size: at
      scale 2 the frame is 50x150 and the scaled window 40x120. The code
      compares 120 with the image WIDTH 100 and finds the level infeasible;
      the corrected test scans it. */
  lemma PortraitLevelDiverges()
    ensures var l := Level(Size(50, 150), Size(40, 120), true);
      var maxObj := DefaultMaxObject(Size(0, 0), Size(100, 300));
      !IsFeasible(l, Size(20, 60), maxObj, true) && IsFeasible(l, Size(20, 60), maxObj, false)
  {
  }

  /** On that image the packing as written scans the first level alone and
      stops, while the corrected packing goes on past the scale-2 level. */
  lemma PortraitPackingDiverges(levels: seq<Level>, cap: int, bs: seq<Batch>, cs: seq<Batch>)
    requires |levels| >= 2
    requires levels[0] == Level(Size(100, 300), Size(20, 60), true)
    requires levels[1] == Level(Size(50, 150), Size(40, 120), true)
    requires Packed(bs, levels, Size(20, 60), Size(100, 300), true, cap)
    requires Packed(cs, levels, Size(20, 60), Size(100, 300), false, cap)
    ensures |Orders(bs)| == 1 && |Orders(cs)| >= 2
  {
    PortraitLevelDiverges();
    assert IsFeasible(levels[0], Size(20, 60), Size(100, 300), true);
    assert IsFeasible(levels[0], Size(20, 60), Size(100, 300), false);
  }
}

=== FILE: wrappers.dfy ===
/** Failure-compatible result types shared by the modules of this model. */
module Wrappers {
  /** An optional value: a pointer argument that may be null, or a field
      that may be missing from a parsed model. */
  datatype Option<+T> = None | Some(value: T)

  /** Either a value or the error the operation reports. */
  datatype Result<+R, +E> = Success(value: R) | Failure(error: E) {
    predicate IsFailure() {
      Failure?
    }

    function PropagateFailure<U>(): Result<U, E>
      requires Failure?
    {
      Failure(error)
    }

    function Extract(): R
      requires Success?
    {
      value
    }
  }
}
